=== FILE: README.md ===
# ShopEasy marketplace backend: product discovery, cart and merchant authoring

A Dafny model of the core of the ShopEasy backend, an Express and Mongoose service.
The core consists of:

- the catalogue listing (`getAllProducts` with its filters, sorts, flat limit or
  18-per-page pagination, and the discount-ranked aggregation);
- the batch merchant join that decorates every listing;
- the product page (`getProductById`, with the similar products and the three-stage
  recommendations, de-duplicated);
- the cart (the `getCart` price fold with its flat delivery rule, and the line-store
  operations add-or-increment, set quantity, remove and clear);
- merchant product authoring (add, update, delete, the merchant's own paged listing),
  including price derivation, tag normalisation, ownership checks and the images
  orphaned by an update or a delete;
- the product schema's `finalPrice` default and its two pre-save hooks;
- the image service's public-id extraction and delete requests.

The document store is modelled by sequences:

- A query is a filter, a stable descending sort (`Ordering.SortDesc`) and a take.
- Store collections whose documents the controllers change are classes with a `seq`
  field: `Cart.CartStore` for cart lines and `Authoring.ProductStore` for products.
- The cart store keeps its lines in a sequence rather than a map keyed by product, so
  storage order, which `getCart` reports, is kept. The unique (user, product) index of
  the cart schema is the class invariant `Valid`.
- `Products.ProductDocument` is a Mongoose document. Its fields are updated in place by
  the pre-save hooks, and it records which paths were modified.

Money is exact (`real`). `Math.round` is `floor(x + 1/2)`. The listing's price and rating
parameters are absent, a number, or text that `Number` cannot read (NaN):

- In the plain listing, Mongoose cannot cast NaN for the query, so the request fails
  with a 500 (`Listing.SimpleSelection`).
- The discount ranking's `$match` is not cast. There every comparison with NaN fails,
  so such a parameter empties the ranking (`Listing.UnreadableNumberMatchesNothing`).

The text parameter `q` is absent, a valid regular expression, or one that `new RegExp`
refuses. A refused one throws before the sort is looked at, so every sort answers 500.
Other numeric parameters arrive already coerced: `None` stands for one that is absent
or does not parse.

A `$sort` followed by `$limit n` is specified as a top-n (`Ordering.TopOf`): the picked
products are in rank order, and every product left out ranks no higher than every
product picked.

Three behaviours of the code are worth knowing. None of them is a defect of the model:

- `addProduct` computes a rounded, delivery-inclusive `finalPrice`. Mongoose then
  reports `price` as modified on a new document, so the first pre-save hook overwrites
  that value with the unrounded `price - price * discount / 100`. The model stores the
  latter (`Authoring.CreatedFrom`, `Products.ProductDocument.Save`).
- `updateProduct` goes through `findByIdAndUpdate`, which runs no save hooks. The
  `finalPrice` it writes is therefore rounded and excludes delivery, even when there
  is no discount (`Pricing.UpdateRoundsWithoutDiscount`).
- On add, a blank tag is dropped. On update, it is stored as the empty string
  (`Authoring.BlankTagPaths`).

Also, an image URL whose only path segment after `/image/upload/` is the file name gives
an empty public id, so no delete request is made for it
(`Images.SingleSegmentGivesEmptyId`).

## Model

| member | source | states |
|---|---|---|
| Text.Split | Controllers/GetProductsController.js:96 | `split` for a non-empty separator: at least one piece |
| Text.SplitOnePiece | Controllers/GetProductsController.js:96 | a string splits into more than one piece exactly when it holds the separator |
| Text.JoinSplit | services/imageService.js:9 | joining the pieces with the separator gives back the string |
| Text.Trim | Controllers/MerchantProductController.js:216 | `trim`: no white space at either end, and only white space cut away |
| Text.ToLower | Controllers/MerchantProductController.js:204 | `toLowerCase`: same length, each character mapped by `LowerChar`, so no upper-case letter remains and a lower-case string is unchanged |
| Pricing.Round | Controllers/MerchantProductController.js:52 | `Math.round`: the integer within half of the argument, halves rounded up |
| Pricing.OrZero | Controllers/MerchantProductController.js:47-49 | `parseFloat(v) \|\| 0`: a missing or unparsable number becomes 0, any other value is kept |
| Pricing.DefaultFinalPrice | Models/Product.js:13-15 | the price less `discount` percent of it; with no discount it equals the price |
| Pricing.DefaultFinalPriceBounds | Models/Product.js:13-15 | for a non-negative price and a discount within 0..100 the final price lies between 0 and the price |
| Pricing.DiscountedPrice | Controllers/MerchantProductController.js:51-53 | with a positive discount the price is rounded to within half of the exact discounted price; otherwise the price is kept unrounded |
| Pricing.AddFinalPrice | Controllers/MerchantProductController.js:55 | the add path's final price is the discounted price plus the delivery charge |
| Pricing.UpdatedFinalPrice | Controllers/MerchantProductController.js:196-200 | the update path's final price is the exact discounted price rounded to the nearest integer, with no delivery charge |
| Pricing.UpdateRoundsWithoutDiscount | Controllers/MerchantProductController.js:196-200 | a price of 99.5 with no discount is kept by the add path and rounded to 100 by the update path |
| Pricing.DiscountPercentage | Controllers/GetProductsController.js:153-160 | `(price - finalPrice) / price * 100`; undefined (a pipeline error) exactly when the price is 0 |
| Pricing.PercentageRecoversDiscount | Controllers/GetProductsController.js:153-160 | on a product whose final price is the schema default, the ranking percentage is the stored discount |
| Pricing.DiscountFraction | Controllers/GetProductsController.js:301-303 | the wish-list comparator's `(price - finalPrice) / price` |
| Products.Take | Controllers/GetProductsController.js:265 | `$limit n`: the first n documents, or all when there are fewer |
| Products.FindById | Controllers/MerchantProductController.js:151 | the stored document with that id, or none exactly when no document has it |
| Products.FoundUnique | Controllers/MerchantProductController.js:151 | with unique ids, looking up a stored document's id finds that very document |
| Products.IndexOfId | Controllers/MerchantProductController.js:151 | the position of the document with that id, or none exactly when no document has it |
| Products.ProductDocument.constructor | Models/Product.js:9-29 | schema defaults: discount 0, rating 0, `isFeatured` false, images empty; `finalPrice` defaults to the discounted price, so to the price when no discount is given |
| Products.ProductDocument.Save | Models/Product.js:46-59 | a rating outside 0..5 rejects the save and changes nothing; otherwise `finalPrice` is recomputed when price or discount was modified and kept otherwise, and `isFeatured`, `specifications` and `images` are defaulted without touching values already present |
| Products.SaveTwiceKeepsFinalPrice | Models/Product.js:47-50 | the first save of a new document overwrites a given final price with the default; a second save with no changes keeps it |
| Ordering.SortDesc | Controllers/GetProductsController.js:117-122 | `sort()`: a permutation of its input, in descending key order |
| Ordering.PrefixIsTop | Controllers/GetProductsController.js:162-193 | the first n of a sorted permutation are a top-n of the input |
| Ordering.TopMembers | Controllers/GetProductsController.js:162-193 | a top-n holds only input products, and is a permutation of the input when as long as it |
| Pagination.IntOr | Controllers/GetProductsController.js:9-10 | `parseInt(x) \|\| d`: a missing, unparsable or zero value gives the fallback |
| Pagination.Ceil | Controllers/GetProductsController.js:22 | `Math.ceil`: the least integer not below the argument |
| Pagination.PageWindow | Controllers/GetProductsController.js:9-11 | the page and the limit are the given non-zero numbers, else 1 and the endpoint's default; `skip = (page - 1) * limit` |
| Pagination.TotalPages | Controllers/GetProductsController.js:22 | for a positive limit, the fewest pages of `limit` that hold all documents |
| Pagination.CeilPages | Controllers/GetProductsController.js:22 | `Math.ceil(total / limit)` is that fewest number of pages |
| Pagination.PageOf | Controllers/GetProductsController.js:14 | `skip().limit()`: the store refuses a negative skip (a 500); otherwise the window of at most `limit` documents starting at `skip`, and of `abs(limit)` documents for a negative limit |
| Pagination.Paginate | Controllers/GetProductsController.js:8-27 | `paginateResults`: that page, and a block with the current page, the limit, the total and the page count |
| Pagination.EveryDocumentOnItsPage | Controllers/GetProductsController.js:9-14 | document i sits on page `i / limit + 1` at position `i % limit` |
| Pagination.FortyItemsThreePages | Controllers/GetProductsController.js:22 | 40 documents at 18 per page make 3 pages, the third holding 4 |
| Enrichment.Plain | Controllers/GetProductsController.js:31 | a product listed with no merchant entry attached |
| Enrichment.MerchantIds | Controllers/GetProductsController.js:34-38 | the distinct merchant ids the products carry |
| Enrichment.DetailsOf | Controllers/GetProductsController.js:47-52 | the merchant fields the listing shows, the phone number renamed |
| Enrichment.FetchMerchants | Controllers/GetProductsController.js:42-44 | exactly the stored merchants whose id was asked for |
| Enrichment.BuildLookup | Controllers/GetProductsController.js:46-54 | every fetched merchant is in the table, under its id and with its details |
| Enrichment.Attach | Controllers/GetProductsController.js:60 | the looked-up details, or `null` for a product with no merchant or a dangling one |
| Enrichment.AttachAll | Controllers/GetProductsController.js:56-62 | one attached entry per product, in order |
| Enrichment.Enrich | Controllers/GetProductsController.js:30-63 | length and order kept; an empty list, or one without merchant ids, comes back unchanged with no fetch; otherwise exactly one fetch over the distinct ids, and `null` exactly for products without a stored merchant |
| Enrichment.EnrichFindsOwnMerchant | Controllers/GetProductsController.js:46-62 | with unique merchant ids, a product gets its own merchant's details |
| Enrichment.EnrichIgnoresOtherMerchants | Controllers/GetProductsController.js:42-44 | merchants no listed product refers to do not change the result |
| Enrichment.EnrichedFromInput | Controllers/GetProductsController.js:56-62 | every enriched entry carries one of the given products |
| Listing.Number | Controllers/GetProductsController.js:171 | `Number(v)`: a number exactly for a numeric parameter; absent or unreadable text is NaN |
| Listing.NumberOr | Controllers/GetProductsController.js:79-93 | a destructuring default replaces only an absent parameter; given text is read by `Number` |
| Listing.CommonClauses | Controllers/GetProductsController.js:95-114 | a condition is added for each of categories, minimum rating, `featured=true` and text, and none when none is given |
| Listing.CommonClausesMeaning | Controllers/GetProductsController.js:95-114 | a product passes those conditions exactly when its category is listed, its rating reaches the minimum, it is featured if asked, and the text matches title, description, brand or a tag |
| Listing.PriceClause | Controllers/GetProductsController.js:79-93 | the final price lies between the given or default bounds (0 and 100000000); an unreadable bound admits nothing |
| Listing.SimpleClausesMeaning | Controllers/GetProductsController.js:93-114 | the plain listing's filter is the price window and the shared conditions |
| Listing.UnreadableNumberMatchesNothing | Controllers/GetProductsController.js:166-190 | in the discount ranking, an unreadable `minPrice`, `maxPrice` or `minRating` makes both the written and the corrected `$match` admit no product |
| Listing.DiscountClausesAsWritten | Controllers/GetProductsController.js:166-190 | the discount ranking's `$match` as written; it is empty exactly when no filter is given |
| Listing.OneBoundMatchesNothing | Controllers/GetProductsController.js:170-172 | with only one price bound given, the written `$match` rejects every product |
| Listing.MinPriceOnlyExample | Controllers/GetProductsController.js:170-172 | `minPrice=100` and a product at 500: the plain listing wants it and the discount ranking drops it |
| Listing.DiscountClauses | Controllers/GetProductsController.js:166-190 | the discount `$match` with a missing bound taken from the plain listing's default; empty exactly when no filter is given |
| Listing.DiscountFilterAgreesWithListing | Controllers/GetProductsController.js:166-186 | the corrected `$match` selects exactly what the plain listing's filter selects |
| Listing.DiscountClausesAgree | Controllers/GetProductsController.js:170-172 | the written and the corrected `$match` are the same unless exactly one price bound is given |
| Listing.SortKey | Controllers/GetProductsController.js:117-125 | a sort key exists exactly for `price_asc`, `price_desc` and `featured` |
| Listing.Ordered | Controllers/GetProductsController.js:116-125 | a permutation of the matches, in the order the named sort asks for |
| Listing.FlatLimit | Controllers/GetProductsController.js:129-130 | `limit(n)`: 0 returns everything; otherwise the first `abs(n)` documents |
| Listing.DiscountRank | Controllers/GetProductsController.js:153-162 | the rank is the discount percentage of a product with a non-zero price |
| Listing.TopN | Controllers/GetProductsController.js:332-333 | `$sort` then `$limit n`: a top-n of the candidates, `min(n, count)` of them; distinct ids stay distinct |
| Listing.TopNMembers | Controllers/GetProductsController.js:332-333 | the pick holds only candidates, in rank order, and every candidate when fewer than n were picked |
| Listing.Matched | Controllers/GetProductsController.js:93-114 | the products a filter keeps are exactly the stored ones that meet every clause |
| Listing.Matching | Controllers/GetProductsController.js:93-114 | the plain filter keeps exactly the stored products within the price window that meet the shared conditions |
| Listing.SimpleSelection | Controllers/GetProductsController.js:93-137 | a 500 for an invalid `q` or an unreadable price or rating; otherwise a flat list without a block when `limit` is given, else a page of at most 18 with a block; only matching stored products |
| Listing.RankMatched | Controllers/GetProductsController.js:151-197 | a 500 exactly for a zero price or a non-positive `$limit`; otherwise the top `limit` matches by discount percentage (all of them, as a permutation, when no limit is given), in descending order |
| Listing.DiscountSelection | Controllers/GetProductsController.js:107-203 | a 500 for an invalid `q`; the written ranking lists only products its written `$match` admits, and with exactly one price bound it lists nothing (or fails on a non-positive limit) |
| Listing.OneBoundMatchesNone | Controllers/GetProductsController.js:170-172 | with exactly one price bound the written `$match` keeps no stored product |
| Listing.DiscountSelectionIntended | Controllers/GetProductsController.js:107-203 | a 500 for an invalid `q`; the corrected ranking lists only products its `$match` admits, and with a price bound only products the plain filter admits |
| Listing.GetAllProducts | Controllers/GetProductsController.js:77-144 | every failure is a 500; an invalid `q` always fails, and an unreadable price or rating fails every sort but `discount_desc`; `discount_desc` has no pagination block; otherwise the block is present exactly when no `limit` is given |
| Listing.GetAllProductsIntended | Controllers/GetProductsController.js:77-203 | the listing with the corrected `$match`; it equals the written listing except for `discount_desc` with exactly one price bound |
| Listing.ListedProductsMatch | Controllers/GetProductsController.js:93-114 | every product the plain listing returns is stored and satisfies the price window, categories, rating, featured flag and text |
| Listing.SimpleSelectionIsRun | Controllers/GetProductsController.js:127-137 | page or flat limit, the plain listing is a contiguous run of the sorted matches |
| Listing.ListedInRequestedOrder | Controllers/GetProductsController.js:117-122 | ascending or descending final price, or all featured products first, as `sort` names |
| Listing.PagedListing | Controllers/GetProductsController.js:93-136 | with no `limit` the listing fails exactly for an invalid `q`, an unreadable price or rating, or a negative page; otherwise it is paged 18 at a time with a correct block |
| Listing.FlatListing | Controllers/GetProductsController.js:93-132 | with a `limit` the listing succeeds exactly when `q` and the numbers are readable; it is then unpaged and lists `limit(n)` of the sorted matches: with a sort key, a top-n of them; `limit=0` a permutation of all of them; any other at most `abs(limit)` |
| Listing.DiscountListingOutcome | Controllers/GetProductsController.js:107-203 | the written ranking fails exactly for an invalid `q`, a zero price among its written matches or a non-positive `$limit`; otherwise it lists the top `limit` of those matches by discount percentage, a permutation of all of them when no limit is given; with exactly one price bound it lists no product |
| Listing.DiscountListingOutcomeIntended | Controllers/GetProductsController.js:107-203 | the corrected ranking fails in the same cases over its own matches and otherwise lists their top `limit`, all of them when no limit is given; with a price bound every listed product meets the plain filter |
| Listing.DiscountListingRanked | Controllers/GetProductsController.js:162 | the discount ranking is in descending discount percentage |
| Listing.TwentyPercentBeforeTen | Controllers/GetProductsController.js:151-162 | a product 20% off is listed before one 10% off |
| Dedup.RemoveDuplicates | Controllers/GetProductsController.js:369-377 | the one-pass filter with a growing `seen` set computes the keep-first specification |
| Dedup.KeptFresh | Controllers/GetProductsController.js:371-376 | the filter keeps distinct ids: exactly those of the input not already seen |
| Dedup.DedupedDistinct | Controllers/GetProductsController.js:369-377 | the result has no duplicate ids and loses none |
| Dedup.KeptSubsequence | Controllers/GetProductsController.js:371-376 | the filter only drops items |
| Dedup.DedupedSubsequence | Controllers/GetProductsController.js:369-377 | relative order is kept |
| Dedup.FilterSubsequence | Controllers/GetProductsController.js:236 | filtering keeps relative order |
| Dedup.FirstWithId | Controllers/GetProductsController.js:373 | the first item with that id, or none when no item has it |
| Dedup.KeptFirst | Controllers/GetProductsController.js:371-376 | a kept item is the first occurrence of its id |
| Dedup.DedupedKeepsFirst | Controllers/GetProductsController.js:369-377 | every kept item is the first occurrence of its id in the input |
| Dedup.KeptDistinct | Controllers/GetProductsController.js:371-376 | a list of fresh distinct ids passes unchanged |
| Dedup.DedupedIdempotent | Controllers/GetProductsController.js:369-377 | a list without duplicates passes unchanged, so the filter is idempotent |
| Dedup.FilterDistinct | Controllers/GetProductsController.js:235-236 | filtering out the shown product keeps ids distinct |
| Recommendations.GetSimilarProducts | Controllers/GetProductsController.js:251-287 | the sample first; a top-up only when fewer than 5 were sampled and the product has a brand, made of the first same-brand products in storage order, capped at `10 - found`; at most 10 stored products, never the shown one |
| Recommendations.WishlistStage | Controllers/GetProductsController.js:298-303 | exactly the discounted wish-list products other than the shown one, best discount fraction first |
| Recommendations.DiscountCandidates | Controllers/GetProductsController.js:315-321 | exactly the stored discounted products not excluded |
| Recommendations.PopularCandidates | Controllers/GetProductsController.js:347-353 | exactly the stored products rated 4 or more not excluded |
| Recommendations.StageTwoFacts | Controllers/GetProductsController.js:308-337 | stage 2 runs only below 10, excludes the source and the chosen ids, and picks the top `10 - found` discounted candidates by discount percentage, all of them when there are fewer |
| Recommendations.StageThreeFacts | Controllers/GetProductsController.js:340-359 | stage 3 likewise picks the top missing number of products rated 4 or more, by rating then reviews |
| Recommendations.ComposeMembers | Controllers/GetProductsController.js:308-358 | every added product is stored, is not the shown one, and was not in the wish-list part |
| Recommendations.ComposeDistinct | Controllers/GetProductsController.js:308-358 | the added products have distinct ids |
| Recommendations.ComposeUndiscounted | Controllers/GetProductsController.js:340-358 | stage 3 adds only undiscounted products, because stage 2 already took every discounted one |
| Recommendations.ComposeOrder | Controllers/GetProductsController.js:332-354 | the stage-2 block is in discount order, the stage-3 block in popularity order |
| Recommendations.ComposeComplete | Controllers/GetProductsController.js:308-358 | a list shorter than 10 holds every eligible product |
| Recommendations.ComposeBest | Controllers/GetProductsController.js:308-358 | split at the end of stage 2, each block of the list is its stage's top pick over its candidates |
| Recommendations.ComposeStages | Controllers/GetProductsController.js:307-359 | stages 2 and 3 extend the wish-list part to a well-staged list |
| Recommendations.StagedExcludesSource | Controllers/GetProductsController.js:300 | the shown product is never recommended |
| Recommendations.RunStages | Controllers/GetProductsController.js:307-359 | stages 2 and 3 run over the wish-list part give a list `getRecommendedProducts` may return |
| Recommendations.GetRecommendedProducts | Controllers/GetProductsController.js:290-366 | a failing stage 2 yields the empty list; otherwise the wish-list part followed by stage 2's and stage 3's top picks over their candidates, complete when shorter than 10, never the shown product |
| Recommendations.ShownItems | Controllers/GetProductsController.js:235-241 | at most 10 distinct products, none the shown one, each with the entry of its first occurrence; a list shorter than 10 leaves out no other product |
| Recommendations.OthersFacts | Controllers/GetProductsController.js:235-240 | the de-duplicated list without the shown product has distinct ids, first occurrences only, and every other product's id |
| Recommendations.ShownPrefix | Controllers/GetProductsController.js:240-241 | the cut to 10 keeps distinct ids and members, and cuts nothing from a shorter list |
| Recommendations.ShownInOrder | Controllers/GetProductsController.js:235-241 | the shown list keeps the order of the de-duplicated list and of the enriched list |
| Recommendations.Shown | Controllers/GetProductsController.js:235-241 | `removeDuplicates`, the filter and the slice compute `ShownItems` |
| Recommendations.GetProductById | Controllers/GetProductsController.js:206-248 | 400 for an invalid id, 404 for an unknown one; otherwise the enriched product, `ShownItems` of `GetSimilarProducts` as the similar products, and `ShownItems` of a recommendation list that `getRecommendedProducts` may return |
| Cart.LineIndex | Middlewares/CartMiddleware.js:22-25 | the position of the user's line for the product, or none exactly when there is no such line |
| Cart.LinesOf | Controllers/CartController.js:64 | exactly the user's lines, in storage order |
| Cart.Keep | Controllers/CartController.js:214 | the lines not dropped; unique keys are kept unique |
| Cart.PriceLine | Controllers/CartController.js:77-79 | `actualPrice = price * qty`, `finalPrice = finalPrice * qty`, discount their difference |
| Cart.Priced | Controllers/CartController.js:86-91 | one priced line per cart line, in order |
| Cart.FoldIsSum | Controllers/CartController.js:76-99 | the reduce adds each column's sum and the quantity sum to its start, and appends the priced lines in order |
| Cart.DiscountIsDifference | Controllers/CartController.js:79 | the total discount is the actual total less the final total |
| Cart.Populate | Controllers/CartController.js:64-73 | every line gets its product; fails exactly when a product is missing |
| Cart.DeliveryCharge | Controllers/CartController.js:112 | 0 exactly from 3 lines on, 50 below |
| Cart.GetCart | Controllers/CartController.js:62-125 | a 500 exactly when a line's product is missing |
| Cart.CartTotals | Controllers/CartController.js:76-113 | count and item list match the user's lines in order; each total is its column's sum; `totalItems` is the quantity sum; delivery is 0 from 3 lines on and 50 below; `grandTotal` is final total plus delivery |
| Cart.LinesOfOwn | Controllers/CartController.js:64 | a list of the user's own lines is all theirs |
| Cart.PricedProduct | Controllers/CartController.js:67 | a product with the given id, price and final price |
| Cart.ExampleProducts | Controllers/CartController.js:64-73 | three products, the first two at 600/500 and 300/300 |
| Cart.TwoLinesPayDelivery | Controllers/CartController.js:112-113 | two lines totalling 1300 pay 50 delivery, 1350 in all |
| Cart.ThreeLinesShipFree | Controllers/CartController.js:112-113 | a third distinct line makes delivery free |
| Cart.CartStore.constructor | Models/UserCart.js:33 | an empty store satisfies the unique (user, product) invariant |
| Cart.CartStore.AddToCart | Controllers/CartController.js:9-48 | 404 for a missing product; an existing line is incremented by the requested quantity (1 by default) with `priceAtAddition` kept; otherwise one new line with the product's current final price; unique keys kept |
| Cart.CartStore.UpdateCartItem | Controllers/CartController.js:133-170 | the route's `validateProduct` answers 404 first when the body names no stored product; then a missing or sub-1 quantity is a 400; an absent line is a 404; otherwise exactly that line's quantity is set; nothing changes on a failure |
| Cart.CartStore.RemoveFromCart | Controllers/CartController.js:178-204 | a 404 exactly when the (user, product) line is absent; otherwise that line is cut out and every other line stays in order |
| Cart.CartStore.ClearCart | Controllers/CartController.js:212-226 | deletes every line of the user and no other |
| Cart.AddTwiceIncrements | Controllers/CartController.js:15-29 | adding 2 then 3 of a product leaves one line of 5 at the first price |
| Images.FreeTail | services/imageService.js:10 | the longest suffix without `/` or `.` |
| Images.StripExtension | services/imageService.js:10 | `replace(/\.[^/.]+$/, "")`: a final extension is cut off; any other string is left alone |
| Images.LastTwo | services/imageService.js:9 | `slice(-2)` |
| Images.ExtractPublicId | services/imageService.js:4-24 | no id exactly for an empty URL |
| Images.DropsVersionSegment | services/imageService.js:13-16 | with the marker, the id is the path after the version segment, extension cut off |
| Images.VersionedUploadExample | services/imageService.js:13-16 | `.../image/upload/v1712345/products/abc123.webp` gives `products/abc123` |
| Images.WebpExtension | services/imageService.js:16 | the `.webp` extension is cut off |
| Images.SingleSegmentGivesEmptyId | services/imageService.js:14-16 | a single segment after the marker gives the empty id |
| Images.KeepsFolderAndName | services/imageService.js:9-10 | without the marker, the id is the last two segments, extension cut off |
| Images.FallbackHasOneSlashAtMost | services/imageService.js:9-10 | without the marker, the id holds at most one `/` |
| Images.DeleteImage | services/imageService.js:44-60 | no request exactly when no non-empty id comes out; otherwise one destroy of that id |
| Images.DeleteMultiple | services/imageService.js:62-70 | one delete per URL, in order |
| Images.DeleteMultipleAppend | services/imageService.js:64 | deleting a list in two parts issues the same requests |
| Authoring.NormalizeTag | Controllers/MerchantProductController.js:60 | a non-string becomes empty; a string becomes exactly its trimmed text, lower-cased |
| Authoring.Truncate | Controllers/MerchantProductController.js:62 | a prefix of at most 30 characters; short tags unchanged |
| Authoring.ProcessTagValues | Controllers/MerchantProductController.js:58-63 | never more tags than submitted |
| Authoring.ProcessedTagsStored | Controllers/MerchantProductController.js:58-63 | every stored tag is non-empty, at most 30 long and lower-case |
| Authoring.ProcessedTagsSubmitted | Controllers/MerchantProductController.js:58-63 | every stored tag comes from a submitted value |
| Authoring.ProcessedTagsComplete | Controllers/MerchantProductController.js:58-63 | every submitted value that normalises to a non-empty tag is stored |
| Authoring.ProcessTags | Controllers/MerchantProductController.js:58-63 | a non-array gives no tags |
| Authoring.AsTagValues | Controllers/MerchantProductController.js:58 | strings as submitted tag values |
| Authoring.NormalTagsKept | Controllers/MerchantProductController.js:58-63 | tags that are already normal pass unchanged |
| Authoring.UpdateTags | Controllers/MerchantProductController.js:202-206 | a non-array gives no tags; a non-string element is a 500; otherwise every tag is normalised, blanks kept |
| Authoring.UpdateTagValues | Controllers/MerchantProductController.js:204 | a 500 exactly when an element is not a string; otherwise one normalised tag per element |
| Authoring.BlankTagIsEmpty | Controllers/MerchantProductController.js:60 | a blank tag normalises to the empty tag |
| Authoring.BlankTagPaths | Controllers/MerchantProductController.js:58-63 | a blank tag is dropped on add and stored empty on update |
| Authoring.NewImages | Controllers/MerchantProductController.js:180-182 | any non-array image value, falsy or not, is stored as the empty list |
| Authoring.Orphaned | Controllers/MerchantProductController.js:166-177 | the old main image when replaced by a different one, then, for a truthy `images` value, the old images missing from the new list; otherwise at most the main image |
| Authoring.FalsyAndEmptyImages | Controllers/MerchantProductController.js:172-182 | a falsy `images` value orphans no old image though the stored list becomes empty; an empty array orphans them all |
| Authoring.ImagesToDelete | Controllers/MerchantProductController.js:166-177 | the imperative build of the list computes `Orphaned` |
| Authoring.StoredImages | Controllers/MerchantProductController.js:270-272 | the main image when set, then every image of the list |
| Authoring.Acceptable | Models/Product.js:4-21 | the required title, category and main image are present, a blank title or category is rejected, and the rating lies in 0..5 |
| Authoring.BlankTrimsEmpty | Models/Product.js:4 | a blank string trims to the empty string |
| Authoring.TrimmedOr | Controllers/MerchantProductController.js:67 | `s?.trim() \|\| ''` |
| Authoring.RollbackImages | Controllers/MerchantProductController.js:34-35 | the uploaded main image when set, and every uploaded image |
| Authoring.SaveNewDocument | Controllers/MerchantProductController.js:46-92 | the save succeeds exactly when title, category and main image are non-empty and the rating lies in 0..5; the stored product then holds exactly what `CreatedFrom` says |
| Authoring.TrimStringFields | Controllers/MerchantProductController.js:209-217 | every listed text field with a non-empty value is trimmed; no key is added or removed |
| Authoring.TrimStep | Controllers/MerchantProductController.js:216 | one turn of the loop extends the trimmed fields by one |
| Authoring.TrimStepAt | Controllers/MerchantProductController.js:216 | after one loop turn a single field reads its value trimmed over the longer list of fields |
| Authoring.TrimStepSame | Controllers/MerchantProductController.js:216 | trimming the field a second time leaves it as trimmed once |
| Authoring.TextField | Controllers/MerchantProductController.js:209-217 | a given text field is written trimmed; otherwise the old value stays |
| Authoring.TrimmedField | Controllers/MerchantProductController.js:209-217 | after the loop, a text field reads its trimmed new value |
| Authoring.UpdateAcceptable | Controllers/MerchantProductController.js:219-223 | accepted updates carry only string tags and a rating in 0..5 |
| Authoring.BlankTitleRejected | Controllers/MerchantProductController.js:216-223 | a blank title is trimmed to empty and then fails `required` |
| Authoring.UpdatedFinal | Controllers/MerchantProductController.js:196-200 | recomputed and rounded from the new or kept price and discount when either is given; otherwise a given final price, or the old one |
| Authoring.EmptyUpdateKeepsProduct | Controllers/MerchantProductController.js:219-223 | an update that gives nothing writes the product back unchanged |
| Authoring.ApplyUpdate | Controllers/MerchantProductController.js:179-223 | a 500 exactly when a validator or a non-string tag fails; otherwise the product `UpdatedFrom` describes |
| Authoring.ProductStore.AddProduct | Controllers/MerchantProductController.js:5-143 | 401 without a merchant, nothing stored or deleted; 400 for an invalid document, and every uploaded image deleted; otherwise exactly one product appended under a fresh id, owned by the merchant, and findable by its id |
| Authoring.ProductStore.UpdateProduct | Controllers/MerchantProductController.js:145-247 | 404 exactly for a missing product; 403 for another merchant's; a 500 for a product without an owner and for the owner's update that fails validation; otherwise only that product is replaced, as `UpdatedFrom` says, and exactly the orphaned images are deleted |
| Authoring.ProductStore.DeleteProduct | Controllers/MerchantProductController.js:249-317 | 404 exactly for a missing product; 403 for another merchant's; otherwise the main image and every listed image are deleted and that product is cut out, every other product staying in order |
| Authoring.ProductStore.MerchantProducts | Controllers/MerchantProductController.js:320-362 | 404 for an unknown merchant; otherwise the requested page of the merchant's own products sorted newest first, 10 per page by default (the first page being the newest of them), with the total and the page count over all of them; a negative skip is a 500 |
| Authoring.AppendNext | Controllers/MerchantProductController.js:92 | a product under the next id keeps ids unique |
| Authoring.FoundAtIndex | Controllers/MerchantProductController.js:151 | lookup by position and lookup by id find the same document |
| Authoring.ReplaceSameId | Controllers/MerchantProductController.js:219-223 | replacing a document by one with the same id keeps ids unique |
| Authoring.RemoveAtUnique | Controllers/MerchantProductController.js:284 | removing a document removes exactly the documents with its id |
| Authoring.OwnProducts | Controllers/MerchantProductController.js:335 | exactly the stored products the merchant owns |
| Authoring.OwnProductsSorted | Controllers/MerchantProductController.js:335-338 | sorting the merchant's products keeps exactly them |
| Authoring.PageIsSortedRun | Controllers/MerchantProductController.js:336-338 | a page of the sorted list is sorted and drawn from it; the first page is the newest of the merchant's products |

## Left out

- Database execution, concurrency and I/O are not modelled. Queries are filters, sorts
  and takes over sequences. `Promise.all` is sequential.
- The non-atomic check-then-insert of the cart middleware is not modelled.
- `$sample` is random. It is a parameter: any distinct subset of at most 10 matching
  products.
- The text search compiles user text as a regular expression. An invalid one is a 500
  (modelled); what a valid one matches is an opaque predicate over strings.
- JavaScript numbers are not modelled: money is exact, without floating-point rounding
  or overflow.
- Query parameters are not parsed from text. An empty parameter value (`minPrice=`)
  is not modelled: `Number("")` is 0 although the empty string is falsy.
- Listing.GetAllProducts: `limit` is taken as an integer. A `limit` that is not a
  number passes NaN to `limit` (lines 129-130) and to `$limit` (lines 192-193), and a
  fractional one a fraction; what the store does with those is not modelled.
- Mongo `$sort` is modelled as stable, so products with equal keys stay in storage
  order. The store does not promise that order.
- Strings are sequences of characters, not UTF-16 code units. Lower-casing covers ASCII
  only.
- `Recommendations.WishlistStage` takes the wish-list products as a parameter. The
  populated `wishlist.items` the code reads does not exist in the wish-list schema.
- Authentication is out of scope: tokens, `req.user` and `req.merchant` arrive
  resolved. So are the other listing endpoints (by category, search, featured, new
  arrivals, by merchant, categories), the merchant's own `getProductById` and uploads.
- The merchant `productCount` increments are best-effort side effects and are not
  modelled.
- The product's `currency` field and the nested merchant populate of `getCart` are not
  modelled.
- CastErrors on malformed ids are not modelled. Ids are always well formed.
- The similar and recommended lists are each de-duplicated, but not against each other,
  because the code does not do it.
- Authoring.UpdatedFrom: `stock`, `deliveryCharge`, `specifications`, `merchantId`
  and arbitrary other keys of an update body are not modelled. The code writes them
  through unchanged, so an update that names another `merchantId` moves the product.
- Authoring.TrimStringFields: the model's update body holds only strings. A text
  field given as a number or an array makes `.trim()` throw at line 216, and the update
  fails with 500; that failure is not modelled.
- Authoring.RollbackImages: the uploaded images are a list. A string `images` value
  would be spread character by character by the rollback at line 35; that is not
  modelled.
- Authoring.UpdateTags: a falsy `tags` value in an update (`null`, `""`, `0`,
  `false`) skips the mapping at line 202 and is written through to the store as given,
  which casts it; the model's products hold only lists of strings, so the model
  stores `[]` for it, as for a truthy non-array. This also holds for
  `Authoring.ApplyUpdate` and `Authoring.ProductStore.UpdateProduct`.
- Pricing.DiscountFraction: a product priced 0 ranks as fraction 0. In JavaScript its
  fraction is NaN or an infinity, and a comparator that returns NaN counts as equal,
  so the wish-list order of such products is not modelled.
- Authoring.ProductStore.AddProduct: models the controller alone. The add route
  (Routes/MerchantProductRouters.js:10) first runs the Joi body validation of
  Middlewares/ValidateProductInput.js, which answers 422 and deletes nothing for a
  short or missing title, a missing or non-URL main image, an out-of-range rating and
  more; those schemas are not modelled. So at the endpoint the model's 400 path, with
  its image deletions, is reached only by bodies the Joi schema lets through. A
  schema validation failure other than a missing title, category or main image, or a
  rating out of range, is not modelled either.

## Findings

| source | as written | input that shows it | evidently intended | confidence | as-written member | corrected member |
|---|---|---|---|---|---|---|
| Controllers/GetProductsController.js:170-172 | when either price bound is given, the discount ranking matches `finalPrice` between `Number(minPrice)` and `Number(maxPrice)`; the missing bound is `Number(undefined)`, NaN, and no comparison with NaN holds | `sort=discount_desc&minPrice=100` with a product priced 500: the plain listing returns it, the discount ranking returns nothing | a missing bound defaults as in the plain listing (0 and 100000000) | not executed | Listing.DiscountClausesAsWritten | Listing.DiscountClauses |

=== FILE: authoring.dfy ===
/** A merchant's authoring of their own products: creating a product (prices, tag
    normalisation, image roll-back on a rejected document), updating it (ownership,
    the recomputed final price, the trimmed text fields, the images that become
    orphaned), deleting it, and listing the merchant's products page by page. */
module Authoring {
  import opened Wrappers
  import opened Text
  import opened Pricing
  import opened Products
  import opened Ordering
  import opened Pagination
  import opened Images

  // ---------------------------------------------------------------------------
  // Tags
  // ---------------------------------------------------------------------------

  /** One element of a submitted `tags` array. */
  datatype TagValue = TagString(s: string) | NotString

  /** The submitted `tags` value: an array, or anything else. */
  datatype TagInput = NotArray | TagArray(values: seq<TagValue>)

  const MaxTagLength: nat := 30

  /** A string tag trimmed and lower-cased; anything else becomes the empty tag. */
  function NormalizeTag(v: TagValue): (r: string)
    ensures v.NotString? ==> r == ""
    ensures v.TagString? ==> r == ToLower(Trim(v.s))
    ensures v.TagString? ==> |r| <= |v.s|
    ensures forall k :: 0 <= k < |r| ==> !IsUpper(r[k])
  {
    if v.TagString? then ToLower(Trim(v.s)) else ""
  }

  /** `substring(0, 30)`. */
  function Truncate(t: string): (r: string)
    ensures |r| <= MaxTagLength && |r| <= |t| && r == t[..|r|]
    ensures |t| <= MaxTagLength ==> r == t
  {
    Take(t, MaxTagLength)
  }

  /** The map, filter, map over a tag array: normalise, drop empty tags, truncate. */
  function ProcessTagValues(vs: seq<TagValue>): (r: seq<string>)
    ensures |r| <= |vs|
  {
    if vs == [] then []
    else
      var t := NormalizeTag(vs[0]);
      var rest := ProcessTagValues(vs[1..]);
      if t == "" then rest else [Truncate(t)] + rest
  }

  /** A stored tag is non-empty, at most 30 characters and lower-case. */
  predicate StoredTag(t: string) {
    0 < |t| <= MaxTagLength && forall k :: 0 <= k < |t| ==> !IsUpper(t[k])
  }

  /** Stored tags are non-empty, at most 30 characters and lower-case. */
  lemma {:induction false} ProcessedTagsStored(vs: seq<TagValue>)
    ensures forall t :: t in ProcessTagValues(vs) ==> StoredTag(t)
  {
    if vs != [] {
      ProcessedTagsStored(vs[1..]);
      var t := NormalizeTag(vs[0]);
      if t != "" {
        var u := Truncate(t);
        assert forall k :: 0 <= k < |u| ==> u[k] == t[k];
        assert StoredTag(u);
        assert ProcessTagValues(vs) == [u] + ProcessTagValues(vs[1..]);
      }
    }
  }

  /** Every stored tag is the truncated normal form of a submitted one. */
  lemma {:induction false} ProcessedTagsSubmitted(vs: seq<TagValue>)
    ensures forall t :: t in ProcessTagValues(vs) ==> exists v :: v in vs && t == Truncate(NormalizeTag(v))
  {
    if vs != [] {
      ProcessedTagsSubmitted(vs[1..]);
      var t := NormalizeTag(vs[0]);
      var rest := ProcessTagValues(vs[1..]);
      assert ProcessTagValues(vs) == if t == "" then rest else [Truncate(t)] + rest;
      forall u | u in ProcessTagValues(vs) ensures exists v :: v in vs && u == Truncate(NormalizeTag(v)) {
        if u in rest {
          var v :| v in vs[1..] && u == Truncate(NormalizeTag(v));
          assert v in vs;
        } else {
          assert vs[0] in vs && u == Truncate(t);
        }
      }
    }
  }

  /** Every submitted tag whose normal form is not empty is stored. */
  lemma {:induction false} ProcessedTagsComplete(vs: seq<TagValue>)
    ensures forall v :: v in vs && NormalizeTag(v) != "" ==> Truncate(NormalizeTag(v)) in ProcessTagValues(vs)
  {
    if vs != [] {
      ProcessedTagsComplete(vs[1..]);
      assert forall v :: v in vs ==> v == vs[0] || v in vs[1..];
    }
  }

  /** The tags `addProduct` stores: a non-array gives none. */
  function ProcessTags(input: TagInput): (r: seq<string>)
    ensures input.NotArray? ==> r == []
    ensures input.TagArray? ==> r == ProcessTagValues(input.values)
  {
    match input
    case NotArray => []
    case TagArray(vs) => ProcessTagValues(vs)
  }

  /** A tag the add path stores unchanged: non-empty, at most 30 characters, no
      white space at either end, no upper-case letter. */
  predicate NormalTag(t: string) {
    t != "" && |t| <= MaxTagLength && !IsSpace(t[0]) && !IsSpace(t[|t| - 1])
    && forall k :: 0 <= k < |t| ==> !IsUpper(t[k])
  }

  function AsTagValues(ts: seq<string>): (r: seq<TagValue>)
    ensures |r| == |ts| && forall i :: 0 <= i < |ts| ==> r[i] == TagString(ts[i])
  {
    seq(|ts|, i requires 0 <= i < |ts| => TagString(ts[i]))
  }

  /** Tags that are already normal pass through unchanged, in order; in particular the
      add path is idempotent on such tags. */
  lemma {:induction false} NormalTagsKept(ts: seq<string>)
    requires forall t :: t in ts ==> NormalTag(t)
    ensures ProcessTags(TagArray(AsTagValues(ts))) == ts
  {
    if ts != [] {
      var t := ts[0];
      assert t in ts;
      TrimTrimmed(t);
      assert AsTagValues(ts)[1..] == AsTagValues(ts[1..]);
      NormalTagsKept(ts[1..]);
      assert ts == [t] + ts[1..];
    }
  }

  /** The update path's tag mapping: trimmed and lower-cased, nothing dropped and
      nothing truncated; a non-string element makes `trim` throw. */
  function UpdateTags(input: TagInput): (r: Result<seq<string>>)
    ensures input.NotArray? ==> r == Ok([])
    ensures input.TagArray? ==> (r.Err? <==> exists i :: 0 <= i < |input.values| && input.values[i].NotString?)
    ensures r.Err? ==> r.failure == ServerError
    ensures r.Ok? && input.TagArray? ==>
              |r.value| == |input.values|
              && forall i :: 0 <= i < |r.value| ==> r.value[i] == NormalizeTag(input.values[i])
  {
    match input
    case NotArray => Ok([])
    case TagArray(vs) => UpdateTagValues(vs)
  }

  function UpdateTagValues(vs: seq<TagValue>): (r: Result<seq<string>>)
    ensures r.Err? <==> exists i :: 0 <= i < |vs| && vs[i].NotString?
    ensures r.Err? ==> r.failure == ServerError
    ensures r.Ok? ==> |r.value| == |vs| && forall i :: 0 <= i < |vs| ==> r.value[i] == NormalizeTag(vs[i])
  {
    if vs == [] then Ok([])
    else
      match UpdateTagValues(vs[1..])
      case Err(e) =>
        FailingTail(vs);
        Err(e)
      case Ok(rest) =>
        if vs[0].NotString? then
          assert vs[0].NotString?;
          Err(ServerError)
        else
          NormalizedCons(vs, rest);
          Ok([NormalizeTag(vs[0])] + rest)
  }

  lemma FailingTail(vs: seq<TagValue>)
    requires vs != [] && exists i :: 0 <= i < |vs[1..]| && vs[1..][i].NotString?
    ensures exists i :: 0 <= i < |vs| && vs[i].NotString?
  {
    var i :| 0 <= i < |vs[1..]| && vs[1..][i].NotString?;
    assert vs[i + 1].NotString?;
  }

  lemma NormalizedCons(vs: seq<TagValue>, rest: seq<string>)
    requires vs != [] && vs[0].TagString?
    requires !exists i :: 0 <= i < |vs[1..]| && vs[1..][i].NotString?
    requires |rest| == |vs| - 1 && forall i :: 0 <= i < |vs| - 1 ==> rest[i] == NormalizeTag(vs[1..][i])
    ensures !exists i :: 0 <= i < |vs| && vs[i].NotString?
    ensures var r := [NormalizeTag(vs[0])] + rest;
            |r| == |vs| && forall i :: 0 <= i < |vs| ==> r[i] == NormalizeTag(vs[i])
  {
    forall i | 1 <= i < |vs| ensures vs[i] == vs[1..][i - 1] {
    }
  }

  /** The two paths disagree on a blank tag: adding drops it, updating stores it empty. */
  lemma BlankTagPaths()
    ensures ProcessTags(TagArray([TagString(" ")])) == []
    ensures UpdateTags(TagArray([TagString(" ")])) == Ok([""])
  {
    var vs := [TagString(" ")];
    BlankTagIsEmpty();
    assert vs[1..] == [];
    assert ProcessTagValues(vs[1..]) == [];
    assert ProcessTagValues(vs) == [];
    var r := UpdateTagValues(vs);
    assert r.Ok? && |r.value| == 1 && r.value[0] == "";
    assert r.value == [""];
  }

  /** A blank tag normalises to the empty tag. */
  lemma BlankTagIsEmpty()
    ensures NormalizeTag(TagString(" ")) == ""
  {
    BlankTrimsEmpty();
    assert ToLower("") == "";
  }

  /** A generic fact about filters: two tests that agree on every element keep the
      same elements. */
  lemma {:induction false} FilterSameTest<T(!new)>(s: seq<T>, f: T -> bool, g: T -> bool)
    requires forall x :: x in s ==> f(x) == g(x)
    ensures Filter(s, f) == Filter(s, g)
  {
    if s != [] {
      assert s[0] in s;
      assert forall x :: x in s[1..] ==> x in s;
      FilterSameTest(s[1..], f, g);
    }
  }

  // ---------------------------------------------------------------------------
  // Images
  // ---------------------------------------------------------------------------

  /** The submitted `images` value of an update: a falsy value (`null`, `""`, `0`,
      `false`), any other non-array, or an array. */
  datatype ImagesInput = ImagesFalsy | ImagesNotArray | ImageList(urls: seq<string>)

  /** The new image list an update stores: any non-array, falsy or not, becomes the
      empty list. */
  function NewImages(images: ImagesInput): (r: seq<string>)
    ensures !images.ImageList? ==> r == []
    ensures images.ImageList? ==> r == images.urls
  {
    if images.ImageList? then images.urls else []
  }

  /** A new main image different from a present old one replaces it. */
  predicate Replaced(product: Product, imageUrl: Option<string>) {
    imageUrl.Some? && imageUrl.value != "" && product.imageUrl != "" && imageUrl.value != product.imageUrl
  }

  /** An `images` value that is given and truthy: only then are old images compared
      with the new list. */
  predicate ImagesTruthy(images: Option<ImagesInput>) {
    images.Some? && !images.value.ImagesFalsy?
  }

  /** The images an update orphans: the replaced main image first, then, when the
      `images` value is truthy, the old list's images that the new list no longer
      holds, in their old order. A falsy value orphans no old image, although the
      stored list becomes empty. */
  function Orphaned(product: Product, imageUrl: Option<string>, images: Option<ImagesInput>): (r: seq<string>)
    ensures Replaced(product, imageUrl) ==> |r| > 0 && r[0] == product.imageUrl
    ensures forall url :: url in r <==>
              (Replaced(product, imageUrl) && url == product.imageUrl)
              || (ImagesTruthy(images) && url in product.images && url !in NewImages(images.value))
    ensures !ImagesTruthy(images) ==> |r| <= 1
  {
    (if Replaced(product, imageUrl) then [product.imageUrl] else [])
    + (if ImagesTruthy(images) then Filter(product.images, (img: string) => img !in NewImages(images.value)) else [])
  }

  /** Without a new main image, a falsy `images` value orphans nothing though the
      stored list becomes empty, while an empty array orphans the whole old list. */
  lemma FalsyAndEmptyImages(product: Product)
    ensures Orphaned(product, None, Some(ImagesFalsy)) == [] && NewImages(ImagesFalsy) == []
    ensures Orphaned(product, None, Some(ImageList([]))) == product.images
  {
    FilterAll(product.images, (img: string) => img !in NewImages(ImageList([])));
  }

  /** A filter whose test holds for every element keeps the whole list. */
  lemma {:induction false} FilterAll<T(!new)>(s: seq<T>, f: T -> bool)
    requires forall x :: x in s ==> f(x)
    ensures Filter(s, f) == s
  {
    if s != [] {
      assert s[0] in s;
      assert forall x :: x in s[1..] ==> x in s;
      FilterAll(s[1..], f);
      assert s == [s[0]] + s[1..];
    }
  }

  /** The `imagesToDelete` list of `updateProduct`, grown as the source grows it: the
      replaced main image, then the old images not among those kept, where the kept
      ones are the new images that were already in the old list. */
  method ImagesToDelete(product: Product, imageUrl: Option<string>, images: Option<ImagesInput>)
    returns (r: seq<string>)
    ensures r == Orphaned(product, imageUrl, images)
  {
    r := [];
    if imageUrl.Some? || images.Some? {
      if Replaced(product, imageUrl) {
        r := r + [product.imageUrl];
      }
      if images.Some? && !images.value.ImagesFalsy? {
        var newImages := NewImages(images.value);
        var keep := Filter(newImages, (img: string) => img in product.images);
        var dropped := Filter(product.images, (img: string) => img !in keep);
        assert dropped == Filter(product.images, (img: string) => img !in NewImages(images.value)) by {
          FilterSameTest(product.images, (img: string) => img !in keep, (img: string) => img !in newImages);
        }
        r := r + dropped;
      }
    }
  }

  /** The images `deleteProduct` removes: the main image when there is one, then the
      image list. */
  function StoredImages(product: Product): (r: seq<string>)
    ensures forall url :: url in r <==> (url == product.imageUrl && url != "") || url in product.images
    ensures |r| == |product.images| + (if product.imageUrl != "" then 1 else 0)
  {
    (if product.imageUrl != "" then [product.imageUrl] else []) + product.images
  }

  // ---------------------------------------------------------------------------
  // Creating, updating, deleting and listing a merchant's products
  // ---------------------------------------------------------------------------

  /** The body of an add request, after the defaults of the destructuring: `None` for
      a value not given (or not a number where a number is parsed); an absent
      `imageUrl` is the empty string. */
  datatype ProductInput = ProductInput(
    title: Option<string>, description: Option<string>, brand: Option<string>,
    category: Option<string>, subCategory: Option<string>,
    price: Option<real>, discount: Option<real>, deliveryCharge: Option<real>,
    stock: Option<int>, imageUrl: string, images: seq<string>,
    rating: Option<real>, reviewsCount: Option<int>, tags: TagInput,
    warranty: Option<string>, returnPolicy: Option<string>, deliveryTime: Option<string>,
    specifications: Option<Specs>, isFeatured: bool)

  /** `field?.trim() || ''`. */
  function TrimmedOr(s: Option<string>): (r: string)
    ensures s.None? ==> r == ""
    ensures s.Some? ==> r == Trim(s.value)
  {
    Trim(s.GetOr(""))
  }

  /** The images an add request uploaded, to be deleted again if the document is
      refused. */
  function RollbackImages(input: ProductInput): (r: seq<string>)
    ensures forall url :: url in r <==> (url == input.imageUrl && url != "") || url in input.images
  {
    (if input.imageUrl != "" then [input.imageUrl] else []) + input.images
  }

  /** The document validates: the required title, category and main image are
      present and the rating is within 0..5. */
  function Acceptable(input: ProductInput): (ok: bool)
    ensures ok ==> input.title.Some? && input.category.Some? && input.imageUrl != ""
    ensures ok ==> 0.0 <= OrZero(input.rating) <= 5.0
    ensures input.title == Some(" ") || input.category == Some(" ") ==> !ok
  {
    BlankTrimsEmpty();
    TrimmedOr(input.title) != "" && TrimmedOr(input.category) != "" && input.imageUrl != ""
    && RatingInRange(OrZero(input.rating))
  }

  /** A blank string trims to the empty string. */
  lemma BlankTrimsEmpty()
    ensures Trim(" ") == ""
  {
    assert IsSpace(' ');
    assert TrimStart(" ") == TrimStart("");
    assert TrimEnd("") == "";
  }

  /** What a created product holds: owned by the merchant, stamped with the time of
      creation, prices parsed (0 when missing), the `finalPrice` the save hook
      computes from price and discount (the controller's rounded, delivery-inclusive
      figure is overwritten), tags processed, text fields trimmed, the images and
      flags as given. */
  predicate CreatedFrom(p: Product, merchant: Id, input: ProductInput, now: int) {
    var price := OrZero(input.price);
    var discount := OrZero(input.discount);
    && p.merchantId == Some(merchant) && p.createdAt == now
    && p.price == price && p.discount == discount
    && p.finalPrice == DefaultFinalPrice(price, discount)
    && p.deliveryCharge == OrZero(input.deliveryCharge)
    && p.tags == ProcessTags(input.tags)
    && p.title == TrimmedOr(input.title) && p.category == TrimmedOr(input.category)
    && p.brand == TrimmedOr(input.brand) && p.description == TrimmedOr(input.description)
    && p.subCategory == TrimmedOr(input.subCategory)
    && p.imageUrl == input.imageUrl && p.images == input.images
    && p.rating == OrZero(input.rating) && p.isFeatured == input.isFeatured
    && p.stock == input.stock.GetOr(0) && p.reviewsCount == input.reviewsCount.GetOr(0)
    && p.specifications == input.specifications.GetOr(map[])
  }

  /** Steps 3 to 6 of `addProduct`: the prices and tags are computed, the document is
      built with its schema defaults and saved, which validates it and runs the
      hooks. The save succeeds exactly when the document is acceptable. */
  method SaveNewDocument(merchant: Id, input: ProductInput, id: Id, now: int) returns (saved: bool, p: Product)
    ensures saved <==> Acceptable(input)
    ensures saved ==> p.id == id && CreatedFrom(p, merchant, input, now)
  {
    var price := OrZero(input.price);
    var discount := OrZero(input.discount);
    var deliveryCharge := OrZero(input.deliveryCharge);
    var finalPrice := AddFinalPrice(price, discount, deliveryCharge);
    var tags := ProcessTags(input.tags);
    var doc := new ProductDocument(price, Some(discount), Some(finalPrice), Some(OrZero(input.rating)),
                                   Some(input.isFeatured), Some(input.specifications.GetOr(map[])),
                                   Some(input.images));
    var title := TrimmedOr(input.title);
    var category := TrimmedOr(input.category);
    saved := false;
    if title != "" && category != "" && input.imageUrl != "" {
      saved := doc.Save();
    }
    p := Product(id, title, TrimmedOr(input.description), TrimmedOr(input.brand), category,
                 TrimmedOr(input.subCategory), doc.price, doc.discount, doc.finalPrice, deliveryCharge,
                 input.stock.GetOr(0), input.imageUrl, doc.images.GetOr([]), doc.rating,
                 input.reviewsCount.GetOr(0), tags, doc.isFeatured.GetOr(false), Some(merchant), now,
                 TrimmedOr(input.warranty), TrimmedOr(input.returnPolicy), TrimmedOr(input.deliveryTime),
                 doc.specifications.GetOr(map[]));
  }

  /** The text fields an update trims, by name. */
  const StringFields: seq<string> :=
    ["title", "description", "brand", "category", "subCategory", "warranty", "returnPolicy", "deliveryTime"]

  /** A field's value once the fields in `fields` have been trimmed. */
  function TrimmedIn(f: string, v: string, fields: seq<string>): string {
    if f in fields && v != "" then Trim(v) else v
  }

  /** The `stringFields.forEach` loop: every listed field present with a non-empty
      value is trimmed in place; other entries are left alone. */
  method TrimStringFields(updates: map<string, string>) returns (r: map<string, string>)
    ensures r.Keys == updates.Keys
    ensures forall f :: f in updates ==>
              r[f] == if f in StringFields && updates[f] != "" then Trim(updates[f]) else updates[f]
  {
    r := updates;
    var i := 0;
    while i < |StringFields|
      invariant 0 <= i <= |StringFields|
      invariant r.Keys == updates.Keys
      invariant forall f :: f in updates ==> r[f] == TrimmedIn(f, updates[f], StringFields[..i])
    {
      var field := StringFields[i];
      TrimStep(updates, r, StringFields[..i], field);
      if field in r && r[field] != "" {
        r := r[field := Trim(r[field])];
      }
      assert StringFields[..i + 1] == StringFields[..i] + [field];
      i := i + 1;
    }
    assert StringFields[..i] == StringFields;
  }

  /** One turn of the loop: trimming the next field extends the trimmed fields by it. */
  lemma TrimStep(updates: map<string, string>, r: map<string, string>, fields: seq<string>, field: string)
    requires r.Keys == updates.Keys
    requires forall f :: f in updates ==> r[f] == TrimmedIn(f, updates[f], fields)
    ensures var next := if field in r && r[field] != "" then r[field := Trim(r[field])] else r;
            && next.Keys == updates.Keys
            && forall f :: f in updates ==> next[f] == TrimmedIn(f, updates[f], fields + [field])
  {
    forall f | f in updates
      ensures (if field in r && r[field] != "" then r[field := Trim(r[field])] else r)[f]
              == TrimmedIn(f, updates[f], fields + [field])
    {
      TrimStepAt(updates, r, fields, field, f);
    }
  }

  /** One loop turn, seen from one field. */
  lemma TrimStepAt(updates: map<string, string>, r: map<string, string>, fields: seq<string>, field: string, f: string)
    requires r.Keys == updates.Keys && f in updates
    requires r[f] == TrimmedIn(f, updates[f], fields)
    ensures (if field in r && r[field] != "" then r[field := Trim(r[field])] else r)[f]
            == TrimmedIn(f, updates[f], fields + [field])
  {
    assert f in fields + [field] <==> f in fields || f == field;
    if f == field {
      TrimStepSame(updates[f], r[f], fields, f);
    }
  }

  /** The field the turn trims: trimming twice is trimming once. */
  lemma TrimStepSame(v: string, current: string, fields: seq<string>, f: string)
    requires current == TrimmedIn(f, v, fields)
    ensures (if current != "" then Trim(current) else current) == TrimmedIn(f, v, fields + [f])
  {
    assert f in fields + [f];
    if v != "" && f in fields {
      var t := Trim(v);
      assert t != "" ==> !IsSpace(t[0]) && !IsSpace(t[|t| - 1]);
      TrimTrimmed(t);
    }
  }

  /** The body of an update request: the text fields by name, and `None` for any
      other field that is not given. */
  datatype ProductUpdate = ProductUpdate(
    strings: map<string, string>,
    price: Option<real>, discount: Option<real>, finalPrice: Option<real>,
    imageUrl: Option<string>, images: Option<ImagesInput>, tags: Option<TagInput>,
    isFeatured: Option<bool>, rating: Option<real>)

  /** A text field after the update: its trimmed new value when given, else the old one. */
  function TextField(u: ProductUpdate, name: string, previous: string): (r: string)
    ensures name in u.strings ==> r == Trim(u.strings[name])
    ensures name !in u.strings ==> r == previous
  {
    if name in u.strings then Trim(u.strings[name]) else previous
  }

  /** The validators that run on an update: a given title or category must not be
      empty once trimmed, a given main image must not be empty, a given rating must lie
      within 0..5; and every element of a tag array must be a string. */
  function UpdateAcceptable(u: ProductUpdate): (ok: bool)
    ensures ok && u.tags.Some? && u.tags.value.TagArray? ==>
              forall i :: 0 <= i < |u.tags.value.values| ==> u.tags.value.values[i].TagString?
    ensures ok ==> u.rating.Some? ==> 0.0 <= u.rating.value <= 5.0
  {
    ("title" in u.strings ==> Trim(u.strings["title"]) != "")
    && ("category" in u.strings ==> Trim(u.strings["category"]) != "")
    && (u.imageUrl.Some? ==> u.imageUrl.value != "")
    && (u.rating.Some? ==> RatingInRange(u.rating.value))
    && (u.tags.Some? ==> UpdateTags(u.tags.value).Ok?)
  }

  /** `trim` runs before `required` on an update too: a blank title is rejected. */
  lemma BlankTitleRejected(u: ProductUpdate)
    requires "title" in u.strings && u.strings["title"] == " "
    ensures !UpdateAcceptable(u)
  {
    BlankTrimsEmpty();
  }

  /** The `finalPrice` an update stores: recomputed, rounded, from the new or kept
      price and discount when either is given; otherwise a given `finalPrice` is
      written as it is, and the old one kept when none is given. */
  function UpdatedFinal(product: Product, u: ProductUpdate): (r: real)
    ensures u.price.Some? || u.discount.Some? ==>
              r == UpdatedFinalPrice(u.price.GetOr(product.price), u.discount.GetOr(product.discount)) as real
    ensures u.price.None? && u.discount.None? ==> r == u.finalPrice.GetOr(product.finalPrice)
  {
    if u.price.Some? || u.discount.Some? then
      UpdatedFinalPrice(u.price.GetOr(product.price), u.discount.GetOr(product.discount)) as real
    else u.finalPrice.GetOr(product.finalPrice)
  }

  /** What an updated product holds: the same id, owner, creation time, stock and
      delivery charge; every given field written (text fields trimmed, tags
      normalized, a non-array image list stored as empty), the `finalPrice` recomputed
      as `UpdatedFinal` says, and every other field kept. */
  predicate UpdatedFrom(p: Product, product: Product, u: ProductUpdate)
    requires u.tags.Some? ==> UpdateTags(u.tags.value).Ok?
  {
    && p.id == product.id && p.merchantId == product.merchantId && p.createdAt == product.createdAt
    && p.price == u.price.GetOr(product.price) && p.discount == u.discount.GetOr(product.discount)
    && p.finalPrice == UpdatedFinal(product, u)
    && p.title == TextField(u, "title", product.title)
    && p.description == TextField(u, "description", product.description)
    && p.brand == TextField(u, "brand", product.brand)
    && p.category == TextField(u, "category", product.category)
    && p.subCategory == TextField(u, "subCategory", product.subCategory)
    && p.warranty == TextField(u, "warranty", product.warranty)
    && p.returnPolicy == TextField(u, "returnPolicy", product.returnPolicy)
    && p.deliveryTime == TextField(u, "deliveryTime", product.deliveryTime)
    && p.imageUrl == u.imageUrl.GetOr(product.imageUrl)
    && p.images == (if u.images.Some? then NewImages(u.images.value) else product.images)
    && p.tags == (if u.tags.Some? then UpdateTags(u.tags.value).value else product.tags)
    && p.isFeatured == u.isFeatured.GetOr(product.isFeatured)
    && p.rating == u.rating.GetOr(product.rating)
    && p.deliveryCharge == product.deliveryCharge && p.stock == product.stock
    && p.reviewsCount == product.reviewsCount && p.specifications == product.specifications
  }

  /** An update that gives nothing writes the product back as it was. */
  const NoChange: ProductUpdate := ProductUpdate(map[], None, None, None, None, None, None, None, None)

  lemma EmptyUpdateKeepsProduct(product: Product, p: Product)
    requires UpdatedFrom(p, product, NoChange)
    ensures p == product
  {
  }

  /** The rewriting of the update body and `findByIdAndUpdate` with validators: the
      tags are normalized (a non-string tag throws), the text fields trimmed, the
      final price recomputed, and the validators decide whether anything is written.
      Every failure here is a 500. */
  method ApplyUpdate(product: Product, u: ProductUpdate) returns (r: Result<Product>)
    ensures r.Ok? <==> UpdateAcceptable(u)
    ensures r.Err? ==> r == Err(ServerError)
    ensures r.Ok? ==> UpdatedFrom(r.value, product, u)
  {
    var tags := product.tags;
    if u.tags.Some? {
      var t := UpdateTags(u.tags.value);
      if t.Err? {
        return Err(ServerError);
      }
      tags := t.value;
    }
    var strings := TrimStringFields(u.strings);
    if !UpdateAcceptable(u) {
      return Err(ServerError);
    }
    TrimmedField(u, strings, "title", product.title);
    TrimmedField(u, strings, "description", product.description);
    TrimmedField(u, strings, "brand", product.brand);
    TrimmedField(u, strings, "category", product.category);
    TrimmedField(u, strings, "subCategory", product.subCategory);
    TrimmedField(u, strings, "warranty", product.warranty);
    TrimmedField(u, strings, "returnPolicy", product.returnPolicy);
    TrimmedField(u, strings, "deliveryTime", product.deliveryTime);
    r := Ok(product.(
      title := Field(strings, "title", product.title),
      description := Field(strings, "description", product.description),
      brand := Field(strings, "brand", product.brand),
      category := Field(strings, "category", product.category),
      subCategory := Field(strings, "subCategory", product.subCategory),
      warranty := Field(strings, "warranty", product.warranty),
      returnPolicy := Field(strings, "returnPolicy", product.returnPolicy),
      deliveryTime := Field(strings, "deliveryTime", product.deliveryTime),
      price := u.price.GetOr(product.price),
      discount := u.discount.GetOr(product.discount),
      finalPrice := UpdatedFinal(product, u),
      imageUrl := u.imageUrl.GetOr(product.imageUrl),
      images := if u.images.Some? then NewImages(u.images.value) else product.images,
      tags := tags,
      isFeatured := u.isFeatured.GetOr(product.isFeatured),
      rating := u.rating.GetOr(product.rating)));
  }

  /** After the trim loop, a text field reads the trimmed value when the update gives
      one: an empty value trims to itself. */
  lemma TrimmedField(u: ProductUpdate, strings: map<string, string>, name: string, previous: string)
    requires strings.Keys == u.strings.Keys && name in StringFields
    requires forall f :: f in u.strings ==>
               strings[f] == if f in StringFields && u.strings[f] != "" then Trim(u.strings[f]) else u.strings[f]
    ensures Field(strings, name, previous) == TextField(u, name, previous)
  {
    if name in u.strings {
      var v := u.strings[name];
      assert strings[name] == if v != "" then Trim(v) else v;
      if v == "" {
        assert Trim("") == "";
      }
    }
  }

  /** The response block of the merchant's product list. */
  datatype MerchantPagination = MerchantPagination(currentPage: int, totalPages: int, totalProducts: nat)

  datatype MerchantPage = MerchantPage(products: seq<Product>, pagination: MerchantPagination)

  const MerchantPageSize: int := 10

  /** Newest first. */
  function ByCreatedAt(p: Product): Rank {
    Rank(p.createdAt as real, 0.0)
  }

  /** The product collection as merchants author it. Ids are handed out from
      `nextId`, above every stored id. */
  class ProductStore {
    var docs: seq<Product>
    var nextId: Id

    ghost predicate Valid()
      reads this
    {
      UniqueIds(docs) && forall p :: p in docs ==> p.id < nextId
    }

    constructor ()
      ensures Valid() && docs == []
    {
      docs := [];
      nextId := 0;
    }

    /** `addProduct`. Without an authenticated merchant: 401, nothing stored and
        nothing deleted. A document that fails validation: 400, and every uploaded
        image is deleted again. Otherwise one product is appended, owned by the
        merchant, with the tags processed, the text fields trimmed, and the
        `finalPrice` the save hook computes from price and discount: the rounded,
        delivery-inclusive price the controller computes is overwritten. */
    method AddProduct(merchant: Option<Id>, input: ProductInput, now: int)
      returns (r: Result<Product>, deletes: seq<DeleteCall>)
      requires Valid()
      modifies this
      ensures Valid()
      ensures merchant.None? ==> r == Err(Unauthorized) && deletes == [] && docs == old(docs)
      ensures merchant.Some? && !Acceptable(input) ==>
                r == Err(BadRequest) && deletes == DeleteMultiple(RollbackImages(input)) && docs == old(docs)
      ensures merchant.Some? && Acceptable(input) ==> r.Ok? && deletes == [] && docs == old(docs) + [r.value]
      ensures r.Ok? ==> r.value.id !in Ids(old(docs)) && CreatedFrom(r.value, merchant.value, input, now)
      ensures r.Ok? ==> FindById(docs, r.value.id) == Some(r.value)
    {
      if merchant.None? {
        return Err(Unauthorized), [];
      }
      var saved, p := SaveNewDocument(merchant.value, input, nextId, now);
      if !saved {
        return Err(BadRequest), DeleteMultiple(RollbackImages(input));
      }
      AppendNext(docs, nextId, p);
      docs := docs + [p];
      nextId := nextId + 1;
      FoundUnique(docs, p);
      r, deletes := Ok(p), [];
    }

    /** `updateProduct`. A missing product: 404. A product of another merchant: 403.
        A product without an owner fails to compare owners: 500. An update the
        validators refuse, or whose tag array holds a non-string: 500. In each of
        these cases nothing changes and nothing is deleted. Otherwise the product is
        replaced by its updated version (same id, owner and creation time), and the
        images it orphaned are deleted. */
    method UpdateProduct(merchant: Id, id: Id, u: ProductUpdate) returns (r: Result<Product>, deletes: seq<DeleteCall>)
      requires Valid()
      modifies this
      ensures Valid()
      ensures r.Err? ==> docs == old(docs) && deletes == []
      ensures FindById(old(docs), id).None? <==> r == Err(NotFound)
      ensures FindById(old(docs), id).Some? ==>
                var product := FindById(old(docs), id).value;
                && (product.merchantId.Some? && product.merchantId.value != merchant ==> r == Err(Forbidden))
                && (product.merchantId.None? ==> r == Err(ServerError))
                && (product.merchantId == Some(merchant) && !UpdateAcceptable(u) ==> r == Err(ServerError))
                && (product.merchantId == Some(merchant) && UpdateAcceptable(u) ==> r.Ok?)
      ensures r.Ok? ==>
                var product := FindById(old(docs), id).value;
                && docs == old(docs)[IndexOfId(old(docs), id).value := r.value]
                && product.merchantId == Some(merchant) && UpdateAcceptable(u)
                && UpdatedFrom(r.value, product, u)
                && deletes == DeleteMultiple(Orphaned(product, u.imageUrl, u.images))
      ensures r.Ok? ==> FindById(docs, id) == Some(r.value)
    {
      var found := IndexOfId(docs, id);
      if found.None? {
        return Err(NotFound), [];
      }
      var k := found.value;
      var product := docs[k];
      FoundAtIndex(docs, id, k);
      if product.merchantId.None? {
        return Err(ServerError), [];
      }
      if product.merchantId.value != merchant {
        return Err(Forbidden), [];
      }
      var toDelete := ImagesToDelete(product, u.imageUrl, u.images);
      var updated := ApplyUpdate(product, u);
      if updated.Err? {
        return Err(ServerError), [];
      }
      var p := updated.value;
      ReplaceSameId(docs, k, p);
      docs := docs[k := p];
      assert docs[k] == p;
      FoundUnique(docs, p);
      r, deletes := Ok(p), DeleteMultiple(toDelete);
    }

    /** `deleteProduct`. A missing product: 404; a product of another merchant: 403;
        one without an owner: 500; nothing changes in these cases. Otherwise the main
        image and the image list are deleted and the product is removed, every other
        product staying in place. */
    method DeleteProduct(merchant: Id, id: Id) returns (r: Result<Product>, deletes: seq<DeleteCall>)
      requires Valid()
      modifies this
      ensures Valid()
      ensures r.Err? ==> docs == old(docs) && deletes == []
      ensures FindById(old(docs), id).None? <==> r == Err(NotFound)
      ensures FindById(old(docs), id).Some? ==>
                var product := FindById(old(docs), id).value;
                && (product.merchantId.Some? && product.merchantId.value != merchant ==> r == Err(Forbidden))
                && (product.merchantId.None? ==> r == Err(ServerError))
                && (product.merchantId == Some(merchant) ==> r == Ok(product))
      ensures r.Ok? ==> deletes == DeleteMultiple(StoredImages(r.value))
      ensures r.Ok? ==> var k := IndexOfId(old(docs), id).value;
                        docs == old(docs)[..k] + old(docs)[k + 1..]
      ensures r.Ok? ==> forall p :: p in docs <==> p in old(docs) && p.id != id
      ensures r.Ok? ==> |docs| == |old(docs)| - 1
      ensures r.Ok? ==> FindById(docs, id).None?
    {
      var found := IndexOfId(docs, id);
      if found.None? {
        return Err(NotFound), [];
      }
      var k := found.value;
      var product := docs[k];
      FoundAtIndex(docs, id, k);
      if product.merchantId.None? {
        return Err(ServerError), [];
      }
      if product.merchantId.value != merchant {
        return Err(Forbidden), [];
      }
      var imagesToDelete: seq<string> := [];
      if product.imageUrl != "" {
        imagesToDelete := imagesToDelete + [product.imageUrl];
      }
      if |product.images| > 0 {
        imagesToDelete := imagesToDelete + product.images;
      }
      assert imagesToDelete == StoredImages(product);
      RemoveAtUnique(docs, k);
      docs := docs[..k] + docs[k + 1..];
      r, deletes := Ok(product), DeleteMultiple(imagesToDelete);
    }

    /** `getMerchantProducts`: 404 when the merchant does not exist; otherwise the
        merchant's own products, newest first, the requested page of them (10 by
        default), and the page count over all of them. A page number that makes the
        skip negative fails in the store. The first page holds the newest products. */
    function MerchantProducts(merchant: Id, merchants: seq<Merchant>, page: Option<int>, limit: Option<int>)
      : (r: Result<MerchantPage>)
      reads this
      ensures (forall m :: m in merchants ==> m.id != merchant) ==> r == Err(NotFound)
      ensures (exists m :: m in merchants && m.id == merchant) ==>
                (r.Err? <==> PageWindow(page, limit, MerchantPageSize).skip < 0)
      ensures (exists m :: m in merchants && m.id == merchant) && r.Err? ==> r == Err(ServerError)
      ensures r.Ok? ==> forall p :: p in r.value.products ==> p in docs && p.merchantId == Some(merchant)
      ensures r.Ok? ==> SortedDesc(r.value.products, ByCreatedAt)
      ensures r.Ok? ==> Ok(r.value.products)
                          == PageOf(SortDesc(OwnProducts(docs, merchant), ByCreatedAt), PageWindow(page, limit, MerchantPageSize))
      ensures r.Ok? && PageWindow(page, limit, MerchantPageSize).skip == 0 ==>
                TopOf(r.value.products, OwnProducts(docs, merchant), ByCreatedAt)
      ensures r.Ok? ==> r.value.pagination.totalProducts == |OwnProducts(docs, merchant)|
      ensures r.Ok? ==> r.value.pagination.currentPage == PageWindow(page, limit, MerchantPageSize).page
      ensures r.Ok? ==> r.value.pagination.totalPages
                          == TotalPages(r.value.pagination.totalProducts, PageWindow(page, limit, MerchantPageSize).limit)
      ensures r.Ok? && limit.None? ==> |r.value.products| <= 10
    {
      if forall m :: m in merchants ==> m.id != merchant then Err(NotFound)
      else
        var w := PageWindow(page, limit, MerchantPageSize);
        var mine := OwnProducts(docs, merchant);
        var sorted := SortDesc(mine, ByCreatedAt);
        OwnProductsSorted(docs, merchant);
        match PageOf(sorted, w)
        case Err(_) => Err(ServerError)
        case Ok(items) =>
          PageIsSortedRun(sorted, mine, w);
          Ok(MerchantPage(items, MerchantPagination(w.page, TotalPages(|mine|, w.limit), |mine|)))
    }
  }

  /** A text field after the trim loop: the entry when given, else the old value. */
  function Field(strings: map<string, string>, name: string, previous: string): (r: string)
    ensures name in strings ==> r == strings[name]
    ensures name !in strings ==> r == previous
  {
    if name in strings then strings[name] else previous
  }

  /** A product whose id no stored product has can be appended. */
  lemma AppendFreshId(docs: seq<Product>, p: Product)
    requires UniqueIds(docs) && forall q :: q in docs ==> q.id != p.id
    ensures UniqueIds(docs + [p])
  {
    var r := docs + [p];
    forall i, j | 0 <= i < j < |r| ensures r[i].id != r[j].id {
      assert r[i] == docs[i];
      if j < |docs| {
        assert r[j] == docs[j];
      }
    }
  }

  /** A product given the next id can be appended, and the next id moves past it. */
  lemma AppendNext(docs: seq<Product>, nextId: Id, p: Product)
    requires UniqueIds(docs) && (forall q :: q in docs ==> q.id < nextId) && p.id == nextId
    ensures UniqueIds(docs + [p]) && forall q :: q in docs + [p] ==> q.id < nextId + 1
    ensures p.id !in Ids(docs)
  {
    AppendFreshId(docs, p);
  }

  /** The position and the document the two id lookups find agree. */
  lemma {:induction false} FoundAtIndex(docs: seq<Product>, id: Id, k: nat)
    requires IndexOfId(docs, id) == Some(k)
    ensures FindById(docs, id) == Some(docs[k])
  {
    if docs[0].id != id {
      FoundAtIndex(docs[1..], id, k - 1);
    }
  }

  /** Replacing a document by one with the same id keeps ids unique. */
  lemma ReplaceSameId(docs: seq<Product>, k: nat, p: Product)
    requires UniqueIds(docs) && k < |docs| && p.id == docs[k].id
    ensures UniqueIds(docs[k := p])
  {
    var r := docs[k := p];
    forall i, j | 0 <= i < j < |r| ensures r[i].id != r[j].id {
      assert r[i].id == docs[i].id && r[j].id == docs[j].id;
    }
  }

  /** Under unique ids, cutting out the document at `k` removes exactly the documents
      with its id. */
  lemma RemoveAtUnique(docs: seq<Product>, k: nat)
    requires UniqueIds(docs) && k < |docs|
    ensures var rest := docs[..k] + docs[k + 1..];
            && UniqueIds(rest)
            && forall p :: p in rest <==> p in docs && p.id != docs[k].id
  {
    var rest := docs[..k] + docs[k + 1..];
    forall p | p in rest ensures p in docs && p.id != docs[k].id {
      RemovedKept(docs, k, p);
    }
    forall p | p in docs && p.id != docs[k].id ensures p in rest {
      var j :| 0 <= j < |docs| && docs[j] == p;
      assert j != k;
      assert p == (if j < k then rest[j] else rest[j - 1]);
    }
    RemoveAtKeepsUnique(docs, k);
  }

  lemma RemoveAtKeepsUnique(docs: seq<Product>, k: nat)
    requires UniqueIds(docs) && k < |docs|
    ensures UniqueIds(docs[..k] + docs[k + 1..])
  {
    var rest := docs[..k] + docs[k + 1..];
    forall i, j | 0 <= i < j < |rest| ensures rest[i].id != rest[j].id {
      assert rest[i] == docs[if i < k then i else i + 1];
      assert rest[j] == docs[if j < k then j else j + 1];
    }
  }

  lemma RemovedKept(docs: seq<Product>, k: nat, p: Product)
    requires UniqueIds(docs) && k < |docs| && p in docs[..k] + docs[k + 1..]
    ensures p in docs && p.id != docs[k].id
  {
    var rest := docs[..k] + docs[k + 1..];
    var j :| 0 <= j < |rest| && rest[j] == p;
    assert p == docs[if j < k then j else j + 1];
  }

  /** Sorting the merchant's products keeps exactly them. */
  lemma OwnProductsSorted(docs: seq<Product>, merchant: Id)
    ensures forall p :: p in SortDesc(Filter(docs, (q: Product) => q.merchantId == Some(merchant)), ByCreatedAt)
                        ==> p in docs && p.merchantId == Some(merchant)
  {
    var mine := Filter(docs, (q: Product) => q.merchantId == Some(merchant));
    var sorted := SortDesc(mine, ByCreatedAt);
    forall p | p in sorted ensures p in docs && p.merchantId == Some(merchant) {
      assert p in multiset(sorted);
      assert p in mine;
    }
  }

  /** A merchant's own products, in storage order. */
  function OwnProducts(docs: seq<Product>, merchant: Id): (r: seq<Product>)
    ensures forall p :: p in r <==> p in docs && p.merchantId == Some(merchant)
  {
    Filter(docs, (p: Product) => p.merchantId == Some(merchant))
  }

  /** A page of a sorted list is a sorted run of it, and the first page is the
      best-ranked part of it. */
  lemma PageIsSortedRun(sorted: seq<Product>, s: seq<Product>, w: Window)
    requires SortedDesc(sorted, ByCreatedAt) && multiset(sorted) == multiset(s) && PageOf(sorted, w).Ok?
    ensures SortedDesc(PageOf(sorted, w).value, ByCreatedAt)
    ensures forall p :: p in PageOf(sorted, w).value ==> p in sorted
    ensures w.skip == 0 ==> TopOf(PageOf(sorted, w).value, s, ByCreatedAt)
  {
    var page := PageOf(sorted, w).value;
    if w.skip == 0 {
      assert page == sorted[..|page|];
      PrefixIsTop(sorted, s, ByCreatedAt, |page|);
    }
    if w.skip < |sorted| {
      var n := |page|;
      assert page == sorted[w.skip..][..n];
      assert page == sorted[w.skip..w.skip + n];
      SortedSlice(sorted, ByCreatedAt, w.skip, w.skip + n);
    }
  }
}

=== FILE: cart.dfy ===
/** The shopping cart: a store of cart lines, one per (user, product) pair, with the
    add-or-increment, set-quantity, remove and clear operations, and the price fold
    that turns a user's lines into item prices, totals, a flat delivery charge and a
    grand total. */
module Cart {
  import opened Wrappers
  import opened Products

  /** A stored cart line; `priceAtAddition` is the product's `finalPrice` when the
      line was created. */
  datatype CartLine = CartLine(userId: Id, productId: Id, quantity: int, priceAtAddition: real)

  /** The line belongs to that user and that product. */
  predicate Keyed(l: CartLine, userId: Id, productId: Id) {
    l.userId == userId && l.productId == productId
  }

  /** The compound unique index on (userId, productId). */
  ghost predicate UniqueKeys(lines: seq<CartLine>) {
    forall i, j :: 0 <= i < j < |lines| ==>
      !Keyed(lines[j], lines[i].userId, lines[i].productId)
  }

  /** `findOne({ userId, productId })`: the position of the line with that key. */
  function LineIndex(lines: seq<CartLine>, userId: Id, productId: Id): (r: Option<nat>)
    ensures r.Some? ==> r.value < |lines| && Keyed(lines[r.value], userId, productId)
    ensures r.None? <==> forall l :: l in lines ==> !Keyed(l, userId, productId)
  {
    if lines == [] then None
    else if Keyed(lines[0], userId, productId) then Some(0)
    else match LineIndex(lines[1..], userId, productId)
      case None => None
      case Some(k) => Some(k + 1)
  }

  /** `find({ userId })`: the user's lines, in storage order. */
  function LinesOf(lines: seq<CartLine>, userId: Id): (r: seq<CartLine>)
    ensures forall l :: l in r <==> l in lines && l.userId == userId
  {
    Filter(lines, (l: CartLine) => l.userId == userId)
  }

  /** The lines that are kept by a delete matching `drop`. */
  function Keep(lines: seq<CartLine>, drop: CartLine -> bool): (r: seq<CartLine>)
    ensures forall l :: l in r <==> l in lines && !drop(l)
    ensures UniqueKeys(lines) ==> UniqueKeys(r)
  {
    KeepUnique(lines, drop);
    Filter(lines, (l: CartLine) => !drop(l))
  }

  lemma {:induction false} KeepUnique(lines: seq<CartLine>, drop: CartLine -> bool)
    ensures UniqueKeys(lines) ==> UniqueKeys(Filter(lines, (l: CartLine) => !drop(l)))
  {
    var f := (l: CartLine) => !drop(l);
    if lines != [] && UniqueKeys(lines) {
      KeepUnique(lines[1..], drop);
      if f(lines[0]) {
        var r := Filter(lines, f);
        forall i, j | 0 <= i < j < |r| ensures !Keyed(r[j], r[i].userId, r[i].productId) {
          if i == 0 {
            assert r[j] in lines[1..];
          }
        }
      }
    }
  }

  // ---------------------------------------------------------------------------
  // The price fold of `getCart`
  // ---------------------------------------------------------------------------

  /** A line joined with its live product, and the prices of the whole line. */
  datatype PricedLine = PricedLine(line: CartLine, product: Product,
                                   actualPrice: real, finalPrice: real, discount: real)

  /** The accumulator of the fold. */
  datatype Totals = Totals(totalActualPrice: real, totalFinalPrice: real, totalDiscount: real,
                           totalItems: int, items: seq<PricedLine>)

  datatype Summary = Summary(totalActualPrice: real, totalFinalPrice: real, totalDiscount: real,
                             totalItems: int, deliveryCharge: real, grandTotal: real)

  /** The body of the cart response: the number of lines, the priced lines, the summary. */
  datatype CartView = CartView(count: nat, items: seq<PricedLine>, summary: Summary)

  const FlatDeliveryCharge: real := 50.0
  const FreeDeliveryLines: nat := 3

  /** The prices of one line, from the product's live `price` and `finalPrice`
      (the frozen `priceAtAddition` plays no part). */
  function PriceLine(line: CartLine, product: Product): (r: PricedLine)
    ensures r.line == line && r.product == product
    ensures r.actualPrice == product.price * line.quantity as real
    ensures r.finalPrice == product.finalPrice * line.quantity as real
    ensures r.discount == (product.price - product.finalPrice) * line.quantity as real
  {
    var actual := product.price * line.quantity as real;
    var final := product.finalPrice * line.quantity as real;
    PricedLine(line, product, actual, final, actual - final)
  }

  /** One step of the `reduce`: add the line's prices and quantity, append the line. */
  function Step(acc: Totals, line: CartLine, product: Product): Totals {
    var p := PriceLine(line, product);
    Totals(acc.totalActualPrice + p.actualPrice, acc.totalFinalPrice + p.finalPrice,
           acc.totalDiscount + p.discount, acc.totalItems + line.quantity, acc.items + [p])
  }

  /** The `reduce` over the populated lines, from the left. */
  function Fold(acc: Totals, entries: seq<(CartLine, Product)>): Totals
    decreases |entries|
  {
    if entries == [] then acc
    else Fold(Step(acc, entries[0].0, entries[0].1), entries[1..])
  }

  /** The priced lines, one per entry, in order. */
  function Priced(entries: seq<(CartLine, Product)>): (r: seq<PricedLine>)
    ensures |r| == |entries|
    ensures forall i :: 0 <= i < |r| ==> r[i] == PriceLine(entries[i].0, entries[i].1)
  {
    seq(|entries|, i requires 0 <= i < |entries| => PriceLine(entries[i].0, entries[i].1))
  }

  function SumActual(items: seq<PricedLine>): real {
    if items == [] then 0.0 else items[0].actualPrice + SumActual(items[1..])
  }

  function SumFinal(items: seq<PricedLine>): real {
    if items == [] then 0.0 else items[0].finalPrice + SumFinal(items[1..])
  }

  function SumDiscount(items: seq<PricedLine>): real {
    if items == [] then 0.0 else items[0].discount + SumDiscount(items[1..])
  }

  function SumQuantity(items: seq<PricedLine>): int {
    if items == [] then 0 else items[0].line.quantity + SumQuantity(items[1..])
  }

  /** `acc` with each price column's sum and the quantity sum of `ps` added, and the
      lines of `ps` appended. */
  function Accumulate(acc: Totals, ps: seq<PricedLine>): Totals {
    Totals(acc.totalActualPrice + SumActual(ps), acc.totalFinalPrice + SumFinal(ps),
           acc.totalDiscount + SumDiscount(ps), acc.totalItems + SumQuantity(ps), acc.items + ps)
  }

  /** The fold adds, to whatever it starts from, the sum of each price column over the
      lines, the sum of their quantities, and the priced lines in order. */
  lemma {:induction false} FoldIsSum(acc: Totals, entries: seq<(CartLine, Product)>)
    ensures Fold(acc, entries) == Accumulate(acc, Priced(entries))
    decreases |entries|
  {
    if entries == [] {
      assert Priced(entries) == [];
      assert acc.items + [] == acc.items;
    } else {
      var next := Step(acc, entries[0].0, entries[0].1);
      FoldIsSum(next, entries[1..]);
      assert Priced(entries) == [PriceLine(entries[0].0, entries[0].1)] + Priced(entries[1..]);
      AccumulateCons(acc, entries[0].0, entries[0].1, Priced(entries[1..]));
    }
  }

  /** Accumulating one step and then the rest is accumulating the step's line in front. */
  lemma AccumulateCons(acc: Totals, line: CartLine, product: Product, qs: seq<PricedLine>)
    ensures Accumulate(Step(acc, line, product), qs)
         == Accumulate(acc, [PriceLine(line, product)] + qs)
  {
    var p := PriceLine(line, product);
    assert ([p] + qs)[1..] == qs;
    assert (acc.items + [p]) + qs == acc.items + ([p] + qs);
  }

  /** Each line's discount is its actual minus its final price, so the discount
      column sums to the difference of the other two. */
  lemma {:induction false} DiscountIsDifference(entries: seq<(CartLine, Product)>)
    ensures SumDiscount(Priced(entries)) == SumActual(Priced(entries)) - SumFinal(Priced(entries))
    decreases |entries|
  {
    if entries != [] {
      DiscountIsDifference(entries[1..]);
      assert Priced(entries)[1..] == Priced(entries[1..]);
    }
  }

  /** `populate('productId')` on the user's lines: each line with its product, or
      `None` when some line's product no longer exists (the fold then reads a field
      of `null` and the request fails). */
  function Populate(mine: seq<CartLine>, products: seq<Product>): (r: Option<seq<(CartLine, Product)>>)
    ensures r.None? <==> exists l :: l in mine && FindById(products, l.productId).None?
    ensures r.Some? ==> |r.value| == |mine|
    ensures r.Some? ==> forall i :: 0 <= i < |mine| ==>
              r.value[i] == (mine[i], FindById(products, mine[i].productId).value)
  {
    if mine == [] then Some([])
    else
      var head := FindById(products, mine[0].productId);
      var tail := Populate(mine[1..], products);
      if head.None? then None
      else if tail.None? then None
      else Some([(mine[0], head.value)] + tail.value)
  }

  /** The flat delivery rule: free from three distinct lines on, 50 otherwise. */
  function DeliveryCharge(lineCount: nat): (r: real)
    ensures r == 0.0 <==> lineCount >= FreeDeliveryLines
    ensures r != 0.0 ==> r == FlatDeliveryCharge
  {
    if lineCount >= FreeDeliveryLines then 0.0 else FlatDeliveryCharge
  }

  /** `getCart`: the user's lines priced from their live products and folded into
      totals, with the delivery charge decided by the number of lines. */
  function GetCart(lines: seq<CartLine>, userId: Id, products: seq<Product>): (r: Result<CartView>)
    ensures r.Err? <==> exists l :: l in lines && l.userId == userId && FindById(products, l.productId).None?
    ensures r.Err? ==> r.failure == ServerError
  {
    var mine := LinesOf(lines, userId);
    match Populate(mine, products)
    case None => Err(ServerError)
    case Some(entries) =>
      var t := Fold(Totals(0.0, 0.0, 0.0, 0, []), entries);
      var delivery := DeliveryCharge(|t.items|);
      Ok(CartView(|mine|, t.items,
                  Summary(t.totalActualPrice, t.totalFinalPrice, t.totalDiscount, t.totalItems,
                          delivery, t.totalFinalPrice + delivery)))
  }

  /** What the cart response says: one priced line per cart line of the user, in
      storage order, each priced from its live product; every total is the sum of its
      column; the discount total is actual minus final; the unit count is the sum of
      quantities; delivery is free from three lines on and the grand total is the
      final total plus delivery. */
  lemma CartTotals(lines: seq<CartLine>, userId: Id, products: seq<Product>)
    requires GetCart(lines, userId, products).Ok?
    ensures var v := GetCart(lines, userId, products).value;
            var mine := LinesOf(lines, userId);
            && v.count == |mine| == |v.items|
            && (forall i :: 0 <= i < |mine| ==>
                  v.items[i] == PriceLine(mine[i], FindById(products, mine[i].productId).value))
            && v.summary.totalActualPrice == SumActual(v.items)
            && v.summary.totalFinalPrice == SumFinal(v.items)
            && v.summary.totalDiscount == SumDiscount(v.items)
            && v.summary.totalDiscount == v.summary.totalActualPrice - v.summary.totalFinalPrice
            && v.summary.totalItems == SumQuantity(v.items)
            && (v.summary.deliveryCharge == 0.0 <==> |mine| >= 3)
            && (|mine| < 3 ==> v.summary.deliveryCharge == 50.0)
            && v.summary.grandTotal == v.summary.totalFinalPrice + v.summary.deliveryCharge
  {
    var mine := LinesOf(lines, userId);
    var entries := Populate(mine, products).value;
    var zero := Totals(0.0, 0.0, 0.0, 0, []);
    FoldIsSum(zero, entries);
    DiscountIsDifference(entries);
    var t := Fold(zero, entries);
    assert t.items == Priced(entries);
    assert GetCart(lines, userId, products).value.items == t.items;
    assert GetCart(lines, userId, products).value.summary.totalActualPrice == t.totalActualPrice;
  }

  /** A cart that holds only the user's own lines is all of the user's lines. */
  lemma {:induction false} LinesOfOwn(lines: seq<CartLine>, userId: Id)
    requires forall l :: l in lines ==> l.userId == userId
    ensures LinesOf(lines, userId) == lines
  {
    if lines != [] {
      LinesOfOwn(lines[1..], userId);
      assert lines == [lines[0]] + lines[1..];
    }
  }

  /** A product with only the fields the cart reads set. */
  function PricedProduct(id: Id, price: real, finalPrice: real): (p: Product)
    ensures p.id == id && p.price == price && p.finalPrice == finalPrice
  {
    Product(id, "", "", "", "", "", price, 0.0, finalPrice, 0.0, 0, "", [], 0.0, 0, [],
            false, None, 0, "", "", "", map[])
  }

  /** The products of the two examples below. */
  function ExampleProducts(): (r: seq<Product>)
    ensures FindById(r, 1) == Some(PricedProduct(1, 600.0, 500.0))
    ensures FindById(r, 2) == Some(PricedProduct(2, 300.0, 300.0))
    ensures FindById(r, 3).Some?
  {
    [PricedProduct(1, 600.0, 500.0), PricedProduct(2, 300.0, 300.0), PricedProduct(3, 10.0, 10.0)]
  }

  /** Two lines, A at a final price of 500 twice and B at 300 once, make a final
      total of 1300 and, being fewer than three lines, pay 50 delivery: 1350 in all. */
  lemma {:induction false} TwoLinesPayDelivery(userId: Id)
    ensures var r := GetCart([CartLine(userId, 1, 2, 500.0), CartLine(userId, 2, 1, 300.0)],
                             userId, ExampleProducts());
            && r.Ok?
            && r.value.summary.totalFinalPrice == 1300.0
            && r.value.summary.deliveryCharge == 50.0
            && r.value.summary.grandTotal == 1350.0
  {
    var two := [CartLine(userId, 1, 2, 500.0), CartLine(userId, 2, 1, 300.0)];
    LinesOfOwn(two, userId);
    CartTotals(two, userId, ExampleProducts());
    var items := GetCart(two, userId, ExampleProducts()).value.items;
    assert items[1..][1..] == [];
    assert items[0].finalPrice == 1000.0 && items[1].finalPrice == 300.0;
    assert SumFinal(items[1..]) == 300.0;
    assert SumFinal(items) == 1300.0;
  }

  /** A third distinct line makes delivery free, whatever the unit count. */
  lemma {:induction false} ThreeLinesShipFree(userId: Id)
    ensures var r := GetCart([CartLine(userId, 1, 2, 500.0), CartLine(userId, 2, 1, 300.0),
                              CartLine(userId, 3, 1, 10.0)], userId, ExampleProducts());
            r.Ok? && r.value.summary.deliveryCharge == 0.0
  {
    var three := [CartLine(userId, 1, 2, 500.0), CartLine(userId, 2, 1, 300.0), CartLine(userId, 3, 1, 10.0)];
    LinesOfOwn(three, userId);
    CartTotals(three, userId, ExampleProducts());
  }

  // ---------------------------------------------------------------------------
  // The line store
  // ---------------------------------------------------------------------------

  /** The `validateProduct` step: the request names a product, and it is stored. */
  predicate Stored(products: seq<Product>, id: Option<Id>) {
    id.Some? && FindById(products, id.value).Some?
  }

  /** The cart collection: its lines in storage order, at most one per
      (user, product) pair. */
  class CartStore {
    var lines: seq<CartLine>

    ghost predicate Valid()
      reads this
    {
      UniqueKeys(lines)
    }

    constructor ()
      ensures Valid() && lines == []
    {
      lines := [];
    }

    /** `POST /usercart`. A product that does not exist is refused with 404. A line
        already present for the pair has its quantity increased by the requested
        amount (1 when none is given), with no validation and its `priceAtAddition`
        kept. Otherwise a new line is appended with that quantity and the product's
        current `finalPrice`; a quantity below 1 fails the schema's minimum, the
        request fails with 500 and nothing is created. */
    method AddToCart(userId: Id, productId: Id, quantity: Option<int>, products: seq<Product>)
      returns (r: Result<CartLine>)
      requires Valid()
      modifies this
      ensures Valid()
      ensures FindById(products, productId).None? ==> r == Err(NotFound) && lines == old(lines)
      ensures FindById(products, productId).Some? && LineIndex(old(lines), userId, productId).Some? ==>
                var k := LineIndex(old(lines), userId, productId).value;
                var line := old(lines)[k].(quantity := old(lines)[k].quantity + quantity.GetOr(1));
                && r == Ok(line)
                && line.priceAtAddition == old(lines)[k].priceAtAddition
                && lines == old(lines)[k := line]
      ensures FindById(products, productId).Some? && LineIndex(old(lines), userId, productId).None? ==>
                if quantity.GetOr(1) < 1 then r == Err(ServerError) && lines == old(lines)
                else
                  var line := CartLine(userId, productId, quantity.GetOr(1),
                                       FindById(products, productId).value.finalPrice);
                  r == Ok(line) && lines == old(lines) + [line]
    {
      var product := FindById(products, productId);
      if product.None? {
        return Err(NotFound);
      }
      var q := quantity.GetOr(1);
      var existing := LineIndex(lines, userId, productId);
      if existing.Some? {
        var k := existing.value;
        var line := lines[k].(quantity := lines[k].quantity + q);
        ReplaceKeepsUnique(lines, k, line);
        lines := lines[k := line];
        r := Ok(line);
      } else if q < 1 {
        r := Err(ServerError);
      } else {
        var line := CartLine(userId, productId, q, product.value.finalPrice);
        AppendFreshUnique(lines, line);
        lines := lines + [line];
        r := Ok(line);
      }
    }

    /** `PUT /usercart/:productId`. The route first looks up the product named in the
        request body (not the one in the path): when the body names none or one that
        is not stored, the answer is 404. Then a missing quantity, 0 or a negative one
        is refused with 400; otherwise the line of the path's product gets exactly
        that quantity, or 404 when the pair has no line. Other lines are not touched. */
    method UpdateCartItem(userId: Id, productId: Id, bodyProductId: Option<Id>, quantity: Option<int>,
                          products: seq<Product>)
      returns (r: Result<CartLine>)
      requires Valid()
      modifies this
      ensures Valid()
      ensures !Stored(products, bodyProductId) ==> r == Err(NotFound) && lines == old(lines)
      ensures Stored(products, bodyProductId) && (quantity.None? || quantity.value < 1) ==>
                r == Err(BadRequest) && lines == old(lines)
      ensures Stored(products, bodyProductId) && quantity.Some? && quantity.value >= 1
              && LineIndex(old(lines), userId, productId).None? ==>
                r == Err(NotFound) && lines == old(lines)
      ensures Stored(products, bodyProductId) && quantity.Some? && quantity.value >= 1
              && LineIndex(old(lines), userId, productId).Some? ==>
                var k := LineIndex(old(lines), userId, productId).value;
                var line := old(lines)[k].(quantity := quantity.value);
                r == Ok(line) && lines == old(lines)[k := line]
    {
      if !Stored(products, bodyProductId) {
        return Err(NotFound);
      }
      if quantity.None? || quantity.value < 1 {
        return Err(BadRequest);
      }
      var existing := LineIndex(lines, userId, productId);
      if existing.None? {
        return Err(NotFound);
      }
      var k := existing.value;
      var line := lines[k].(quantity := quantity.value);
      ReplaceKeepsUnique(lines, k, line);
      lines := lines[k := line];
      r := Ok(line);
    }

    /** `DELETE /usercart/:productId`: the pair's line is deleted and returned, or 404
        when there is none. Only that line goes. */
    method RemoveFromCart(userId: Id, productId: Id) returns (r: Result<CartLine>)
      requires Valid()
      modifies this
      ensures Valid()
      ensures LineIndex(old(lines), userId, productId).None? <==> r == Err(NotFound)
      ensures r.Err? ==> lines == old(lines)
      ensures r.Ok? ==> Keyed(r.value, userId, productId) && r.value in old(lines)
      ensures r.Ok? ==> var k := LineIndex(old(lines), userId, productId).value;
                        r.value == old(lines)[k] && lines == old(lines)[..k] + old(lines)[k + 1..]
      ensures forall l :: l in lines <==> l in old(lines) && !Keyed(l, userId, productId)
      ensures |lines| == |old(lines)| - (if r.Ok? then 1 else 0)
    {
      var existing := LineIndex(lines, userId, productId);
      if existing.None? {
        return Err(NotFound);
      }
      var k := existing.value;
      r := Ok(lines[k]);
      RemoveOnlyKeyed(lines, k);
      lines := lines[..k] + lines[k + 1..];
    }

    /** `DELETE /usercart`: every line of the user is deleted, every other user's line
        stays, in order. */
    method ClearCart(userId: Id)
      requires Valid()
      modifies this
      ensures Valid()
      ensures forall l :: l in lines <==> l in old(lines) && l.userId != userId
      ensures lines == Keep(old(lines), (l: CartLine) => l.userId == userId)
    {
      lines := Keep(lines, (l: CartLine) => l.userId == userId);
    }
  }

  /** A line replaced by one with the same key keeps the index unique. */
  lemma ReplaceKeepsUnique(lines: seq<CartLine>, k: nat, line: CartLine)
    requires UniqueKeys(lines) && k < |lines| && Keyed(line, lines[k].userId, lines[k].productId)
    ensures UniqueKeys(lines[k := line])
  {
    var r := lines[k := line];
    forall i, j | 0 <= i < j < |r| ensures !Keyed(r[j], r[i].userId, r[i].productId) {
      assert Keyed(r[i], lines[i].userId, lines[i].productId);
      assert Keyed(r[j], lines[j].userId, lines[j].productId);
    }
  }

  /** A line whose key no line has can be appended under the unique index. */
  lemma AppendFreshUnique(lines: seq<CartLine>, line: CartLine)
    requires UniqueKeys(lines) && forall l :: l in lines ==> !Keyed(l, line.userId, line.productId)
    ensures UniqueKeys(lines + [line])
  {
    var r := lines + [line];
    forall i, j | 0 <= i < j < |r| ensures !Keyed(r[j], r[i].userId, r[i].productId) {
      if j == |lines| {
        assert r[i] in lines;
      } else {
        assert r[i] == lines[i] && r[j] == lines[j];
      }
    }
  }

  /** Under the unique index, cutting out the line at `k` removes exactly the lines
      with its key. */
  lemma RemoveOnlyKeyed(lines: seq<CartLine>, k: nat)
    requires UniqueKeys(lines) && k < |lines|
    ensures var rest := lines[..k] + lines[k + 1..];
            && UniqueKeys(rest)
            && forall l :: l in rest <==> l in lines && !Keyed(l, lines[k].userId, lines[k].productId)
  {
    var rest := lines[..k] + lines[k + 1..];
    forall l | l in rest ensures l in lines && !Keyed(l, lines[k].userId, lines[k].productId) {
      var j :| 0 <= j < |rest| && rest[j] == l;
      if j < k {
        assert rest[j] == lines[j];
      } else {
        assert rest[j] == lines[j + 1];
      }
    }
    forall l | l in lines && !Keyed(l, lines[k].userId, lines[k].productId) ensures l in rest {
      var j :| 0 <= j < |lines| && lines[j] == l;
      if j < k {
        assert rest[j] == l;
      } else {
        assert j != k;
        assert rest[j - 1] == l;
      }
    }
    forall i, j | 0 <= i < j < |rest| ensures !Keyed(rest[j], rest[i].userId, rest[i].productId) {
      var i' := if i < k then i else i + 1;
      var j' := if j < k then j else j + 1;
      assert rest[i] == lines[i'] && rest[j] == lines[j'];
    }
  }

  /** Adding a product twice, first 2 then 3 units, leaves one line of 5 units priced
      at the `finalPrice` of the first addition, even when the product's price changed
      in between. */
  method AddTwiceIncrements(userId: Id, first: Product, later: Product) returns (line: CartLine, count: nat)
    requires later.id == first.id
    ensures line.quantity == 5 && line.priceAtAddition == first.finalPrice
    ensures count == 1
  {
    var cart := new CartStore();
    var r1 := cart.AddToCart(userId, first.id, Some(2), [first]);
    assert LineIndex(cart.lines, userId, first.id) == Some(0);
    var r2 := cart.AddToCart(userId, first.id, Some(3), [later]);
    line := r2.value;
    count := |cart.lines|;
  }
}

=== FILE: dedup.dfy ===
/** `removeDuplicates`: a filter over listed products that remembers the ids it has
    already let through, so that the first product with each id is kept and every
    later one dropped. */
module Dedup {
  import opened Wrappers
  import opened Products
  import opened Enrichment

  /** The ids of the listed products. */
  function ItemIds(s: seq<Item>): (r: set<Id>)
    ensures forall x :: x in s ==> x.product.id in r
    ensures forall id :: id in r ==> exists x :: x in s && x.product.id == id
  {
    set x | x in s :: x.product.id
  }

  /** No two listed products share an id. */
  predicate DistinctIds(s: seq<Item>) {
    forall i, j :: 0 <= i < j < |s| ==> s[i].product.id != s[j].product.id
  }

  /** The specification of the filter: walk the list from the left, keeping an item
      whose id is not yet in `seen` and adding that id. */
  function Kept(s: seq<Item>, seen: set<Id>): seq<Item>
    decreases |s|
  {
    if s == [] then []
    else if s[0].product.id in seen then Kept(s[1..], seen)
    else [s[0]] + Kept(s[1..], seen + {s[0].product.id})
  }

  /** The result of `removeDuplicates` on a list. */
  function Deduped(s: seq<Item>): seq<Item> {
    Kept(s, {})
  }

  /** `removeDuplicates`, as the source writes it: one pass, a growing `seen` set. */
  method RemoveDuplicates(products: seq<Item>) returns (r: seq<Item>)
    ensures r == Deduped(products)
  {
    var seen: set<Id> := {};
    r := [];
    var i := 0;
    while i < |products|
      invariant 0 <= i <= |products|
      invariant r + Kept(products[i..], seen) == Deduped(products)
    {
      var x := products[i];
      assert products[i..][0] == x && products[i..][1..] == products[i + 1..];
      if x.product.id !in seen {
        seen := seen + {x.product.id};
        r := r + [x];
      }
      i := i + 1;
    }
    assert products[i..] == [];
  }

  lemma {:induction false} KeptFresh(s: seq<Item>, seen: set<Id>)
    ensures DistinctIds(Kept(s, seen))
    ensures ItemIds(Kept(s, seen)) == ItemIds(s) - seen
    decreases |s|
  {
    if s != [] {
      var x := s[0];
      assert s == [x] + s[1..];
      assert ItemIds(s) == {x.product.id} + ItemIds(s[1..]);
      if x.product.id in seen {
        KeptFresh(s[1..], seen);
      } else {
        var rest := Kept(s[1..], seen + {x.product.id});
        KeptFresh(s[1..], seen + {x.product.id});
        var r := [x] + rest;
        assert ItemIds(r) == {x.product.id} + ItemIds(rest);
        forall i, j | 0 <= i < j < |r| ensures r[i].product.id != r[j].product.id {
          if i == 0 {
            assert r[j] in rest;
          }
        }
      }
    }
  }

  /** The result has no duplicate ids, and every id of the input still appears. */
  lemma DedupedDistinct(s: seq<Item>)
    ensures DistinctIds(Deduped(s))
    ensures ItemIds(Deduped(s)) == ItemIds(s)
  {
    KeptFresh(s, {});
  }

  /** `a` is `b` with some elements dropped, the rest in the same relative order. */
  predicate SubsequenceOf(a: seq<Item>, b: seq<Item>)
    decreases |b|
  {
    if a == [] then true
    else if b == [] then false
    else (a[0] == b[0] && SubsequenceOf(a[1..], b[1..])) || SubsequenceOf(a, b[1..])
  }

  lemma {:induction false} KeptSubsequence(s: seq<Item>, seen: set<Id>)
    ensures SubsequenceOf(Kept(s, seen), s)
    decreases |s|
  {
    if s != [] {
      if s[0].product.id in seen {
        KeptSubsequence(s[1..], seen);
        SubsequenceDropFront(Kept(s[1..], seen), s);
      } else {
        KeptSubsequence(s[1..], seen + {s[0].product.id});
        var r := Kept(s, seen);
        assert r[0] == s[0] && r[1..] == Kept(s[1..], seen + {s[0].product.id});
      }
    }
  }

  lemma SubsequenceDropFront(a: seq<Item>, b: seq<Item>)
    requires b != [] && SubsequenceOf(a, b[1..])
    ensures SubsequenceOf(a, b)
  {
  }

  lemma {:induction false} SubsequenceTrans(a: seq<Item>, b: seq<Item>, c: seq<Item>)
    requires SubsequenceOf(a, b) && SubsequenceOf(b, c)
    ensures SubsequenceOf(a, c)
    decreases |c|
  {
    if a != [] {
      if SubsequenceOf(b, c[1..]) {
        SubsequenceTrans(a, b, c[1..]);
      } else if a[0] == b[0] && SubsequenceOf(a[1..], b[1..]) {
        SubsequenceTrans(a[1..], b[1..], c[1..]);
      } else {
        SubsequenceTrans(a, b[1..], c[1..]);
      }
    }
  }

  /** A prefix keeps the order of what it is cut from. */
  lemma {:induction false} PrefixSubsequence(a: seq<Item>, b: seq<Item>)
    requires a <= b
    ensures SubsequenceOf(a, b)
    decreases |b|
  {
    if a != [] {
      PrefixSubsequence(a[1..], b[1..]);
    }
  }

  /** A filter keeps the order of what it filters. */
  lemma {:induction false} FilterSubsequence(s: seq<Item>, f: Item -> bool)
    ensures SubsequenceOf(Filter(s, f), s)
    decreases |s|
  {
    if s != [] {
      FilterSubsequence(s[1..], f);
      if !f(s[0]) {
        SubsequenceDropFront(Filter(s, f), s);
      }
    }
  }

  /** The filter only drops items: the result keeps the relative order of the input. */
  lemma DedupedSubsequence(s: seq<Item>)
    ensures SubsequenceOf(Deduped(s), s)
  {
    KeptSubsequence(s, {});
  }

  /** The first item of `s` with that id. */
  function FirstWithId(s: seq<Item>, id: Id): (r: Option<Item>)
    ensures r.Some? ==> r.value in s && r.value.product.id == id
    ensures r.None? ==> id !in ItemIds(s)
  {
    if s == [] then None
    else if s[0].product.id == id then Some(s[0])
    else FirstWithId(s[1..], id)
  }

  lemma {:induction false} KeptFirst(s: seq<Item>, seen: set<Id>, x: Item)
    requires x in Kept(s, seen)
    ensures FirstWithId(s, x.product.id) == Some(x)
    decreases |s|
  {
    if s[0].product.id in seen {
      KeptFirst(s[1..], seen, x);
      KeptFresh(s[1..], seen);
      assert x.product.id !in seen;
    } else if x == s[0] {
    } else {
      var rest := Kept(s[1..], seen + {s[0].product.id});
      assert x in rest;
      KeptFresh(s[1..], seen + {s[0].product.id});
      assert x.product.id in ItemIds(rest);
      KeptFirst(s[1..], seen + {s[0].product.id}, x);
    }
  }

  /** Each kept item is the first occurrence of its id in the input. */
  lemma DedupedKeepsFirst(s: seq<Item>, x: Item)
    requires x in Deduped(s)
    ensures FirstWithId(s, x.product.id) == Some(x)
  {
    KeptFirst(s, {}, x);
  }

  lemma {:induction false} KeptDistinct(s: seq<Item>, seen: set<Id>)
    requires DistinctIds(s) && ItemIds(s) !! seen
    ensures Kept(s, seen) == s
    decreases |s|
  {
    if s != [] {
      assert s[0] in s;
      assert ItemIds(s[1..]) !! seen + {s[0].product.id} by {
        forall y | y in s[1..] ensures y.product.id != s[0].product.id {
          var j :| 0 <= j < |s[1..]| && s[1..][j] == y;
          assert s[j + 1] == y;
        }
      }
      KeptDistinct(s[1..], seen + {s[0].product.id});
    }
  }

  /** A list without duplicate ids passes unchanged; in particular the filter is idempotent. */
  lemma DedupedIdempotent(s: seq<Item>)
    ensures DistinctIds(s) ==> Deduped(s) == s
    ensures Deduped(Deduped(s)) == Deduped(s)
  {
    if DistinctIds(s) {
      KeptDistinct(s, {});
    }
    DedupedDistinct(s);
    KeptDistinct(Deduped(s), {});
  }

  lemma {:induction false} FilterDistinct(s: seq<Item>, f: Item -> bool)
    requires DistinctIds(s)
    ensures DistinctIds(Filter(s, f))
  {
    if s != [] {
      FilterDistinct(s[1..], f);
      if f(s[0]) {
        var r := Filter(s, f);
        forall i, j | 0 <= i < j < |r| ensures r[i].product.id != r[j].product.id {
          if i == 0 {
            assert r[j] in s[1..];
          }
        }
      }
    }
  }
}

=== FILE: enrichment.dfy ===
/** The batch merchant join every listing applies to its page of products: one
    fetch of the merchants the page refers to, a lookup table built from what came
    back, and a `merchantDetails` entry attached to each product. */
module Enrichment {
  import opened Wrappers
  import opened Products

  /** The merchant fields a listing shows next to a product. */
  datatype MerchantDetails = MerchantDetails(
    merchantName: string,
    address: string,
    businessName: string,
    merchantPhoneNumber: string)

  /** The `merchantDetails` entry of a listed product: not attached at all (the
      enrichment returned its input unchanged), attached as `null`, or attached
      with the merchant's fields. */
  datatype Attached = NotAttached | NullDetails | Details(details: MerchantDetails)

  /** A listed product and its `merchantDetails` entry. */
  datatype Item = Item(product: Product, merchantDetails: Attached)

  /** The enriched list, and the id sets of the merchant fetches that were made. */
  datatype Enriched = Enriched(items: seq<Item>, fetches: seq<set<Id>>)

  /** Merchant ids of the store are unique. */
  ghost predicate UniqueMerchantIds(merchants: seq<Merchant>) {
    forall i, j :: 0 <= i < j < |merchants| ==> merchants[i].id != merchants[j].id
  }

  /** A product as it is listed before any enrichment. */
  function Plain(p: Product): (r: Item)
    ensures r.product == p && r.merchantDetails.NotAttached?
  {
    Item(p, NotAttached)
  }

  /** The distinct merchant ids the products refer to; products without one are skipped. */
  function MerchantIds(products: seq<Product>): (r: set<Id>)
    ensures forall p :: p in products && p.merchantId.Some? ==> p.merchantId.value in r
    ensures forall id :: id in r ==> exists p :: p in products && p.merchantId == Some(id)
  {
    set p | p in products && p.merchantId.Some? :: p.merchantId.value
  }

  /** The projection `select('merchantName address businessName phoneNumber')`
      renamed for the response. */
  function DetailsOf(m: Merchant): (r: MerchantDetails)
    ensures r.merchantName == m.merchantName && r.address == m.address
    ensures r.businessName == m.businessName && r.merchantPhoneNumber == m.phoneNumber
  {
    MerchantDetails(m.merchantName, m.address, m.businessName, m.phoneNumber)
  }

  /** `Merchant.find({ _id: { $in: ids } })`: the stored merchants with those ids. */
  function FetchMerchants(merchants: seq<Merchant>, ids: set<Id>): (r: seq<Merchant>)
    ensures forall m :: m in r <==> m in merchants && m.id in ids
  {
    Filter(merchants, (m: Merchant) => m.id in ids)
  }

  /** The `reduce` over the fetched merchants: each merchant's details under its id,
      a later merchant overwriting an earlier one with the same id. */
  function BuildLookup(fetched: seq<Merchant>): (r: map<Id, MerchantDetails>)
    ensures forall m :: m in fetched ==> m.id in r
    ensures forall id :: id in r ==> exists m :: m in fetched && m.id == id && r[id] == DetailsOf(m)
  {
    if fetched == [] then map[]
    else
      var last := fetched[|fetched| - 1];
      var init := fetched[..|fetched| - 1];
      assert fetched == init + [last];
      BuildLookup(init)[last.id := DetailsOf(last)]
  }

  /** The entry attached to one product: the looked-up details, or `null` when the
      product has no merchant id or its merchant was not found. */
  function Attach(p: Product, lookup: map<Id, MerchantDetails>): (r: Item)
    ensures r.product == p
    ensures p.merchantId.Some? && p.merchantId.value in lookup
            ==> r.merchantDetails == Details(lookup[p.merchantId.value])
    ensures p.merchantId.None? || p.merchantId.value !in lookup ==> r.merchantDetails == NullDetails
  {
    if p.merchantId.Some? && p.merchantId.value in lookup then Item(p, Details(lookup[p.merchantId.value]))
    else Item(p, NullDetails)
  }

  function AttachAll(products: seq<Product>, lookup: map<Id, MerchantDetails>): (r: seq<Item>)
    ensures |r| == |products|
    ensures forall i :: 0 <= i < |r| ==> r[i] == Attach(products[i], lookup)
  {
    seq(|products|, i requires 0 <= i < |products| => Attach(products[i], lookup))
  }

  /** `enrichProductsWithMerchantDetails`: an empty list, or one whose products carry
      no merchant id, comes back unchanged without touching the store; otherwise
      exactly one fetch is made, over the distinct merchant ids, and every product
      gets its merchant's details or `null`. Length and order are kept. */
  function Enrich(products: seq<Product>, merchants: seq<Merchant>): (r: Enriched)
    ensures |r.items| == |products|
    ensures forall i :: 0 <= i < |products| ==> r.items[i].product == products[i]
    ensures products == [] || MerchantIds(products) == {} <==> r.fetches == []
    ensures r.fetches == [] ==> forall i :: 0 <= i < |products| ==> r.items[i] == Plain(products[i])
    ensures r.fetches != [] ==> r.fetches == [MerchantIds(products)]
    ensures r.fetches != [] ==> forall i :: 0 <= i < |products| ==>
              (r.items[i].merchantDetails.NullDetails? <==>
                 products[i].merchantId.None?
                 || forall m :: m in merchants ==> m.id != products[i].merchantId.value)
    ensures r.fetches != [] ==> forall i :: 0 <= i < |products| && r.items[i].merchantDetails.Details? ==>
              exists m :: m in merchants && Some(m.id) == products[i].merchantId
                          && r.items[i].merchantDetails.details == DetailsOf(m)
  {
    if products == [] then Enriched([], [])
    else
      var ids := MerchantIds(products);
      if ids == {} then
        Enriched(seq(|products|, i requires 0 <= i < |products| => Plain(products[i])), [])
      else
        var lookup := BuildLookup(FetchMerchants(merchants, ids));
        Enriched(AttachAll(products, lookup), [ids])
  }

  /** With unique merchant ids in the store, an attached entry is exactly the details
      of the product's own merchant. */
  lemma {:induction false} EnrichFindsOwnMerchant(products: seq<Product>, merchants: seq<Merchant>, i: nat, m: Merchant)
    requires UniqueMerchantIds(merchants)
    requires i < |products| && m in merchants && products[i].merchantId == Some(m.id)
    ensures Enrich(products, merchants).items[i].merchantDetails == Details(DetailsOf(m))
  {
    var r := Enrich(products, merchants);
    assert products[i] in products;
    assert m.id in MerchantIds(products);
    assert r.fetches != [];
    var d := r.items[i].merchantDetails;
    assert d.Details?;
    var m' :| m' in merchants && Some(m'.id) == products[i].merchantId && d.details == DetailsOf(m');
    var a :| 0 <= a < |merchants| && merchants[a] == m;
    var b :| 0 <= b < |merchants| && merchants[b] == m';
    assert a == b;
  }

  /** Only the merchants the page refers to matter: a stored merchant that no listed
      product points at does not change any entry. */
  lemma {:induction false} EnrichIgnoresOtherMerchants(products: seq<Product>, merchants: seq<Merchant>, extra: Merchant)
    requires extra.id !in MerchantIds(products)
    ensures Enrich(products, merchants + [extra]).items == Enrich(products, merchants).items
  {
    var ids := MerchantIds(products);
    if products != [] && ids != {} {
      var f := (m: Merchant) => m.id in ids;
      FilterAppendRejected(merchants, extra, f);
    }
  }

  lemma {:induction false} FilterAppendRejected(s: seq<Merchant>, x: Merchant, f: Merchant -> bool)
    requires !f(x)
    ensures Filter(s + [x], f) == Filter(s, f)
  {
    if s == [] {
      assert [x][1..] == [];
    } else {
      assert (s + [x])[1..] == s[1..] + [x];
      FilterAppendRejected(s[1..], x, f);
    }
  }

  /** Every enriched item carries one of the products it was given. */
  lemma EnrichedFromInput(products: seq<Product>, merchants: seq<Merchant>)
    ensures forall x :: x in Enrich(products, merchants).items ==> x.product in products
  {
    var items := Enrich(products, merchants).items;
    forall x | x in items ensures x.product in products {
      var i :| 0 <= i < |items| && items[i] == x;
      assert x.product == products[i];
    }
  }
}

=== FILE: images.dfy ===
/** The image service: recovering an image's public id from its delivery URL, and the
    delete requests that are issued for one URL or for a list of them. The delete
    itself is a call to the image host and is represented by the request it makes. */
module Images {
  import opened Wrappers
  import opened Text

  /** The path marker of an uploaded image's delivery URL. */
  const Marker: string := "/image/upload/"

  /** `s` ends with `.` followed by a non-empty extension without `/` or `.`,
      the `.` standing at `i`: what `/\.[^/.]+$/` matches. */
  predicate ExtensionAt(s: string, i: int) {
    0 <= i < |s| - 1 && s[i] == '.' && forall j :: i < j < |s| ==> s[j] != '/' && s[j] != '.'
  }

  /** The length of the longest suffix of `s` without `/` or `.`. */
  function FreeTail(s: string): (n: nat)
    ensures n <= |s|
    ensures forall j :: |s| - n <= j < |s| ==> s[j] != '/' && s[j] != '.'
    ensures n < |s| ==> s[|s| - n - 1] == '/' || s[|s| - n - 1] == '.'
    decreases |s|
  {
    if s == [] then 0
    else if s[|s| - 1] == '/' || s[|s| - 1] == '.' then 0
    else
      var n := FreeTail(s[..|s| - 1]);
      assert forall j :: 0 <= j < |s| - 1 ==> s[..|s| - 1][j] == s[j];
      n + 1
  }

  /** `replace(/\.[^/.]+$/, "")`: the final extension is cut off when there is one;
      any other string is left alone. */
  function StripExtension(s: string): (r: string)
    ensures forall i :: ExtensionAt(s, i) ==> r == s[..i]
    ensures (forall i :: !ExtensionAt(s, i)) ==> r == s
    ensures |r| <= |s| && r == s[..|r|]
  {
    var n := FreeTail(s);
    var dot := |s| - n - 1;
    assert forall i :: ExtensionAt(s, i) ==> i == dot && 0 < n < |s| by {
      forall i | ExtensionAt(s, i) ensures i == dot && 0 < n < |s| {
        ExtensionEndsFreeTail(s, i);
      }
    }
    if 0 < n < |s| && s[dot] == '.' then
      assert ExtensionAt(s, dot);
      s[..dot]
    else
      s
  }

  /** An extension begins right before the longest suffix free of `/` and `.`. */
  lemma ExtensionEndsFreeTail(s: string, i: int)
    requires ExtensionAt(s, i)
    ensures FreeTail(s) == |s| - i - 1
  {
  }

  /** `slice(-2)`: the last two elements, or all of them when there are fewer. */
  function LastTwo<T>(s: seq<T>): (r: seq<T>)
    ensures |r| == if |s| < 2 then |s| else 2
    ensures r == s[|s| - |r|..]
  {
    if |s| < 2 then s else s[|s| - 2..]
  }

  /** The part of the URL after the first marker and before any second one. */
  function AfterMarker(url: string): (r: string)
    requires Includes(url, Marker)
  {
    Split(url, Marker)[1]
  }

  /** `extractPublicId`: no id for an empty URL. A URL with the upload marker gives
      the path after the marker with its first segment (the version) dropped and the
      extension cut off; any other URL gives its last two `/` segments, extension cut
      off. The id may come out empty. */
  function ExtractPublicId(url: string): (r: Option<string>)
    ensures r.None? <==> url == ""
  {
    if url == "" then None
    else if Includes(url, Marker) then
      var parts := Split(AfterMarker(url), "/");
      Some(StripExtension(Join(parts[1..], "/")))
    else
      Some(StripExtension(Join(LastTwo(Split(url, "/")), "/")))
  }

  /** With the marker, the segment after it is dropped and the whole rest of the path
      is kept, only its extension cut off. */
  lemma {:induction false} DropsVersionSegment(url: string, version: string, path: string)
    requires url != "" && Includes(url, Marker)
    requires AfterMarker(url) == version + "/" + path
    requires forall j :: 0 <= j < |version| ==> version[j] != '/'
    ensures ExtractPublicId(url) == Some(StripExtension(path))
  {
    SplitAt(version, '/', path);
    SplitFree(version, '/');
    var parts := Split(AfterMarker(url), "/");
    assert parts == [version] + Split(path, "/");
    assert parts[1..] == Split(path, "/");
    JoinSplit(path, "/");
  }

  /** `v1712345/products/abc123.webp` after the marker gives `products/abc123`. */
  lemma {:induction false} VersionedUploadExample(url: string)
    requires url != "" && Includes(url, Marker)
    requires AfterMarker(url) == "v1712345/products/abc123.webp"
    ensures ExtractPublicId(url) == Some("products/abc123")
  {
    var version := "v1712345";
    var path := "products/abc123.webp";
    assert AfterMarker(url) == version + "/" + path;
    assert forall j :: 0 <= j < |version| ==> version[j] != '/';
    DropsVersionSegment(url, version, path);
    WebpExtension();
  }

  lemma WebpExtension()
    ensures StripExtension("products/abc123.webp") == "products/abc123"
  {
    var path := "products/abc123.webp";
    assert ExtensionAt(path, 15);
    assert path[..15] == "products/abc123";
  }

  /** A delivery URL whose only segment after the marker is the file name has its file
      name dropped as if it were the version: the id comes out empty. */
  lemma {:induction false} SingleSegmentGivesEmptyId(url: string)
    requires url != "" && Includes(url, Marker)
    requires forall j :: 0 <= j < |AfterMarker(url)| ==> AfterMarker(url)[j] != '/'
    ensures ExtractPublicId(url) == Some("")
  {
    SplitFree(AfterMarker(url), '/');
    assert forall i :: !ExtensionAt("", i);
  }

  /** Without the marker, a URL ending in `folder/name` gives `folder/name`, extension
      cut off. */
  lemma {:induction false} KeepsFolderAndName(url: string, dir: string, folder: string, name: string)
    requires !Includes(url, Marker)
    requires url == dir + "/" + folder + "/" + name
    requires forall j :: 0 <= j < |folder| ==> folder[j] != '/'
    requires forall j :: 0 <= j < |name| ==> name[j] != '/'
    ensures ExtractPublicId(url) == Some(StripExtension(folder + "/" + name))
  {
    assert url == (dir + "/" + folder) + ['/'] + name;
    SplitAt(dir + "/" + folder, '/', name);
    SplitAt(dir, '/', folder);
    SplitFree(folder, '/');
    SplitFree(name, '/');
    var pieces := Split(url, "/");
    assert pieces == Split(dir, "/") + [folder] + [name];
    assert LastTwo(pieces) == [folder, name];
    assert Join([folder, name], "/") == folder + "/" + Join([name], "/");
  }

  /** Without the marker the id is at most a folder and a name: it holds at most one `/`. */
  lemma {:induction false} FallbackHasOneSlashAtMost(url: string)
    requires url != "" && !Includes(url, Marker)
    ensures Count(ExtractPublicId(url).value, '/') <= 1
  {
    var pieces := Split(url, "/");
    var last := LastTwo(pieces);
    var joined := Join(last, "/");
    forall i | 0 <= i < |last| ensures Count(last[i], '/') == 0 {
      SplitPiecesFree(url, '/', |pieces| - |last| + i);
    }
    if |last| == 2 {
      assert last[1..] == [last[1]];
      assert Join(last[1..], "/") == last[1];
      assert joined == last[0] + "/" + last[1];
      CountAppend(last[0] + "/", last[1], '/');
      CountAppend(last[0], "/", '/');
      assert Count("/", '/') == 1;
    }
    var r := StripExtension(joined);
    CountPrefix(joined, |r|, '/');
  }

  /** The request `deleteImage` makes: none when no usable id comes out of the URL,
      otherwise one destroy of that id. */
  datatype DeleteCall = Skipped | Destroy(publicId: string)

  function DeleteImage(url: string): (r: DeleteCall)
    ensures r.Skipped? <==> ExtractPublicId(url).None? || ExtractPublicId(url) == Some("")
    ensures r.Destroy? ==> r.publicId != "" && ExtractPublicId(url) == Some(r.publicId)
    ensures url == "" ==> r.Skipped?
  {
    match ExtractPublicId(url)
    case None => Skipped
    case Some(id) => if id == "" then Skipped else Destroy(id)
  }

  /** `deleteMultiple`: one `deleteImage` per URL, in order, empty ones included. */
  function DeleteMultiple(urls: seq<string>): (r: seq<DeleteCall>)
    ensures |r| == |urls|
    ensures forall i :: 0 <= i < |urls| ==> r[i] == DeleteImage(urls[i])
  {
    seq(|urls|, i requires 0 <= i < |urls| => DeleteImage(urls[i]))
  }

  /** Deleting a list in two parts issues the requests of the first part, then those
      of the second. */
  lemma DeleteMultipleAppend(a: seq<string>, b: seq<string>)
    ensures DeleteMultiple(a + b) == DeleteMultiple(a) + DeleteMultiple(b)
  {
  }
}

=== FILE: listing.dfy ===
/** The catalogue listing `getAllProducts`: the filter its query string selects,
    the sort it names, and either a flat `limit` or a page of 18; and the
    discount-ranked variant `handleDiscountSorting`, an aggregation that ranks by
    `(price - finalPrice) / price * 100`. */
module Listing {
  import opened Wrappers
  import opened Products
  import opened Pricing
  import opened Text
  import opened Ordering
  import opened Pagination
  import opened Enrichment

  /** The price window of the plain listing when the query names no bound. */
  const DefaultMinPrice: real := 0.0
  const DefaultMaxPrice: real := 100000000.0

  /** The page size `paginateResults` falls back to. */
  const PageSize: int := 18

  /** `new RegExp(q, 'i')` applied to one string; the pattern language is not modelled. */
  type Matcher = string -> bool

  /** The free-text parameter `q`: absent or empty, text that `new RegExp` refuses
      (it throws), or a pattern. */
  datatype TextParam = NoText | BadPattern | Pattern(m: Matcher)

  /** A numeric query parameter: absent, given as text that `Number` cannot read
      (NaN), or a number. A given parameter is non-empty text, so it is truthy. */
  datatype NumParam = Absent | NotANumber | Num(value: real)

  /** `Number(v)`: `Number(undefined)` and unreadable text are NaN, written `None`. */
  function Number(v: NumParam): (r: Option<real>)
    ensures r.Some? <==> v.Num?
    ensures r.Some? ==> r.value == v.value
  {
    if v.Num? then Some(v.value) else None
  }

  /** `Number(v)` after a destructuring default `d`, which replaces only an absent
      parameter. */
  function NumberOr(v: NumParam, d: real): (r: Option<real>)
    ensures v.Absent? ==> r == Some(d)
    ensures !v.Absent? ==> r == Number(v)
  {
    if v.Absent? then Some(d) else Number(v)
  }

  /** The query string of `GET /products`. `categories`, `sort` and `featured` are
      the raw strings ("" when absent); `limit` and `page` arrive as integers. */
  datatype Query = Query(
    minPrice: NumParam,
    maxPrice: NumParam,
    categories: string,
    minRating: NumParam,
    sort: string,
    featured: string,
    q: TextParam,
    limit: Option<int>,
    page: Option<int>)

  /** A price or rating parameter is given but is not a number. */
  predicate UnreadableNumber(q: Query) {
    q.minPrice.NotANumber? || q.maxPrice.NotANumber? || q.minRating.NotANumber?
  }

  /** One condition of a query filter. A `None` bound is NaN, with which no
      comparison holds. */
  datatype Clause =
    | CategoryIn(names: seq<string>)
    | PriceWithin(low: Option<real>, high: Option<real>)
    | RatingAtLeast(min: Option<real>)
    | FeaturedOnly
    | TextMatches(matcher: Matcher)

  /** The free-text condition: the pattern matches the title, the description, the
      brand or one of the tags. */
  predicate TextHit(m: Matcher, p: Product) {
    m(p.title) || m(p.description) || m(p.brand) || exists t :: t in p.tags && m(t)
  }

  predicate Holds(c: Clause, p: Product) {
    match c
    case CategoryIn(names) => p.category in names
    case PriceWithin(low, high) => low.Some? && high.Some? && low.value <= p.finalPrice <= high.value
    case RatingAtLeast(min) => min.Some? && p.rating >= min.value
    case FeaturedOnly => p.isFeatured
    case TextMatches(m) => TextHit(m, p)
  }

  predicate AllHold(cs: seq<Clause>, p: Product) {
    forall i :: 0 <= i < |cs| ==> Holds(cs[i], p)
  }

  lemma AllHoldAppend(a: seq<Clause>, b: seq<Clause>, p: Product)
    ensures AllHold(a + b, p) <==> AllHold(a, p) && AllHold(b, p)
  {
    if AllHold(a, p) && AllHold(b, p) {
      forall i | 0 <= i < |a + b| ensures Holds((a + b)[i], p) {
        if i >= |a| {
          assert (a + b)[i] == b[i - |a|];
        }
      }
    }
    if AllHold(a + b, p) {
      forall i | 0 <= i < |a| ensures Holds(a[i], p) {
        assert (a + b)[i] == a[i];
      }
      forall i | 0 <= i < |b| ensures Holds(b[i], p) {
        assert (a + b)[|a| + i] == b[i];
      }
    }
  }

  /** The conditions both listing modes share: categories, minimum rating, featured
      and free text, each only when its parameter is present. */
  function CommonClauses(q: Query): (r: seq<Clause>)
    ensures |r| == 0 <==> q.categories == "" && q.minRating.Absent? && q.featured != "true" && !q.q.Pattern?
  {
    (if q.categories != "" then [CategoryIn(Split(q.categories, ","))] else [])
    + (if !q.minRating.Absent? then [RatingAtLeast(Number(q.minRating))] else [])
    + (if q.featured == "true" then [FeaturedOnly] else [])
    + (match q.q case Pattern(m) => [TextMatches(m)] case _ => [])
  }

  /** The request's non-price conditions, spelled out; an unreadable minimum rating
      admits no product. */
  predicate CommonWanted(q: Query, p: Product) {
    && (q.categories != "" ==> p.category in Split(q.categories, ","))
    && (!q.minRating.Absent? ==> q.minRating.Num? && p.rating >= q.minRating.value)
    && (q.featured == "true" ==> p.isFeatured)
    && (q.q.Pattern? ==> TextHit(q.q.m, p))
  }

  lemma {:induction false} CommonClausesMeaning(q: Query, p: Product)
    ensures AllHold(CommonClauses(q), p) <==> CommonWanted(q, p)
  {
    var c1: seq<Clause> := if q.categories != "" then [CategoryIn(Split(q.categories, ","))] else [];
    var c2: seq<Clause> := if !q.minRating.Absent? then [RatingAtLeast(Number(q.minRating))] else [];
    var c3: seq<Clause> := if q.featured == "true" then [FeaturedOnly] else [];
    var c4: seq<Clause> := match q.q case Pattern(m) => [TextMatches(m)] case _ => [];
    assert CommonClauses(q) == c1 + c2 + c3 + c4;
    AllHoldAppend(c1 + c2 + c3, c4, p);
    AllHoldAppend(c1 + c2, c3, p);
    AllHoldAppend(c1, c2, p);
    if c1 != [] { assert AllHold(c1, p) <==> Holds(c1[0], p); }
    if c2 != [] { assert AllHold(c2, p) <==> Holds(c2[0], p); }
    if c3 != [] { assert AllHold(c3, p) <==> Holds(c3[0], p); }
    if c4 != [] { assert AllHold(c4, p) <==> Holds(c4[0], p); }
  }

  /** The plain listing's price bounds: the given number, or the default when the
      parameter is absent. */
  function LowBound(q: Query): real {
    if q.minPrice.Num? then q.minPrice.value else DefaultMinPrice
  }

  function HighBound(q: Query): real {
    if q.maxPrice.Num? then q.maxPrice.value else DefaultMaxPrice
  }

  /** The price window with the plain listing's defaults; an unreadable bound is NaN
      and admits no product. The plain listing itself never applies such a window (the
      store refuses to cast NaN, see `SimpleSelection`); the corrected discount filter
      does. */
  function PriceClause(q: Query): (c: Clause)
    ensures forall p :: Holds(c, p) <==>
              !q.minPrice.NotANumber? && !q.maxPrice.NotANumber?
              && LowBound(q) <= p.finalPrice <= HighBound(q)
  {
    PriceWithin(NumberOr(q.minPrice, DefaultMinPrice), NumberOr(q.maxPrice, DefaultMaxPrice))
  }

  /** The filter of the plain listing: the price window, then the shared conditions. */
  function SimpleClauses(q: Query): seq<Clause> {
    [PriceClause(q)] + CommonClauses(q)
  }

  /** What the plain listing promises about each product it returns. */
  predicate SimpleWanted(q: Query, p: Product) {
    && !q.minPrice.NotANumber? && !q.maxPrice.NotANumber?
    && LowBound(q) <= p.finalPrice <= HighBound(q)
    && CommonWanted(q, p)
  }

  lemma {:induction false} SimpleClausesMeaning(q: Query, p: Product)
    ensures AllHold(SimpleClauses(q), p) <==> SimpleWanted(q, p)
  {
    AllHoldAppend([PriceClause(q)], CommonClauses(q), p);
    CommonClausesMeaning(q, p);
    var c := PriceClause(q);
    assert [c][0] == c;
  }


  /** The `$match` conditions of the discount ranking AS WRITTEN: the price clause is
      added when either bound is given, and the bound that was not given is NaN. */
  function DiscountClausesAsWritten(q: Query): (r: seq<Clause>)
    ensures |r| == 0 <==> |CommonClauses(q)| == 0 && q.minPrice.Absent? && q.maxPrice.Absent?
  {
    (if !q.minPrice.Absent? || !q.maxPrice.Absent? then [PriceWithin(Number(q.minPrice), Number(q.maxPrice))] else [])
    + CommonClauses(q)
  }

  /** With only one bound given the written price clause compares with NaN, so the
      discount ranking drops every product, although the plain listing keeps those
      inside the window. */
  lemma {:induction false} OneBoundMatchesNothing(q: Query, p: Product)
    requires q.minPrice.Absent? != q.maxPrice.Absent?
    ensures !AllHold(DiscountClausesAsWritten(q), p)
  {
    var c := DiscountClausesAsWritten(q)[0];
    assert c.PriceWithin? && c.low == Number(q.minPrice) && c.high == Number(q.maxPrice);
  }

  /** The aggregation's `$match` is not cast, so a price or rating parameter that is
      not a number is compared as NaN there, and the discount ranking's filter, written
      or corrected, admits no product at all. */
  lemma {:induction false} UnreadableNumberMatchesNothing(q: Query, p: Product)
    requires UnreadableNumber(q)
    ensures !AllHold(DiscountClausesAsWritten(q), p)
    ensures !AllHold(DiscountClauses(q), p)
  {
    var price: seq<Clause> := if !q.minPrice.Absent? || !q.maxPrice.Absent?
                              then [PriceWithin(Number(q.minPrice), Number(q.maxPrice))] else [];
    assert DiscountClausesAsWritten(q) == price + CommonClauses(q);
    AllHoldAppend(price, CommonClauses(q), p);
    CommonClausesMeaning(q, p);
    DiscountFilterAgreesWithListing(q, p);
    if !q.minRating.NotANumber? {
      assert price[0] == PriceWithin(Number(q.minPrice), Number(q.maxPrice));
    }
  }

  /** A concrete instance: `minPrice=100` and a product at 500. */
  lemma MinPriceOnlyExample(q: Query, p: Product)
    requires q.minPrice == Num(100.0) && q.maxPrice.Absent?
    requires q.categories == "" && q.minRating.Absent? && q.featured == "" && q.q.NoText?
    requires p.finalPrice == 500.0
    ensures SimpleWanted(q, p)
    ensures !AllHold(DiscountClausesAsWritten(q), p)
  {
    OneBoundMatchesNothing(q, p);
  }

  /** The discount ranking's conditions with the bound that was not given taken from
      the plain listing's defaults; with no bound given there is no price clause. A
      `$match` stage exists only when at least one condition does. */
  function DiscountClauses(q: Query): (r: seq<Clause>)
    ensures |r| == 0 <==> |CommonClauses(q)| == 0 && q.minPrice.Absent? && q.maxPrice.Absent?
  {
    (if !q.minPrice.Absent? || !q.maxPrice.Absent? then [PriceClause(q)] else [])
    + CommonClauses(q)
  }

  /** The corrected discount filter agrees with the plain listing whenever a price
      bound is given, and otherwise applies only the shared conditions. */
  lemma {:induction false} DiscountFilterAgreesWithListing(q: Query, p: Product)
    ensures !q.minPrice.Absent? || !q.maxPrice.Absent? ==> (AllHold(DiscountClauses(q), p) <==> SimpleWanted(q, p))
    ensures q.minPrice.Absent? && q.maxPrice.Absent? ==> (AllHold(DiscountClauses(q), p) <==> CommonWanted(q, p))
  {
    CommonClausesMeaning(q, p);
    if !q.minPrice.Absent? || !q.maxPrice.Absent? {
      assert DiscountClauses(q) == SimpleClauses(q);
      SimpleClausesMeaning(q, p);
    } else {
      assert DiscountClauses(q) == CommonClauses(q);
    }
  }

  /** The written and the corrected `$match` differ only when exactly one price bound
      is given. */
  lemma DiscountClausesAgree(q: Query)
    ensures q.minPrice.Absent? == q.maxPrice.Absent? ==> DiscountClausesAsWritten(q) == DiscountClauses(q)
  {
  }

  /** The sort key `getAllProducts` applies: ascending or descending final price, or
      featured products first; any other value leaves the store's order. */
  function SortKey(sort: string): (k: Option<Product -> Rank>)
    ensures k.Some? <==> sort == "price_asc" || sort == "price_desc" || sort == "featured"
  {
    if sort == "price_asc" then Some((p: Product) => Rank(-p.finalPrice, 0.0))
    else if sort == "price_desc" then Some((p: Product) => Rank(p.finalPrice, 0.0))
    else if sort == "featured" then Some((p: Product) => Rank(if p.isFeatured then 1.0 else 0.0, 0.0))
    else None
  }

  function Ordered(sort: string, s: seq<Product>): (r: seq<Product>)
    ensures multiset(r) == multiset(s)
    ensures SortKey(sort).Some? ==> SortedDesc(r, SortKey(sort).value)
  {
    match SortKey(sort)
    case None => s
    case Some(k) => SortDesc(s, k)
  }

  /** `query.limit(n)`: 0 means no limit, and a negative limit returns `-n` documents. */
  function FlatLimit<T>(s: seq<T>, n: int): (r: seq<T>)
    ensures n == 0 ==> r == s
    ensures n != 0 ==> |r| == var m := if n < 0 then -n else n; if m < |s| then m else |s|
    ensures r == s[..|r|]
  {
    if n == 0 then s else Take(s, if n < 0 then -n else n)
  }

  /** The products a filter selects, in storage order. */
  function Matched(cs: seq<Clause>, store: seq<Product>): (r: seq<Product>)
    ensures forall x :: x in r <==> x in store && AllHold(cs, x)
  {
    Filter(store, (p: Product) => AllHold(cs, p))
  }

  /** The products the plain listing's filter selects: stored products meeting the
      price window, categories, rating, featured flag and text. */
  function Matching(q: Query, store: seq<Product>): (r: seq<Product>)
    ensures forall x :: x in r <==> x in store && SimpleWanted(q, x)
  {
    forall x ensures AllHold(SimpleClauses(q), x) <==> SimpleWanted(q, x) {
      SimpleClausesMeaning(q, x);
    }
    Matched(SimpleClauses(q), store)
  }

  /** The plain listing before enrichment: the filtered, sorted products, cut by the
      flat `limit` when one is given (no pagination block) and otherwise paged 18 at
      a time. The store fails the query when it cannot cast a condition (`new RegExp`
      refusing `q` throws even earlier, to the same 500): NaN for the Number paths
      `finalPrice` and `rating` is a cast error. A page number that makes `skip`
      negative is a store error too. */
  function SimpleSelection(q: Query, store: seq<Product>): (r: Result<(seq<Product>, Option<PageInfo>)>)
    ensures q.q.BadPattern? || UnreadableNumber(q) ==> r == Err(ServerError)
    ensures q.limit.Some? && !q.q.BadPattern? && !UnreadableNumber(q) ==> r.Ok? && r.value.1.None?
    ensures q.limit.None? && r.Ok? ==> r.value.1.Some? && |r.value.0| <= PageSize
    ensures r.Ok? ==> forall x :: x in r.value.0 ==> x in store && SimpleWanted(q, x)
  {
    if q.q.BadPattern? || UnreadableNumber(q) then Err(ServerError) else
    var sorted := Ordered(q.sort, Matching(q, store));
    assert forall x :: x in sorted ==> x in store && SimpleWanted(q, x) by {
      forall x | x in sorted ensures x in store && SimpleWanted(q, x) {
        assert x in multiset(sorted);
      }
    }
    if q.limit.Some? then Ok((FlatLimit(sorted, q.limit.value), None))
    else
      match Paginate(sorted, q.page, None, PageSize)
      case Err(e) => Err(e)
      case Ok(res) => Ok((res.0, Some(res.1)))
  }

  /** The rank of the discount ranking: the discount percentage, descending. */
  function DiscountRank(p: Product): (r: Rank)
    ensures p.price != 0.0 ==> Some(r.primary) == DiscountPercentage(p.price, p.finalPrice)
  {
    Rank(DiscountPercentage(p.price, p.finalPrice).GetOr(0.0), 0.0)
  }

  /** A product's id, as a sort or distinctness key. */
  function IdOf(p: Product): Id {
    p.id
  }

  lemma UniqueIdsAreDistinctKeys(s: seq<Product>)
    ensures UniqueIds(s) <==> DistinctKeys(s, IdOf)
  {
  }

  function Min(a: int, b: int): int {
    if a < b then a else b
  }

  /** `$sort` then `$limit n` over the candidates: the `n` best-ranked of them, or all
      of them when there are fewer; the discount ranking and the recommendation
      stages both pick this way. */
  function TopN(candidates: seq<Product>, rank: Product -> Rank, n: nat): (r: seq<Product>)
    ensures |r| == Min(n, |candidates|)
    ensures TopOf(r, candidates, rank)
    ensures UniqueIds(candidates) ==> UniqueIds(r)
  {
    TopNFacts(candidates, rank, n);
    Take(SortDesc(candidates, rank), n)
  }

  lemma TopNFacts(candidates: seq<Product>, rank: Product -> Rank, n: nat)
    ensures var r := Take(SortDesc(candidates, rank), n);
            && |r| == Min(n, |candidates|)
            && TopOf(r, candidates, rank)
            && (UniqueIds(candidates) ==> UniqueIds(r))
  {
    var sorted := SortDesc(candidates, rank);
    var r := Take(sorted, n);
    assert |sorted| == |multiset(sorted)| == |candidates|;
    PrefixIsTop(sorted, candidates, rank, |r|);
    if UniqueIds(candidates) {
      UniqueIdsAreDistinctKeys(candidates);
      SortDistinct(candidates, rank, IdOf);
      UniqueIdsAreDistinctKeys(sorted);
    }
  }

  /** What the stages use of a `TopN` pick: only candidates, all of them when fewer
      than `n` were picked, in rank order. */
  lemma TopNMembers(candidates: seq<Product>, rank: Product -> Rank, n: nat)
    ensures var r := TopN(candidates, rank, n);
            && (forall x :: x in r ==> x in candidates)
            && (|r| < n ==> forall p :: p in candidates ==> p in r)
            && SortedDesc(r, rank)
  {
    var r := TopN(candidates, rank, n);
    TopMembers(r, candidates, rank);
    if |r| < n {
      forall p | p in candidates ensures p in r {
        assert p in multiset(candidates);
      }
    }
  }

  /** The ranking stages of the discount aggregation over the matched products:
      the percentage (a product priced 0 makes the division fail), the descending
      sort, and a given `$limit`, which must be positive. */
  function RankMatched(matched: seq<Product>, limit: Option<int>): (r: Result<seq<Product>>)
    ensures r.Err? <==> (exists p :: p in matched && p.price == 0.0) || (limit.Some? && limit.value <= 0)
    ensures r.Err? ==> r.failure == ServerError
    ensures r.Ok? ==> |r.value| == if limit.None? || |matched| <= limit.value then |matched| else limit.value
    ensures r.Ok? ==> TopOf(r.value, matched, DiscountRank)
    ensures r.Ok? && limit.None? ==> multiset(r.value) == multiset(matched)
    ensures r.Ok? ==> (forall x :: x in r.value ==> x in matched) && SortedDesc(r.value, DiscountRank)
  {
    if exists p :: p in matched && p.price == 0.0 then Err(ServerError)
    else if limit.Some? && limit.value <= 0 then Err(ServerError)
    else
      var n := if limit.None? then |matched| else limit.value;
      TopNMembers(matched, DiscountRank, n);
      TopMembers(TopN(matched, DiscountRank, n), matched, DiscountRank);
      Ok(TopN(matched, DiscountRank, n))
  }

  /** The products the discount ranking's written `$match` keeps. */
  function DiscountMatching(q: Query, store: seq<Product>): seq<Product> {
    Matched(DiscountClausesAsWritten(q), store)
  }

  /** The products the corrected `$match` keeps. */
  function DiscountMatchingIntended(q: Query, store: seq<Product>): seq<Product> {
    Matched(DiscountClauses(q), store)
  }

  /** The discount ranking before enrichment, as written: a `q` that `new RegExp`
      refuses throws; otherwise only products meeting the written `$match`, so none
      at all when exactly one price bound is given. */
  function DiscountSelection(q: Query, store: seq<Product>): (r: Result<seq<Product>>)
    ensures q.q.BadPattern? ==> r == Err(ServerError)
    ensures r.Ok? ==> forall x :: x in r.value ==> x in store && AllHold(DiscountClausesAsWritten(q), x)
    ensures q.minPrice.Absent? != q.maxPrice.Absent? ==>
              r == if q.q.BadPattern? || (q.limit.Some? && q.limit.value <= 0) then Err(ServerError) else Ok([])
  {
    if q.q.BadPattern? then Err(ServerError) else
    var matched := DiscountMatching(q, store);
    OneBoundMatchesNone(q, store);
    RankMatched(matched, q.limit)
  }

  /** Under a single bound the written `$match` keeps nothing. */
  lemma OneBoundMatchesNone(q: Query, store: seq<Product>)
    ensures q.minPrice.Absent? != q.maxPrice.Absent? ==> DiscountMatching(q, store) == []
  {
    var m := DiscountMatching(q, store);
    if q.minPrice.Absent? != q.maxPrice.Absent? && m != [] {
      assert m[0] in m;
      OneBoundMatchesNothing(q, m[0]);
      assert false;
    }
  }

  /** The corrected discount ranking before enrichment: when a price bound is given
      it lists only products the plain listing's filter admits. */
  function DiscountSelectionIntended(q: Query, store: seq<Product>): (r: Result<seq<Product>>)
    ensures q.q.BadPattern? ==> r == Err(ServerError)
    ensures r.Ok? ==> forall x :: x in r.value ==> x in store && AllHold(DiscountClauses(q), x)
    ensures r.Ok? && (!q.minPrice.Absent? || !q.maxPrice.Absent?) ==>
              forall x :: x in r.value ==> SimpleWanted(q, x)
  {
    forall x ensures !q.minPrice.Absent? || !q.maxPrice.Absent? ==> (AllHold(DiscountClauses(q), x) <==> SimpleWanted(q, x)) {
      DiscountFilterAgreesWithListing(q, x);
    }
    if q.q.BadPattern? then Err(ServerError) else
    RankMatched(DiscountMatchingIntended(q, store), q.limit)
  }

  /** A listing response: the enriched products, and the pagination block when the
      listing was paged. */
  datatype Listing = Listing(products: seq<Item>, pagination: Option<PageInfo>)

  /** `getAllProducts`, with `discount_desc` handed to the discount ranking. A `q`
      that is not a valid pattern fails either way; an unreadable price or rating
      fails the plain listing only. */
  function GetAllProducts(q: Query, store: seq<Product>, merchants: seq<Merchant>): (r: Result<Listing>)
    ensures r.Err? ==> r.failure == ServerError
    ensures q.q.BadPattern? ==> r.Err?
    ensures q.sort != "discount_desc" && UnreadableNumber(q) ==> r.Err?
    ensures q.sort == "discount_desc" && r.Ok? ==> r.value.pagination.None?
    ensures q.sort != "discount_desc" && r.Ok? ==> (r.value.pagination.Some? <==> q.limit.None?)
  {
    if q.sort == "discount_desc" then
      match DiscountSelection(q, store)
      case Err(e) => Err(e)
      case Ok(products) => Ok(Listing(Enrich(products, merchants).items, None))
    else
      match SimpleSelection(q, store)
      case Err(e) => Err(e)
      case Ok(sel) => Ok(Listing(Enrich(sel.0, merchants).items, sel.1))
  }

  /** `getAllProducts` with the discount ranking's `$match` corrected; it differs from
      the written listing only for `discount_desc` with exactly one price bound. */
  function GetAllProductsIntended(q: Query, store: seq<Product>, merchants: seq<Merchant>): (r: Result<Listing>)
    ensures q.sort != "discount_desc" || q.minPrice.Absent? == q.maxPrice.Absent? ==>
              r == GetAllProducts(q, store, merchants)
  {
    if q.sort == "discount_desc" then
      DiscountClausesAgree(q);
      match DiscountSelectionIntended(q, store)
      case Err(e) => Err(e)
      case Ok(products) => Ok(Listing(Enrich(products, merchants).items, None))
    else
      GetAllProducts(q, store, merchants)
  }

  /** The products a listing returns, without their merchant entries. */
  function ListedProducts(l: Listing): (r: seq<Product>)
    ensures |r| == |l.products|
  {
    seq(|l.products|, i requires 0 <= i < |l.products| => l.products[i].product)
  }

  lemma {:induction false} ListedAreSelected(q: Query, store: seq<Product>, merchants: seq<Merchant>)
    requires GetAllProducts(q, store, merchants).Ok?
    ensures var l := GetAllProducts(q, store, merchants).value;
            if q.sort == "discount_desc" then ListedProducts(l) == DiscountSelection(q, store).value
            else ListedProducts(l) == SimpleSelection(q, store).value.0
  {
  }

  /** Every product the plain listing returns is a stored product satisfying the
      request's price window, categories, rating, featured flag and text. */
  lemma {:induction false} ListedProductsMatch(q: Query, store: seq<Product>, merchants: seq<Merchant>, i: nat)
    requires q.sort != "discount_desc"
    requires GetAllProducts(q, store, merchants).Ok?
    requires i < |GetAllProducts(q, store, merchants).value.products|
    ensures var p := GetAllProducts(q, store, merchants).value.products[i].product;
            p in store && SimpleWanted(q, p)
  {
    var l := GetAllProducts(q, store, merchants).value;
    var sel := SimpleSelection(q, store).value.0;
    assert l.products[i].product == sel[i];
    assert sel[i] in sel;
  }

  /** Page or prefix, the plain listing returns a contiguous run of the sorted matches. */
  lemma {:induction false} SimpleSelectionIsRun(q: Query, store: seq<Product>)
    requires SimpleSelection(q, store).Ok?
    ensures var sorted := Ordered(q.sort, Matching(q, store));
            exists a, b :: 0 <= a <= b <= |sorted| && SimpleSelection(q, store).value.0 == sorted[a..b]
  {
    var sorted := Ordered(q.sort, Matching(q, store));
    var sel := SimpleSelection(q, store).value.0;
    if q.limit.Some? {
      assert sel == sorted[0..|sel|];
    } else {
      var w := PageWindow(q.page, None, PageSize);
      assert Ok(sel) == PageOf(sorted, w);
      if w.skip >= |sorted| {
        assert sel == sorted[|sorted|..|sorted|];
      } else {
        var e := if w.skip + w.limit < |sorted| then w.skip + w.limit else |sorted|;
        assert sel == sorted[w.skip..e];
      }
    }
  }

  /** The plain listing is in the order its `sort` names: ascending or descending
      final price, or every featured product before every other one. */
  lemma {:induction false} ListedInRequestedOrder(q: Query, store: seq<Product>, merchants: seq<Merchant>, i: nat, j: nat)
    requires q.sort != "discount_desc"
    requires GetAllProducts(q, store, merchants).Ok?
    requires i < j < |GetAllProducts(q, store, merchants).value.products|
    ensures var ps := GetAllProducts(q, store, merchants).value.products;
            && (q.sort == "price_asc" ==> ps[i].product.finalPrice <= ps[j].product.finalPrice)
            && (q.sort == "price_desc" ==> ps[i].product.finalPrice >= ps[j].product.finalPrice)
            && (q.sort == "featured" && ps[j].product.isFeatured ==> ps[i].product.isFeatured)
  {
    var l := GetAllProducts(q, store, merchants).value;
    ListedAreSelected(q, store, merchants);
    var sorted := Ordered(q.sort, Matching(q, store));
    var sel := SimpleSelection(q, store).value.0;
    assert ListedProducts(l)[i] == l.products[i].product && ListedProducts(l)[j] == l.products[j].product;
    SimpleSelectionIsRun(q, store);
    var a, b :| 0 <= a <= b <= |sorted| && sel == sorted[a..b];
    if SortKey(q.sort).Some? {
      var k := SortKey(q.sort).value;
      SortedSlice(sorted, k, a, b);
      assert AtLeast(k(sel[i]), k(sel[j]));
    }
  }

  /** Without a `limit` the plain listing is paged 18 at a time: the block reports the
      requested page, the size 18, every match and the page count; the page holds at
      most 18 products; and the request fails only for an invalid `q`, an unreadable
      price or rating, or a page number below 0. */
  lemma {:induction false} PagedListing(q: Query, store: seq<Product>, merchants: seq<Merchant>)
    requires q.sort != "discount_desc" && q.limit.None?
    ensures var r := GetAllProducts(q, store, merchants);
            && (r.Err? <==> q.q.BadPattern? || UnreadableNumber(q) || (q.page.Some? && q.page.value < 0))
            && (r.Ok? ==> r.value.pagination == Some(PageInfo(IntOr(q.page, 1), TotalPages(|Matching(q, store)|, PageSize),
                                                              |Matching(q, store)|, PageSize)))
            && (r.Ok? ==> |r.value.products| <= PageSize)
  {
    var sorted := Ordered(q.sort, Matching(q, store));
    assert |sorted| == |multiset(sorted)| == |Matching(q, store)|;
    var w := PageWindow(q.page, None, PageSize);
    assert w.skip < 0 <==> q.page.Some? && q.page.value < 0 by {
      if q.page.Some? && q.page.value < 0 {
        assert w.skip == (q.page.value - 1) * 18;
      }
    }
  }

  /** With a `limit` the plain listing fails only for an invalid `q` or an unreadable
      price or rating; otherwise it is one flat list without a pagination block: the
      sorted matches cut to the first `limit` (its absolute value; `limit=0` returns
      every match), so under a sort key the best-ranked matches. */
  lemma {:induction false} FlatListing(q: Query, store: seq<Product>, merchants: seq<Merchant>)
    requires q.sort != "discount_desc" && q.limit.Some?
    ensures var r := GetAllProducts(q, store, merchants);
            && (r.Ok? <==> !q.q.BadPattern? && !UnreadableNumber(q))
            && (r.Ok? ==> r.value.pagination.None?
                          && ListedProducts(r.value) == FlatLimit(Ordered(q.sort, Matching(q, store)), q.limit.value))
            && (r.Ok? && SortKey(q.sort).Some? ==>
                  TopOf(ListedProducts(r.value), Matching(q, store), SortKey(q.sort).value))
            && (r.Ok? && q.limit.value == 0 ==> multiset(ListedProducts(r.value)) == multiset(Matching(q, store)))
            && (r.Ok? && q.limit.value > 0 ==> |r.value.products| <= q.limit.value)
            && (r.Ok? && q.limit.value < 0 ==> |r.value.products| <= -q.limit.value)
  {
    var r := GetAllProducts(q, store, merchants);
    if r.Ok? {
      ListedAreSelected(q, store, merchants);
      var sorted := Ordered(q.sort, Matching(q, store));
      var listed := FlatLimit(sorted, q.limit.value);
      assert ListedProducts(r.value) == listed;
      if SortKey(q.sort).Some? {
        PrefixIsTop(sorted, Matching(q, store), SortKey(q.sort).value, |listed|);
      }
    }
  }

  /** The discount ranking as written fails exactly for an invalid `q`, a matched
      product priced 0 or a given `$limit` that is not positive; otherwise it lists
      the best-discounted matched products, at most `limit` of them and all of them
      when no limit is given. With exactly one price bound given it lists nothing. */
  lemma {:induction false} DiscountListingOutcome(q: Query, store: seq<Product>, merchants: seq<Merchant>)
    requires q.sort == "discount_desc"
    ensures var r := GetAllProducts(q, store, merchants);
            && (r.Err? <==> q.q.BadPattern? || (exists p :: p in DiscountMatching(q, store) && p.price == 0.0)
                            || (q.limit.Some? && q.limit.value <= 0))
            && (r.Ok? ==> TopOf(ListedProducts(r.value), DiscountMatching(q, store), DiscountRank))
            && (r.Ok? && q.limit.None? ==> multiset(ListedProducts(r.value)) == multiset(DiscountMatching(q, store)))
            && (r.Ok? && q.limit.None? ==> |r.value.products| == |DiscountMatching(q, store)|)
            && (r.Ok? && q.limit.Some? ==> |r.value.products| <= q.limit.value)
            && (r.Ok? ==> forall i :: 0 <= i < |r.value.products| ==>
                  r.value.products[i].product in DiscountMatching(q, store))
            && (q.minPrice.Absent? != q.maxPrice.Absent? ==>
                  (r.Ok? <==> !q.q.BadPattern? && !(q.limit.Some? && q.limit.value <= 0))
                  && (r.Ok? ==> r.value.products == []))
  {
    var r := GetAllProducts(q, store, merchants);
    if r.Ok? {
      var sel := DiscountSelection(q, store).value;
      ListedAreSelected(q, store, merchants);
      forall i | 0 <= i < |r.value.products| ensures r.value.products[i].product in DiscountMatching(q, store) {
        assert r.value.products[i].product == sel[i];
      }
    }
  }

  /** The corrected discount ranking fails in the same cases over its own matches,
      and lists the best-discounted of them: when a price bound is given only
      products the plain listing's filter admits, at most `limit` of them and all of
      them when no limit is given. */
  lemma {:induction false} DiscountListingOutcomeIntended(q: Query, store: seq<Product>, merchants: seq<Merchant>)
    requires q.sort == "discount_desc"
    ensures var r := GetAllProductsIntended(q, store, merchants);
            && (r.Err? <==> q.q.BadPattern? || (exists p :: p in DiscountMatchingIntended(q, store) && p.price == 0.0)
                            || (q.limit.Some? && q.limit.value <= 0))
            && (r.Ok? ==> TopOf(ListedProducts(r.value), DiscountMatchingIntended(q, store), DiscountRank))
            && (r.Ok? && q.limit.None? ==>
                  multiset(ListedProducts(r.value)) == multiset(DiscountMatchingIntended(q, store)))
            && (r.Ok? && q.limit.None? ==> |r.value.products| == |DiscountMatchingIntended(q, store)|)
            && (r.Ok? && q.limit.Some? ==> |r.value.products| <= q.limit.value)
            && (r.Ok? ==> forall i :: 0 <= i < |r.value.products| ==>
                  r.value.products[i].product in store
                  && ((!q.minPrice.Absent? || !q.maxPrice.Absent?) ==> SimpleWanted(q, r.value.products[i].product)))
  {
    var r := GetAllProductsIntended(q, store, merchants);
    if r.Ok? {
      var sel := DiscountSelectionIntended(q, store).value;
      assert ListedProducts(r.value) == sel;
      forall i | 0 <= i < |r.value.products|
        ensures r.value.products[i].product in store
                && ((!q.minPrice.Absent? || !q.maxPrice.Absent?) ==> SimpleWanted(q, r.value.products[i].product))
      {
        assert r.value.products[i].product == sel[i];
        assert sel[i] in sel;
      }
    }
  }

  /** The discount ranking lists products by descending discount percentage. */
  lemma {:induction false} DiscountListingRanked(q: Query, store: seq<Product>, merchants: seq<Merchant>, i: nat, j: nat)
    requires q.sort == "discount_desc"
    requires GetAllProducts(q, store, merchants).Ok?
    requires i < j < |GetAllProducts(q, store, merchants).value.products|
    ensures var ps := GetAllProducts(q, store, merchants).value.products;
            && ps[i].product.price != 0.0 && ps[j].product.price != 0.0
            && DiscountPercentage(ps[i].product.price, ps[i].product.finalPrice).value
               >= DiscountPercentage(ps[j].product.price, ps[j].product.finalPrice).value
  {
    var ps := GetAllProducts(q, store, merchants).value.products;
    var sel := DiscountSelection(q, store).value;
    var matched := DiscountMatching(q, store);
    assert ps[i].product == sel[i] && ps[j].product == sel[j];
    assert sel[i] in sel && sel[j] in sel;
    assert sel[i] in matched && sel[j] in matched;
    assert AtLeast(DiscountRank(sel[i]), DiscountRank(sel[j]));
  }

  /** A product 20% off is listed before one 10% off. */
  lemma TwentyPercentBeforeTen(q: Query, store: seq<Product>, merchants: seq<Merchant>, i: nat, j: nat)
    requires q.sort == "discount_desc"
    requires GetAllProducts(q, store, merchants).Ok?
    requires i < |GetAllProducts(q, store, merchants).value.products|
    requires j < |GetAllProducts(q, store, merchants).value.products|
    requires var ps := GetAllProducts(q, store, merchants).value.products;
             ps[i].product.price == 1000.0 && ps[i].product.finalPrice == 800.0
             && ps[j].product.price == 1000.0 && ps[j].product.finalPrice == 900.0
    ensures i < j
  {
    var ps := GetAllProducts(q, store, merchants).value.products;
    assert i != j by {
      assert ps[i].product.finalPrice != ps[j].product.finalPrice;
    }
    if j < i {
      DiscountListingRanked(q, store, merchants, j, i);
      TenAndTwentyPercent();
    }
  }

  lemma TenAndTwentyPercent()
    ensures DiscountPercentage(1000.0, 900.0) == Some(10.0)
    ensures DiscountPercentage(1000.0, 800.0) == Some(20.0)
  {
  }
}

=== FILE: ordering.dfy ===
/** The store's `$sort` / `sort()`: a descending sort on a one- or two-level key.
    An ascending key is sorted as its negation. The store does not promise an
    order among equal keys; this model keeps their storage order (an insertion
    sort that puts each element after the ones it ties with). */
module Ordering {

  /** A sort key: compared on `primary` first and on `secondary` among ties. */
  datatype Rank = Rank(primary: real, secondary: real)

  /** `a` sorts no later than `b` in a descending sort. */
  predicate AtLeast(a: Rank, b: Rank) {
    a.primary > b.primary || (a.primary == b.primary && a.secondary >= b.secondary)
  }

  predicate SortedDesc<T>(s: seq<T>, rank: T -> Rank) {
    forall i, j :: 0 <= i < j < |s| ==> AtLeast(rank(s[i]), rank(s[j]))
  }

  function Insert<T>(x: T, s: seq<T>, rank: T -> Rank): (r: seq<T>)
    ensures multiset(r) == multiset(s) + multiset{x}
  {
    if s == [] then [x]
    else if AtLeast(rank(s[0]), rank(x)) then
      assert s == [s[0]] + s[1..];
      [s[0]] + Insert(x, s[1..], rank)
    else
      [x] + s
  }

  lemma {:induction false} InsertSorted<T>(x: T, s: seq<T>, rank: T -> Rank)
    requires SortedDesc(s, rank)
    ensures SortedDesc(Insert(x, s, rank), rank)
  {
    if s != [] {
      var r := Insert(x, s, rank);
      if AtLeast(rank(s[0]), rank(x)) {
        var tail := Insert(x, s[1..], rank);
        InsertSorted(x, s[1..], rank);
        assert r == [s[0]] + tail;
        forall j | 0 < j < |r| ensures AtLeast(rank(s[0]), rank(r[j])) {
          var y := r[j];
          assert y in tail;
          assert y in multiset(tail);
          assert y in s[1..] || y == x;
        }
      } else {
        assert r == [x] + s;
      }
    }
  }

  /** The documents of `s` in descending key order: a permutation of `s`. */
  function SortDesc<T>(s: seq<T>, rank: T -> Rank): (r: seq<T>)
    ensures multiset(r) == multiset(s)
    ensures SortedDesc(r, rank)
  {
    if s == [] then []
    else
      assert s == s[..|s| - 1] + [s[|s| - 1]];
      var sorted := SortDesc(s[..|s| - 1], rank);
      InsertSorted(s[|s| - 1], sorted, rank);
      Insert(s[|s| - 1], sorted, rank)
  }

  /** A contiguous run of a sorted sequence (a page, a prefix) is sorted. */
  lemma SortedSlice<T>(s: seq<T>, rank: T -> Rank, a: nat, b: nat)
    requires SortedDesc(s, rank) && a <= b <= |s|
    ensures SortedDesc(s[a..b], rank)
  {
    forall i, j | 0 <= i < j < b - a ensures AtLeast(rank(s[a..b][i]), rank(s[a..b][j])) {
      assert s[a..b][i] == s[a + i] && s[a..b][j] == s[a + j];
    }
  }

  /** Every element of `r` ranks no lower than every element of `rest`. */
  predicate RanksAbove<T>(r: seq<T>, rest: seq<T>, rank: T -> Rank) {
    forall i, j :: 0 <= i < |r| && 0 <= j < |rest| ==> AtLeast(rank(r[i]), rank(rest[j]))
  }

  /** `r` is a best-ranked selection from `s`, as `$sort` then `$limit` gives one: in
      rank order, and with the elements of `s` it leaves out, a permutation of `s`
      in which nothing left out ranks above anything kept. */
  ghost predicate TopOf<T(!new)>(r: seq<T>, s: seq<T>, rank: T -> Rank) {
    && SortedDesc(r, rank)
    && exists rest :: multiset(r + rest) == multiset(s) && RanksAbove(r, rest, rank)
  }

  /** A prefix of a sorted permutation of `s` is a best-ranked selection from `s`. */
  lemma {:induction false} PrefixIsTop<T(!new)>(sorted: seq<T>, s: seq<T>, rank: T -> Rank, n: nat)
    requires SortedDesc(sorted, rank) && multiset(sorted) == multiset(s) && n <= |sorted|
    ensures TopOf(sorted[..n], s, rank)
  {
    var top, rest := sorted[..n], sorted[n..];
    assert top + rest == sorted;
    SortedSlice(sorted, rank, 0, n);
    assert sorted[0..n] == top;
    forall i, j | 0 <= i < |top| && 0 <= j < |rest| ensures AtLeast(rank(top[i]), rank(rest[j])) {
      assert top[i] == sorted[i] && rest[j] == sorted[n + j];
    }
    assert multiset(top + rest) == multiset(s) && RanksAbove(top, rest, rank);
  }

  /** A best-ranked selection holds only elements of `s`, and all of them when it is
      as long as `s`. */
  lemma TopMembers<T(!new)>(r: seq<T>, s: seq<T>, rank: T -> Rank)
    requires TopOf(r, s, rank)
    ensures forall x :: x in r ==> x in s
    ensures |r| == |s| ==> multiset(r) == multiset(s)
  {
    var rest :| multiset(r + rest) == multiset(s) && RanksAbove(r, rest, rank);
    assert multiset(r + rest) == multiset(r) + multiset(rest);
    forall x | x in r ensures x in s {
      assert x in multiset(r);
      assert x in multiset(s);
    }
    if |r| == |s| {
      assert |multiset(s)| == |s|;
      assert |multiset(r + rest)| == |r| + |rest|;
      assert rest == [];
    }
  }

  /** No two elements of `s` share a key. */
  predicate DistinctKeys<T, K(==)>(s: seq<T>, key: T -> K) {
    forall i, j :: 0 <= i < j < |s| ==> key(s[i]) != key(s[j])
  }

  lemma {:induction false} InsertDistinct<T, K>(x: T, s: seq<T>, rank: T -> Rank, key: T -> K)
    requires DistinctKeys(s, key)
    requires forall y :: y in s ==> key(y) != key(x)
    ensures DistinctKeys(Insert(x, s, rank), key)
  {
    if s != [] {
      var r := Insert(x, s, rank);
      if AtLeast(rank(s[0]), rank(x)) {
        var tail := Insert(x, s[1..], rank);
        InsertDistinct(x, s[1..], rank, key);
        assert r == [s[0]] + tail;
        forall j | 0 < j < |r| ensures key(s[0]) != key(r[j]) {
          var y := r[j];
          assert y in tail;
          assert y in multiset(tail);
          if y != x {
            assert y in s[1..];
            var k :| 0 <= k < |s[1..]| && s[1..][k] == y;
            assert s[k + 1] == y;
          }
        }
      } else {
        assert r == [x] + s;
      }
    }
  }

  /** Sorting never makes two elements share a key. */
  lemma {:induction false} SortDistinct<T, K>(s: seq<T>, rank: T -> Rank, key: T -> K)
    requires DistinctKeys(s, key)
    ensures DistinctKeys(SortDesc(s, rank), key)
  {
    if s != [] {
      var init := s[..|s| - 1];
      var x := s[|s| - 1];
      SortDistinct(init, rank, key);
      var sorted := SortDesc(init, rank);
      forall y | y in sorted ensures key(y) != key(x) {
        assert y in multiset(sorted);
        assert y in init;
        var k :| 0 <= k < |init| && init[k] == y;
        assert s[k] == y;
      }
      InsertDistinct(x, sorted, rank, key);
    }
  }
}

=== FILE: pagination.dfy ===
/** Page-window arithmetic shared by the listing endpoints and the merchant's own
    product list: `page` and `limit` from the query string, `skip = (page - 1) * limit`,
    and `totalPages = ceil(total / limit)`. */
module Pagination {
  import opened Wrappers
  import opened Products

  /** `parseInt(raw) || fallback`: a missing or unparsable (NaN) value, and 0 itself,
      give the fallback; any other integer, negative ones included, is kept. */
  function IntOr(raw: Option<int>, fallback: int): (r: int)
    ensures raw.Some? && raw.value != 0 ==> r == raw.value
    ensures raw.None? || raw.value == 0 ==> r == fallback
  {
    if raw.Some? && raw.value != 0 then raw.value else fallback
  }

  /** `Math.ceil`. */
  function Ceil(x: real): (r: int)
    ensures x <= r as real < x + 1.0
  {
    -((-x).Floor)
  }

  datatype Window = Window(page: int, limit: int, skip: int)

  /** The window of a request: page 1 and the endpoint's default limit unless the
      query gives other (non-zero) numbers; `skip` counts the documents on the
      pages before this one. */
  function PageWindow(page: Option<int>, limit: Option<int>, defaultLimit: int): (w: Window)
    requires defaultLimit > 0
    ensures w.page != 0 && w.limit != 0
    ensures w.page == IntOr(page, 1) && w.limit == IntOr(limit, defaultLimit)
    ensures page.None? || page.value == 0 ==> w.page == 1
    ensures limit.None? || limit.value == 0 ==> w.limit == defaultLimit
    ensures w.skip == (w.page - 1) * w.limit
  {
    var p := IntOr(page, 1);
    var l := IntOr(limit, defaultLimit);
    Window(p, l, (p - 1) * l)
  }

  /** `Math.ceil(total / limit)`: for a positive limit, the fewest pages of `limit`
      documents that hold `total` documents. */
  function TotalPages(total: nat, limit: int): (r: int)
    requires limit != 0
    ensures limit > 0 ==> r >= 0 && r * limit >= total && (r - 1) * limit < total
    ensures limit > 0 && total == 0 ==> r == 0
  {
    CeilPages(total, limit);
    Ceil(total as real / limit as real)
  }

  lemma CeilPages(total: nat, limit: int)
    requires limit != 0
    ensures var r := Ceil(total as real / limit as real);
            limit > 0 ==> r >= 0 && r * limit >= total && (r - 1) * limit < total
  {
    if limit > 0 {
      var r := Ceil(total as real / limit as real);
      CeilBounds(total as real, limit as real, r as real);
      CastMul(r, limit);
      CastMul(r - 1, limit);
      assert (r - 1) as real == r as real - 1.0;
    }
  }

  /** A number not below `total / l` and less than one above it, times `l`, covers
      `total`, and one less does not. */
  lemma CeilBounds(total: real, l: real, r: real)
    requires l > 0.0 && total >= 0.0
    requires total / l <= r < total / l + 1.0
    ensures r * l >= total && (r - 1.0) * l < total && r > -1.0
  {
    var x := total / l;
    assert x * l == total;
    MulMonoReal(r, x, l);
    MulMonoReal(x, r - 1.0, l);
  }

  /** Integer products carry over to the reals. */
  lemma CastMul(a: int, b: int)
    ensures (a * b) as real == (a as real) * (b as real)
  {
  }

  lemma MulMonoReal(a: real, b: real, c: real)
    requires a >= b && c > 0.0
    ensures a * c >= b * c
    ensures a > b ==> a * c > b * c
  {
  }

  lemma MulMonoInt(a: int, b: int, c: int)
    requires a >= b && c > 0
    ensures a * c >= b * c
  {
  }

  /** `skip(w.skip).limit(w.limit)` on the matching documents. The store rejects a
      negative skip; a negative limit asks for that many documents in one batch. */
  function PageOf<T>(s: seq<T>, w: Window): (r: Result<seq<T>>)
    ensures w.skip < 0 <==> r.Err?
    ensures r.Err? ==> r == Err(ServerError)
    ensures r.Ok? && w.limit > 0 ==> |r.value| <= w.limit
    ensures r.Ok? && w.skip < |s| && w.limit > 0 ==>
              r.value == s[w.skip..if w.skip + w.limit < |s| then w.skip + w.limit else |s|]
    ensures r.Ok? && w.limit < 0 && w.skip < |s| ==> r.value == Take(s[w.skip..], -w.limit)
    ensures r.Ok? && w.skip >= |s| ==> r.value == []
  {
    if w.skip < 0 then Err(ServerError)
    else
      var rest := if w.skip < |s| then s[w.skip..] else [];
      Ok(Take(rest, if w.limit < 0 then -w.limit else w.limit))
  }

  /** The pagination block of a listing response. */
  datatype PageInfo = PageInfo(currentPage: int, totalPages: int, totalItems: nat, itemsPerPage: int)

  /** `paginateResults`: the page of the matching documents the request asks for,
      and the page count of all of them. */
  function Paginate<T>(matching: seq<T>, page: Option<int>, limit: Option<int>, defaultLimit: int)
    : (r: Result<(seq<T>, PageInfo)>)
    requires defaultLimit > 0
    ensures r.Ok? ==> r.value.1.totalItems == |matching|
    ensures r.Ok? ==> r.value.1.currentPage == PageWindow(page, limit, defaultLimit).page
    ensures r.Ok? ==> r.value.1.itemsPerPage == PageWindow(page, limit, defaultLimit).limit
    ensures r.Ok? ==> r.value.1.totalPages == TotalPages(|matching|, r.value.1.itemsPerPage)
    ensures r.Ok? ==> Ok(r.value.0) == PageOf(matching, PageWindow(page, limit, defaultLimit))
    ensures r.Err? <==> PageWindow(page, limit, defaultLimit).skip < 0
  {
    var w := PageWindow(page, limit, defaultLimit);
    match PageOf(matching, w)
    case Err(e) => Err(e)
    case Ok(items) => Ok((items, PageInfo(w.page, TotalPages(|matching|, w.limit), |matching|, w.limit)))
  }

  /** Every document is on exactly the page its index says: document `i` is entry
      `i % limit` of page `i / limit + 1`, and that page is within the page count. */
  lemma {:induction false} EveryDocumentOnItsPage<T>(s: seq<T>, limit: int, i: nat)
    requires limit > 0 && i < |s|
    ensures var w := PageWindow(Some(i / limit + 1), Some(limit), 18);
            && PageOf(s, w).Ok?
            && i % limit < |PageOf(s, w).value|
            && PageOf(s, w).value[i % limit] == s[i]
            && i / limit + 1 <= TotalPages(|s|, limit)
  {
    var p := i / limit + 1;
    var w := PageWindow(Some(p), Some(limit), 18);
    assert w.skip == (i / limit) * limit;
    assert w.skip + i % limit == i;
    var tp := TotalPages(|s|, limit);
    assert (tp - 1) * limit < |s| <= tp * limit;
    assert (i / limit) * limit <= i < tp * limit;
    if i / limit >= tp {
      MulMonoInt(i / limit, tp, limit);
    }
  }

  /** 40 matching documents at the default 18 per page make 3 pages, and page 3
      holds the last 4. */
  lemma FortyItemsThreePages<T>(s: seq<T>)
    requires |s| == 40
    ensures var r := Paginate(s, Some(3), None, 18);
            && r.Ok? && r.value.1.totalPages == 3
            && r.value.0 == s[36..] && |r.value.0| == 4
  {
    var w := PageWindow(Some(3), None, 18);
    assert w.skip == 36;
    assert TotalPages(40, 18) == 3;
  }
}

=== FILE: pricing.dfy ===
/** The price arithmetic of the marketplace. Money and percentages are exact
    rationals (`real`); JavaScript's `Math.round` is written out. The catalogue
    applies the discount formula at three sites with three rounding policies, and
    each gets its own function here. */
module Pricing {
  import opened Wrappers

  /** JavaScript's `Math.round`: the nearest integer, halves rounded up. */
  function Round(x: real): (r: int)
    ensures x - 0.5 < r as real <= x + 0.5
  {
    (x + 0.5).Floor
  }

  /** `parseFloat(v) || 0`: a missing or unparsable (NaN) number becomes 0. */
  function OrZero(v: Option<real>): (r: real)
    ensures v.None? ==> r == 0.0
    ensures v.Some? ==> r == v.value
  {
    v.GetOr(0.0)
  }

  /** The schema default and pre-save value of `finalPrice`: the price minus the
      discount percentage of it, unrounded. */
  function DefaultFinalPrice(price: real, discount: real): (r: real)
    ensures discount == 0.0 ==> r == price
    ensures price - r == price * discount / 100.0
  {
    price - price * (discount / 100.0)
  }

  /** A discount between 0 and 100 percent never raises the price or makes it negative. */
  lemma DefaultFinalPriceBounds(price: real, discount: real)
    requires price >= 0.0 && 0.0 <= discount <= 100.0
    ensures 0.0 <= DefaultFinalPrice(price, discount) <= price
  {
    var f := discount / 100.0;
    assert 0.0 <= f <= 1.0;
    assert 0.0 <= price * f;
    assert price * f <= price * 1.0;
  }

  /** The discounted price `addProduct` computes: rounded only when there is a
      positive discount, otherwise the price itself. */
  function DiscountedPrice(price: real, discount: real): (r: real)
    ensures discount <= 0.0 ==> r == price
    ensures discount > 0.0 ==> r == r.Floor as real
    ensures discount > 0.0 ==> -0.5 < r - DefaultFinalPrice(price, discount) <= 0.5
  {
    if discount > 0.0 then Round(price - (price * discount) / 100.0) as real else price
  }

  /** The `finalPrice` `addProduct` hands to the new document: the discounted
      price plus the product's own delivery charge. */
  function AddFinalPrice(price: real, discount: real, deliveryCharge: real): (r: real)
    ensures r - deliveryCharge == DiscountedPrice(price, discount)
    ensures discount <= 0.0 ==> r == price + deliveryCharge
  {
    DiscountedPrice(price, discount) + deliveryCharge
  }

  /** The `finalPrice` `updateProduct` stores: always rounded, even with no discount,
      and without the delivery charge. */
  function UpdatedFinalPrice(price: real, discount: real): (r: int)
    ensures -0.5 < r as real - DefaultFinalPrice(price, discount) <= 0.5
  {
    Round(price - (price * discount) / 100.0)
  }

  /** The update path rounds a fractional price that the add path keeps. */
  lemma UpdateRoundsWithoutDiscount()
    ensures DiscountedPrice(99.5, 0.0) == 99.5
    ensures UpdatedFinalPrice(99.5, 0.0) == 100
  {
  }

  /** The ranking metric `(price - finalPrice) / price * 100`; the store's `$divide`
      fails on a zero price, shown as `None`. */
  function DiscountPercentage(price: real, finalPrice: real): (r: Option<real>)
    ensures r.None? <==> price == 0.0
    ensures r.Some? ==> r.value * price == (price - finalPrice) * 100.0
  {
    if price == 0.0 then None else Some((price - finalPrice) / price * 100.0)
  }

  /** On a product whose `finalPrice` is the unrounded default, the ranking metric
      gives back exactly the stored discount. */
  lemma {:induction false} PercentageRecoversDiscount(price: real, discount: real)
    requires price != 0.0
    ensures DiscountPercentage(price, DefaultFinalPrice(price, discount)) == Some(discount)
  {
    var fp := DefaultFinalPrice(price, discount);
    assert price - fp == price * (discount / 100.0);
    assert (price - fp) / price == discount / 100.0;
  }

  /** The fraction the wish-list stage sorts by, `(price - finalPrice) / price`; a zero
      price (NaN or an infinity in JavaScript) is ranked as no discount. */
  function DiscountFraction(price: real, finalPrice: real): (r: real)
    ensures price != 0.0 ==> r * price == price - finalPrice
    ensures price == 0.0 ==> r == 0.0
  {
    if price == 0.0 then 0.0 else (price - finalPrice) / price
  }
}

=== FILE: products.dfy ===
/** The product and merchant records of the document store, the sequence helpers the
    queries are built from (filter, take, find by id), and the product document with
    its schema defaults and its two pre-save hooks. */
module Products {
  import opened Wrappers
  import opened Pricing

  /** Object ids of the store. */
  type Id = nat

  /** The schema-less `specifications` object, as key/value pairs. */
  type Specs = map<string, string>

  /** A stored product. A missing `brand` or optional text field is the empty string. */
  datatype Product = Product(
    id: Id,
    title: string,
    description: string,
    brand: string,
    category: string,
    subCategory: string,
    price: real,
    discount: real,
    finalPrice: real,
    deliveryCharge: real,
    stock: int,
    imageUrl: string,
    images: seq<string>,
    rating: real,
    reviewsCount: int,
    tags: seq<string>,
    isFeatured: bool,
    merchantId: Option<Id>,
    createdAt: int,
    warranty: string,
    returnPolicy: string,
    deliveryTime: string,
    specifications: Specs)

  /** A merchant record; only the display fields enrichment reads are kept. */
  datatype Merchant = Merchant(
    id: Id,
    merchantName: string,
    address: string,
    businessName: string,
    phoneNumber: string)

  /** The schema's bounds on `rating`. */
  predicate RatingInRange(rating: real) {
    0.0 <= rating <= 5.0
  }

  /** The `_id` values of a collection are unique. */
  ghost predicate UniqueIds(s: seq<Product>) {
    forall i, j :: 0 <= i < j < |s| ==> s[i].id != s[j].id
  }

  function Ids(s: seq<Product>): (r: set<Id>)
    ensures forall p :: p in s ==> p.id in r
    ensures forall id :: id in r ==> exists p :: p in s && p.id == id
  {
    set p | p in s :: p.id
  }

  /** The documents of `s` that satisfy `f`, in storage order. */
  function Filter<T(!new)>(s: seq<T>, f: T -> bool): (r: seq<T>)
    ensures |r| <= |s|
    ensures forall x :: x in r <==> x in s && f(x)
  {
    if s == [] then []
    else if f(s[0]) then [s[0]] + Filter(s[1..], f)
    else Filter(s[1..], f)
  }

  lemma {:induction false} FilterUnique(s: seq<Product>, f: Product -> bool)
    ensures UniqueIds(s) ==> UniqueIds(Filter(s, f))
  {
    if s != [] && UniqueIds(s) {
      FilterUnique(s[1..], f);
      if f(s[0]) {
        var r := Filter(s, f);
        forall i, j | 0 <= i < j < |r| ensures r[i].id != r[j].id {
          if i == 0 {
            assert r[j] in s[1..];
          }
        }
      }
    }
  }

  /** `$limit n`: the first `n` documents, or all of them when there are fewer. */
  function Take<T>(s: seq<T>, n: nat): (r: seq<T>)
    ensures |r| == if n < |s| then n else |s|
    ensures r == s[..|r|]
  {
    if n < |s| then s[..n] else s
  }

  lemma TakeUnique(s: seq<Product>, n: nat)
    requires UniqueIds(s)
    ensures UniqueIds(Take(s, n))
  {
  }

  /** `findById`: the document with that id, if the collection holds one. */
  function FindById(s: seq<Product>, id: Id): (r: Option<Product>)
    ensures r.Some? ==> r.value in s && r.value.id == id
    ensures r.None? ==> id !in Ids(s)
  {
    if s == [] then None
    else if s[0].id == id then Some(s[0])
    else FindById(s[1..], id)
  }

  /** Under unique ids, looking a stored document up by its id finds that document. */
  lemma FoundUnique(s: seq<Product>, q: Product)
    requires UniqueIds(s) && q in s
    ensures FindById(s, q.id) == Some(q)
  {
    var r := FindById(s, q.id);
    assert r.Some?;
    var i :| 0 <= i < |s| && s[i] == r.value;
    var j :| 0 <= j < |s| && s[j] == q;
    assert i == j;
  }

  /** Position of the document with that id. */
  function IndexOfId(s: seq<Product>, id: Id): (r: Option<nat>)
    ensures r.Some? ==> r.value < |s| && s[r.value].id == id
    ensures r.None? ==> id !in Ids(s)
  {
    if s == [] then None
    else if s[0].id == id then Some(0)
    else match IndexOfId(s[1..], id)
      case None => None
      case Some(k) => Some(k + 1)
  }

  /** A product document before and during `save`: the fields the schema defaults
      and the pre-save hooks touch, and Mongoose's record of which paths were modified. */
  class ProductDocument {
    var price: real
    var discount: real
    var finalPrice: real
    var rating: real
    var isFeatured: Option<bool>
    var specifications: Option<Specs>
    var images: Option<seq<string>>
    var priceModified: bool
    var discountModified: bool

    /** `new Product({...})`: schema defaults fill what was not given (a discount of 0,
        a `finalPrice` computed from the price and discount, a rating of 0, not
        featured, no images). On a new document the price path counts as modified,
        and so does the discount when it was given. */
    constructor (price: real, discount: Option<real>, finalPrice: Option<real>, rating: Option<real>,
                 isFeatured: Option<bool>, specifications: Option<Specs>, images: Option<seq<string>>)
      ensures this.price == price
      ensures this.discount == discount.GetOr(0.0)
      ensures this.finalPrice == if finalPrice.Some? then finalPrice.value
                                 else DefaultFinalPrice(price, discount.GetOr(0.0))
      ensures finalPrice.None? && discount.None? ==> this.finalPrice == price
      ensures this.rating == rating.GetOr(0.0)
      ensures this.isFeatured == Some(isFeatured.GetOr(false))
      ensures this.specifications == specifications
      ensures this.images == Some(images.GetOr([]))
      ensures priceModified && discountModified == discount.Some?
    {
      var d := discount.GetOr(0.0);
      this.price := price;
      this.discount := d;
      this.finalPrice := if finalPrice.Some? then finalPrice.value else DefaultFinalPrice(price, d);
      this.rating := rating.GetOr(0.0);
      this.isFeatured := Some(isFeatured.GetOr(false));
      this.specifications := specifications;
      this.images := Some(images.GetOr([]));
      priceModified := true;
      discountModified := discount.Some?;
    }

    /** `save()`: validation first (a rating outside 0..5 rejects the save and
        nothing changes), then the first hook recomputes `finalPrice` when the price
        or the discount was modified, and the second fills the missing flag,
        specifications and images without touching values that are present. */
    method Save() returns (saved: bool)
      modifies this
      ensures saved <==> RatingInRange(old(rating))
      ensures !saved ==> unchanged(this)
      ensures saved ==> finalPrice == if old(priceModified) || old(discountModified)
                                      then DefaultFinalPrice(old(price), old(discount))
                                      else old(finalPrice)
      ensures saved ==> isFeatured == Some(old(isFeatured).GetOr(false))
      ensures saved ==> specifications == Some(old(specifications).GetOr(map[]))
      ensures saved ==> images == Some(old(images).GetOr([]))
      ensures saved ==> !priceModified && !discountModified
      ensures price == old(price) && discount == old(discount) && rating == old(rating)
    {
      if !RatingInRange(rating) {
        return false;
      }
      if priceModified || discountModified {
        finalPrice := price - price * (discount / 100.0);
      }
      isFeatured := if isFeatured.Some? then isFeatured else Some(false);
      specifications := if specifications.Some? then specifications else Some(map[]);
      images := if images.Some? then images else Some([]);
      priceModified, discountModified := false, false;
      saved := true;
    }
  }

  /** A saved new document, saved again without changes, keeps the `finalPrice` the
      first save computed: the hook fires only on modified prices. */
  method SaveTwiceKeepsFinalPrice(price: real, discount: real, given: real) returns (first: real, second: real)
    ensures first == DefaultFinalPrice(price, discount)
    ensures second == first
  {
    var doc := new ProductDocument(price, Some(discount), Some(given), None, None, None, None);
    var ok := doc.Save();
    first := doc.finalPrice;
    ok := doc.Save();
    second := doc.finalPrice;
  }
}

=== FILE: recommend.dfy ===
/** The product page: `getSimilarProducts` (a random sample of the same category or
    sub-category, topped up with the same brand), `getRecommendedProducts` (wish
    list, then the best discounts, then the best rated, until there are ten), and
    the assembly in `getProductById`. */
module Recommendations {
  import opened Wrappers
  import opened Products
  import opened Pricing
  import opened Ordering
  import opened Listing
  import opened Enrichment
  import opened Dedup

  /** How many products each suggestion list holds at most. */
  const MaxSuggestions: nat := 10
  /** Below this many category matches the similar list is topped up by brand. */
  const TopUpThreshold: nat := 5
  /** The rating the popular-products stage asks for. */
  const PopularRating: real := 4.0

  /** The store's `$sample` of `size: 10`: as many distinct candidates as it can give,
      up to 10, in no particular order. */
  ghost predicate IsSample(sampled: seq<Product>, candidates: seq<Product>) {
    |sampled| == Min(|candidates|, MaxSuggestions) && multiset(sampled) <= multiset(candidates)
  }

  /** Other products of the same category or the same sub-category. */
  function CategoryMatches(source: Product, store: seq<Product>): seq<Product> {
    Filter(store, (p: Product) => p.id != source.id && (p.category == source.category || p.subCategory == source.subCategory))
  }

  /** Other products of the same brand, in storage order. */
  function BrandMatches(source: Product, store: seq<Product>): seq<Product> {
    Filter(store, (p: Product) => p.id != source.id && p.brand == source.brand)
  }

  /** `getSimilarProducts`: the sampled category matches; when fewer than 5 were found
      and the product has a brand, followed by same-brand products up to 10 in all.
      The top-up does not exclude products the sample already holds. */
  function GetSimilarProducts(source: Product, store: seq<Product>, sampled: seq<Product>): (r: seq<Product>)
    requires IsSample(sampled, CategoryMatches(source, store))
    ensures |r| <= MaxSuggestions
    ensures forall x :: x in r ==> x in store && x.id != source.id
    ensures |sampled| <= |r| && r[..|sampled|] == sampled
    ensures forall i :: 0 <= i < |sampled| ==>
              r[i].category == source.category || r[i].subCategory == source.subCategory
    ensures |sampled| >= TopUpThreshold || source.brand == "" ==> r == sampled
    ensures |sampled| < TopUpThreshold && source.brand != "" ==>
              |r| == Min(MaxSuggestions, |sampled| + |BrandMatches(source, store)|)
              && forall i :: |sampled| <= i < |r| ==> r[i].brand == source.brand
    ensures |sampled| < TopUpThreshold && source.brand != "" ==> r[|sampled|..] <= BrandMatches(source, store)
  {
    SampledMatch(source, store, sampled);
    var byCategory := Take(sampled, MaxSuggestions);
    assert byCategory == sampled;
    if |byCategory| < TopUpThreshold && source.brand != "" then
      var byBrand := Take(BrandMatches(source, store), MaxSuggestions - |byCategory|);
      BrandTopUp(source, store, sampled, byBrand);
      byCategory + byBrand
    else byCategory
  }

  /** Every sampled product is another stored product of the same category or
      sub-category. */
  lemma SampledMatch(source: Product, store: seq<Product>, sampled: seq<Product>)
    requires IsSample(sampled, CategoryMatches(source, store))
    ensures |sampled| <= MaxSuggestions
    ensures forall i :: 0 <= i < |sampled| ==>
              sampled[i] in store && sampled[i].id != source.id
              && (sampled[i].category == source.category || sampled[i].subCategory == source.subCategory)
  {
    forall i | 0 <= i < |sampled|
      ensures sampled[i] in store && sampled[i].id != source.id
              && (sampled[i].category == source.category || sampled[i].subCategory == source.subCategory)
    {
      assert sampled[i] in multiset(sampled);
      assert sampled[i] in multiset(CategoryMatches(source, store));
    }
  }

  /** The brand top-up: other stored products of the same brand, filling up to 10. */
  lemma BrandTopUp(source: Product, store: seq<Product>, sampled: seq<Product>, byBrand: seq<Product>)
    requires |sampled| <= MaxSuggestions
    requires byBrand == Take(BrandMatches(source, store), MaxSuggestions - |sampled|)
    ensures |sampled + byBrand| == Min(MaxSuggestions, |sampled| + |BrandMatches(source, store)|)
    ensures forall i :: 0 <= i < |byBrand| ==>
              byBrand[i] in store && byBrand[i].id != source.id && byBrand[i].brand == source.brand
  {
    forall i | 0 <= i < |byBrand|
      ensures byBrand[i] in store && byBrand[i].id != source.id && byBrand[i].brand == source.brand
    {
      assert byBrand[i] in BrandMatches(source, store);
    }
  }

  /** The rank of the wish-list stage: the discount fraction, descending. */
  function FractionRank(p: Product): Rank {
    Rank(DiscountFraction(p.price, p.finalPrice), 0.0)
  }

  /** The rank of the popular stage: rating, then number of reviews, descending. */
  function PopularityRank(p: Product): Rank {
    Rank(p.rating, p.reviewsCount as real)
  }

  /** Stage 1: the discounted wish-list products other than the one shown, best
      discount first. It is not capped at 10. */
  function WishlistStage(source: Product, wishlist: seq<Product>): (r: seq<Product>)
    ensures forall x :: x in r ==> x in wishlist && x.discount > 0.0 && x.id != source.id
    ensures forall x :: x in wishlist && x.discount > 0.0 && x.id != source.id ==> x in r
    ensures |r| <= |wishlist|
    ensures SortedDesc(r, FractionRank)
  {
    var kept := Filter(wishlist, (p: Product) => p.discount > 0.0 && p.id != source.id);
    SortKeepsMembers(kept, FractionRank);
    SortDesc(kept, FractionRank)
  }

  lemma SortKeepsMembers(s: seq<Product>, rank: Product -> Rank)
    ensures forall x :: x in SortDesc(s, rank) <==> x in s
    ensures |SortDesc(s, rank)| == |s|
  {
    var r := SortDesc(s, rank);
    assert forall x :: x in r <==> x in multiset(r);
    assert forall x :: x in s <==> x in multiset(s);
    assert |r| == |multiset(r)|;
  }

  /** What stage 1 contributes for a user with or without a wish list. */
  function WishlistPart(source: Product, wishlist: Option<seq<Product>>): seq<Product> {
    if wishlist.Some? then WishlistStage(source, wishlist.value) else []
  }

  /** Stage 2 candidates: discounted products not shown and not chosen yet. */
  function DiscountCandidates(exclude: set<Id>, store: seq<Product>): (r: seq<Product>)
    ensures forall p :: p in r <==> p in store && p.id !in exclude && p.discount > 0.0
    ensures UniqueIds(store) ==> UniqueIds(r)
  {
    var f := (p: Product) => p.id !in exclude && p.discount > 0.0;
    FilterUnique(store, f);
    Filter(store, f)
  }

  /** Stage 3 candidates: products rated 4 or more, not shown and not chosen yet. */
  function PopularCandidates(exclude: set<Id>, store: seq<Product>): (r: seq<Product>)
    ensures forall p :: p in r <==> p in store && p.id !in exclude && p.rating >= PopularRating
    ensures UniqueIds(store) ==> UniqueIds(r)
  {
    var f := (p: Product) => p.id !in exclude && p.rating >= PopularRating;
    FilterUnique(store, f);
    Filter(store, f)
  }

  /** The stage-2 `$divide` fails: a candidate is priced 0. */
  predicate DivideFails(candidates: seq<Product>) {
    exists p :: p in candidates && p.price == 0.0
  }

  /** Stage 2 runs and fails, which the catch turns into an empty list. */
  predicate StageTwoFails(source: Product, wishlist: Option<seq<Product>>, store: seq<Product>) {
    var w := WishlistPart(source, wishlist);
    |w| < MaxSuggestions && DivideFails(DiscountCandidates({source.id} + Ids(w), store))
  }

  /** Wanted by stage 2 or stage 3, leaving the shown product aside. */
  predicate Eligible(source: Product, p: Product) {
    p.id != source.id && (p.discount > 0.0 || p.rating >= PopularRating)
  }

  /** The recommendations after the wish-list part `w` split at `k`: the stage-2
      products, discounted and best discount first, then the stage-3 products,
      undiscounted, rated 4 or more and best rated first. */
  predicate StagesAt(r: seq<Product>, w: nat, k: int) {
    w <= k <= |r|
    && SortedDesc(r[w..k], DiscountRank)
    && SortedDesc(r[k..], PopularityRank)
    && (forall i :: w <= i < k ==> r[i].discount > 0.0)
    && (forall i :: k <= i < |r| ==> r[i].discount <= 0.0 && r[i].rating >= PopularRating)
  }

  /** The two stage blocks of `r`, split at `w` and `k`, are what `$sort` then `$limit`
      picks: stage 2 the best-discounted products outside the shown one and the wish-list
      part, stage 3 the best-rated products outside everything before it, each as many
      as were missing, or all of its candidates when there are fewer. */
  ghost predicate StagesBest(source: Product, store: seq<Product>, r: seq<Product>, w: nat, k: int) {
    && w <= k <= |r|
    && (w < MaxSuggestions ==>
          k - w == Min(MaxSuggestions - w, |DiscountCandidates({source.id} + Ids(r[..w]), store)|))
    && TopOf(r[w..k], DiscountCandidates({source.id} + Ids(r[..w]), store), DiscountRank)
    && (k < MaxSuggestions ==>
          |r| - k == Min(MaxSuggestions - k, |PopularCandidates({source.id} + Ids(r[..k]), store)|))
    && TopOf(r[k..], PopularCandidates({source.id} + Ids(r[..k]), store), PopularityRank)
  }

  /** The shape of a recommendation list `r` whose wish-list part is `w`: `w` comes
      first; the list is capped at 10 unless the wish list alone is longer; the
      products after `w` are stored products other than the shown one and not in
      `w`, with distinct ids, the best-ranked of each stage's candidates in that
      stage's order; and a list shorter than 10 already holds every eligible product. */
  ghost predicate WellStaged(source: Product, store: seq<Product>, w: seq<Product>, r: seq<Product>) {
    && |w| <= |r| && r[..|w|] == w
    && (|r| <= MaxSuggestions || r == w)
    && (forall i :: |w| <= i < |r| ==> r[i] in store && r[i].id != source.id && r[i].id !in Ids(w))
    && (forall i, j :: |w| <= i < j < |r| ==> r[i].id != r[j].id)
    && (exists k :: StagesAt(r, |w|, k) && StagesBest(source, store, r, |w|, k))
    && (|r| < MaxSuggestions ==> forall p :: p in store && Eligible(source, p) ==> p.id in Ids(r))
  }

  lemma StageTwoFacts(source: Product, store: seq<Product>, w: seq<Product>, top2: seq<Product>)
    requires UniqueIds(store)
    requires if |w| < MaxSuggestions
             then top2 == TopN(DiscountCandidates({source.id} + Ids(w), store), DiscountRank, MaxSuggestions - |w|)
             else top2 == []
    ensures StageTwoDone(source, store, w, top2)
  {
    var candidates := DiscountCandidates({source.id} + Ids(w), store);
    if |w| < MaxSuggestions {
      TopNMembers(candidates, DiscountRank, MaxSuggestions - |w|);
    } else {
      assert top2 + candidates == candidates && RanksAbove(top2, candidates, DiscountRank);
    }
  }

  lemma StageThreeFacts(source: Product, store: seq<Product>, before: seq<Product>, top3: seq<Product>)
    requires UniqueIds(store)
    requires if |before| < MaxSuggestions
             then top3 == TopN(PopularCandidates({source.id} + Ids(before), store), PopularityRank, MaxSuggestions - |before|)
             else top3 == []
    ensures StageThreeDone(source, store, before, top3)
  {
    var candidates := PopularCandidates({source.id} + Ids(before), store);
    if |before| < MaxSuggestions {
      TopNMembers(candidates, PopularityRank, MaxSuggestions - |before|);
    } else {
      assert top3 + candidates == candidates && RanksAbove(top3, candidates, PopularityRank);
    }
  }

  /** What stages 2 and 3 returned, as `getRecommendedProducts` receives them: each
      excludes what came before, asks for no more than is missing, is in its stage
      order, and is complete when it returned fewer than it asked for. */
  ghost predicate StageTwoDone(source: Product, store: seq<Product>, w: seq<Product>, top2: seq<Product>) {
    && (|w| >= MaxSuggestions ==> top2 == [])
    && (|w| < MaxSuggestions ==> |top2| <= MaxSuggestions - |w|)
    && (|w| < MaxSuggestions ==> |top2| == Min(MaxSuggestions - |w|, |DiscountCandidates({source.id} + Ids(w), store)|))
    && TopOf(top2, DiscountCandidates({source.id} + Ids(w), store), DiscountRank)
    && (forall x :: x in top2 ==> x in DiscountCandidates({source.id} + Ids(w), store))
    && (|w| + |top2| < MaxSuggestions ==>
          forall p :: p in DiscountCandidates({source.id} + Ids(w), store) ==> p in top2)
    && UniqueIds(top2) && SortedDesc(top2, DiscountRank)
  }

  ghost predicate StageThreeDone(source: Product, store: seq<Product>, before: seq<Product>, top3: seq<Product>) {
    && (|before| >= MaxSuggestions ==> top3 == [])
    && (|before| < MaxSuggestions ==> |top3| <= MaxSuggestions - |before|)
    && (|before| < MaxSuggestions ==>
          |top3| == Min(MaxSuggestions - |before|, |PopularCandidates({source.id} + Ids(before), store)|))
    && TopOf(top3, PopularCandidates({source.id} + Ids(before), store), PopularityRank)
    && (forall x :: x in top3 ==> x in PopularCandidates({source.id} + Ids(before), store))
    && (|before| + |top3| < MaxSuggestions ==>
          forall p :: p in PopularCandidates({source.id} + Ids(before), store) ==> p in top3)
    && UniqueIds(top3) && SortedDesc(top3, PopularityRank)
  }

  /** What stages 2 and 3 returned, as `getRecommendedProducts` receives them: each
      excludes what came before, asks for no more than is missing, is in its stage
      order, and is complete when it returned fewer than it asked for. */
  ghost predicate StageResults(source: Product, store: seq<Product>, w: seq<Product>,
                               top2: seq<Product>, top3: seq<Product>) {
    StageTwoDone(source, store, w, top2) && StageThreeDone(source, store, w + top2, top3)
  }

  lemma IdsGrow(a: seq<Product>, b: seq<Product>)
    ensures Ids(a) <= Ids(a + b) && Ids(b) <= Ids(a + b)
  {
    assert forall x :: x in a ==> x in a + b;
    assert forall x :: x in b ==> x in a + b;
  }

  lemma {:induction false} ComposeMembers(source: Product, store: seq<Product>, w: seq<Product>,
                                          top2: seq<Product>, top3: seq<Product>)
    requires StageResults(source, store, w, top2, top3)
    ensures var r := w + top2 + top3;
            forall i :: |w| <= i < |r| ==> r[i] in store && r[i].id != source.id && r[i].id !in Ids(w)
  {
    var r := w + top2 + top3;
    IdsGrow(w, top2);
    forall i | |w| <= i < |r| ensures r[i] in store && r[i].id != source.id && r[i].id !in Ids(w) {
      if i < |w| + |top2| {
        assert r[i] == top2[i - |w|];
        assert r[i] in DiscountCandidates({source.id} + Ids(w), store);
      } else {
        assert r[i] == top3[i - |w| - |top2|];
        assert r[i] in PopularCandidates({source.id} + Ids(w + top2), store);
      }
    }
  }

  lemma {:induction false} ComposeDistinct(source: Product, store: seq<Product>, w: seq<Product>,
                                           top2: seq<Product>, top3: seq<Product>)
    requires StageResults(source, store, w, top2, top3)
    ensures var r := w + top2 + top3;
            forall i, j :: |w| <= i < j < |r| ==> r[i].id != r[j].id
  {
    var r := w + top2 + top3;
    var k := |w| + |top2|;
    forall i, j | |w| <= i < j < |r| ensures r[i].id != r[j].id {
      if j < k {
        assert r[i] == top2[i - |w|] && r[j] == top2[j - |w|];
      } else if k <= i {
        assert r[i] == top3[i - k] && r[j] == top3[j - k];
      } else {
        assert r[i] == (w + top2)[i];
        assert r[j] == top3[j - k];
        assert r[j] in PopularCandidates({source.id} + Ids(w + top2), store);
        assert r[i].id in Ids(w + top2);
      }
    }
  }

  lemma {:induction false} ComposeUndiscounted(source: Product, store: seq<Product>, w: seq<Product>,
                                               top2: seq<Product>, top3: seq<Product>)
    requires StageResults(source, store, w, top2, top3)
    ensures forall x :: x in top3 ==> x.discount <= 0.0 && x.rating >= PopularRating
  {
    IdsGrow(w, top2);
    forall x | x in top3 ensures x.discount <= 0.0 && x.rating >= PopularRating {
      assert x in PopularCandidates({source.id} + Ids(w + top2), store);
      assert x.id !in Ids(w) && x.id != source.id;
      assert x !in top2;
      assert x !in DiscountCandidates({source.id} + Ids(w), store);
    }
  }

  lemma {:induction false} ComposeOrder(w: seq<Product>, top2: seq<Product>, top3: seq<Product>)
    requires forall x :: x in top2 ==> x.discount > 0.0
    requires forall x :: x in top3 ==> x.discount <= 0.0 && x.rating >= PopularRating
    requires SortedDesc(top2, DiscountRank) && SortedDesc(top3, PopularityRank)
    ensures StagesAt(w + top2 + top3, |w|, |w| + |top2|)
  {
    var r := w + top2 + top3;
    var k := |w| + |top2|;
    assert r[|w|..k] == top2 && r[k..] == top3;
    forall i | |w| <= i < k ensures r[i].discount > 0.0 {
      assert r[i] == top2[i - |w|];
    }
    forall i | k <= i < |r| ensures r[i].discount <= 0.0 && r[i].rating >= PopularRating {
      assert r[i] == top3[i - k];
    }
  }

  lemma {:induction false} ComposeComplete(source: Product, store: seq<Product>, w: seq<Product>,
                                           top2: seq<Product>, top3: seq<Product>)
    requires forall p :: p in DiscountCandidates({source.id} + Ids(w), store) ==> p in top2
    requires forall p :: p in PopularCandidates({source.id} + Ids(w + top2), store) ==> p in top3
    ensures forall p :: p in store && Eligible(source, p) ==> p.id in Ids(w + top2 + top3)
  {
    var r := w + top2 + top3;
    IdsGrow(w, top2);
    IdsGrow(w + top2, top3);
    forall p | p in store && Eligible(source, p) ensures p.id in Ids(r) {
      if p.id !in Ids(w + top2) {
        assert p !in DiscountCandidates({source.id} + Ids(w), store);
        assert p in PopularCandidates({source.id} + Ids(w + top2), store);
        assert p in r;
      }
    }
  }

  /** Split at the end of stage 2, the composed list's blocks are the stages' picks. */
  lemma {:induction false} ComposeBest(source: Product, store: seq<Product>, w: seq<Product>,
                                       top2: seq<Product>, top3: seq<Product>)
    requires StageResults(source, store, w, top2, top3)
    ensures StagesBest(source, store, w + top2 + top3, |w|, |w| + |top2|)
  {
    var r := w + top2 + top3;
    var k := |w| + |top2|;
    assert r[..|w|] == w;
    assert r[|w|..k] == top2;
    assert r[..k] == w + top2;
    assert r[k..] == top3;
  }

  /** Stages 2 and 3 as `getRecommendedProducts` runs them append up to a well-staged list. */
  lemma {:induction false} ComposeStages(source: Product, store: seq<Product>, w: seq<Product>,
                                         top2: seq<Product>, top3: seq<Product>)
    requires StageResults(source, store, w, top2, top3)
    ensures WellStaged(source, store, w, w + top2 + top3)
  {
    var r := w + top2 + top3;
    assert r[..|w|] == w;
    ComposeMembers(source, store, w, top2, top3);
    ComposeDistinct(source, store, w, top2, top3);
    forall x | x in top2 ensures x.discount > 0.0 {
      assert x in DiscountCandidates({source.id} + Ids(w), store);
    }
    ComposeUndiscounted(source, store, w, top2, top3);
    ComposeOrder(w, top2, top3);
    ComposeBest(source, store, w, top2, top3);
    if |r| < MaxSuggestions {
      ComposeComplete(source, store, w, top2, top3);
    }
  }

  lemma StagedExcludesSource(source: Product, store: seq<Product>, w: seq<Product>, r: seq<Product>)
    requires WellStaged(source, store, w, r)
    requires forall x :: x in w ==> x.id != source.id
    ensures forall x :: x in r ==> x.id != source.id
  {
    forall x | x in r ensures x.id != source.id {
      var i :| 0 <= i < |r| && r[i] == x;
      if i < |w| {
        assert x == w[i];
      }
    }
  }

  /** What `getRecommendedProducts` may return for the shown product: never the
      product itself, nothing when stage 2 fails, and otherwise a well-staged list. */
  ghost predicate Recommended(source: Product, wishlist: Option<seq<Product>>, store: seq<Product>, r: seq<Product>) {
    && (forall x :: x in r ==> x.id != source.id)
    && (StageTwoFails(source, wishlist, store) ==> r == [])
    && (!StageTwoFails(source, wishlist, store) ==> WellStaged(source, store, WishlistPart(source, wishlist), r))
  }

  /** Stages 2 and 3 run over the wish-list part give a recommendation list. */
  lemma RunStages(source: Product, wishlist: Option<seq<Product>>, store: seq<Product>,
                  w: seq<Product>, top2: seq<Product>, top3: seq<Product>, r: seq<Product>)
    requires UniqueIds(store)
    requires w == WishlistPart(source, wishlist)
    requires r == w + top2 + top3
    requires if |w| < MaxSuggestions
             then top2 == TopN(DiscountCandidates({source.id} + Ids(w), store), DiscountRank, MaxSuggestions - |w|)
             else top2 == []
    requires var before := w + top2;
             if |before| < MaxSuggestions
             then top3 == TopN(PopularCandidates({source.id} + Ids(before), store), PopularityRank, MaxSuggestions - |before|)
             else top3 == []
    requires !StageTwoFails(source, wishlist, store)
    ensures Recommended(source, wishlist, store, r)
  {
    StageTwoFacts(source, store, w, top2);
    StageThreeFacts(source, store, w + top2, top3);
    ComposeStages(source, store, w, top2, top3);
    StagedExcludesSource(source, store, w, w + top2 + top3);
  }

  /** `getRecommendedProducts`: a list grown stage by stage while it holds fewer than
      10 products, each stage asking for exactly the missing number and excluding the
      shown product and everything chosen so far. A failed stage empties the list. */
  method GetRecommendedProducts(source: Product, wishlist: Option<seq<Product>>, store: seq<Product>)
    returns (r: seq<Product>)
    requires UniqueIds(store)
    ensures Recommended(source, wishlist, store, r)
  {
    var rec: seq<Product> := [];
    if wishlist.Some? {
      rec := WishlistStage(source, wishlist.value);
    }
    var w := rec;
    assert w == WishlistPart(source, wishlist);
    var highDiscount: seq<Product> := [];
    if |rec| < MaxSuggestions {
      var needed := MaxSuggestions - |rec|;
      var candidates := DiscountCandidates({source.id} + Ids(rec), store);
      if DivideFails(candidates) {
        assert StageTwoFails(source, wishlist, store);
        return [];
      }
      highDiscount := TopN(candidates, DiscountRank, needed);
    }
    rec := rec + highDiscount;
    var popular: seq<Product> := [];
    if |rec| < MaxSuggestions {
      var needed := MaxSuggestions - |rec|;
      var candidates := PopularCandidates({source.id} + Ids(rec), store);
      popular := TopN(candidates, PopularityRank, needed);
    }
    rec := rec + popular;
    r := rec;
    assert !StageTwoFails(source, wishlist, store);
    RunStages(source, wishlist, store, w, highDiscount, popular, r);
  }

  /** The product page: the product with its merchant entry, and the two suggestion
      lists. */
  datatype ProductPage = ProductPage(product: Item, similarProducts: seq<Item>, productsYouMayLike: seq<Item>)

  /** The filter that drops the shown product. */
  function OtherThan(id: Id): Item -> bool {
    (x: Item) => x.product.id != id
  }

  /** A suggestion list as the page shows it: the enriched list, de-duplicated, without
      the shown product and cut to 10. Each product id appears once, with the entry of
      its first occurrence; and a list cut short of 10 leaves out no product other
      than the shown one. */
  function ShownItems(products: seq<Product>, merchants: seq<Merchant>, id: Id): (r: seq<Item>)
    ensures |r| <= MaxSuggestions
    ensures DistinctIds(r)
    ensures forall x :: x in r ==> x.product in products && x.product.id != id
    ensures forall x :: x in r ==> FirstWithId(Enrich(products, merchants).items, x.product.id) == Some(x)
    ensures |r| < MaxSuggestions ==> forall p :: p in products && p.id != id ==> p.id in ItemIds(r)
  {
    var others := Filter(Deduped(Enrich(products, merchants).items), OtherThan(id));
    OthersFacts(products, merchants, id, others);
    ShownPrefix(others, Take(others, MaxSuggestions));
    Take(others, MaxSuggestions)
  }

  /** The de-duplicated list without the shown product: distinct ids, each the first
      entry of its product, and every product other than the shown one present. */
  lemma OthersFacts(products: seq<Product>, merchants: seq<Merchant>, id: Id, others: seq<Item>)
    requires others == Filter(Deduped(Enrich(products, merchants).items), OtherThan(id))
    ensures DistinctIds(others)
    ensures forall x :: x in others ==> x.product in products && x.product.id != id
                                        && FirstWithId(Enrich(products, merchants).items, x.product.id) == Some(x)
    ensures forall p :: p in products && p.id != id ==> p.id in ItemIds(others)
  {
    var enriched := Enrich(products, merchants).items;
    var unique := Deduped(enriched);
    DedupedDistinct(enriched);
    FilterDistinct(unique, OtherThan(id));
    EnrichedFromInput(products, merchants);
    forall x | x in others
      ensures x.product in products && x.product.id != id && FirstWithId(enriched, x.product.id) == Some(x)
    {
      assert x in unique;
      DedupedKeepsFirst(enriched, x);
    }
    forall p | p in products && p.id != id ensures p.id in ItemIds(others) {
      var i :| 0 <= i < |products| && products[i] == p;
      assert enriched[i] in enriched;
      assert p.id in ItemIds(unique);
      var x :| x in unique && x.product.id == p.id;
      assert OtherThan(id)(x);
      assert x in others;
    }
  }

  /** Cutting to 10 keeps distinct ids and members, and cuts nothing from a shorter list. */
  lemma ShownPrefix(others: seq<Item>, r: seq<Item>)
    requires DistinctIds(others)
    requires r == Take(others, MaxSuggestions)
    ensures DistinctIds(r)
    ensures forall x :: x in r ==> x in others
    ensures |r| < MaxSuggestions ==> r == others
  {
    assert forall i :: 0 <= i < |r| ==> r[i] == others[i];
  }

  /** The shown list keeps the order of the enriched list: de-duplicating, dropping
      the shown product and cutting to 10 only leave items out. */
  lemma ShownInOrder(products: seq<Product>, merchants: seq<Merchant>, id: Id)
    ensures var enriched := Enrich(products, merchants).items;
            && SubsequenceOf(ShownItems(products, merchants, id), Deduped(enriched))
            && SubsequenceOf(ShownItems(products, merchants, id), enriched)
  {
    var enriched := Enrich(products, merchants).items;
    var unique := Deduped(enriched);
    var others := Filter(unique, OtherThan(id));
    var r := ShownItems(products, merchants, id);
    PrefixSubsequence(r, others);
    FilterSubsequence(unique, OtherThan(id));
    SubsequenceTrans(r, others, unique);
    DedupedSubsequence(enriched);
    SubsequenceTrans(r, unique, enriched);
  }

  /** `removeDuplicates(...).filter(...).slice(0, 10)` over an enriched list. */
  method Shown(products: seq<Product>, merchants: seq<Merchant>, id: Id) returns (r: seq<Item>)
    ensures r == ShownItems(products, merchants, id)
  {
    var enriched := Enrich(products, merchants).items;
    var unique := RemoveDuplicates(enriched);
    var others := Filter(unique, OtherThan(id));
    r := Take(others, MaxSuggestions);
  }

  /** `getProductById`: 400 for an id that is not an object id, 404 for an id no
      product has, and otherwise the product with at most 10 similar products and at
      most 10 recommendations, none of them the product itself and none twice. */
  method GetProductById(id: Option<Id>, store: seq<Product>, merchants: seq<Merchant>,
                        sampled: seq<Product>, wishlist: Option<seq<Product>>)
    returns (r: Result<ProductPage>)
    requires UniqueIds(store)
    requires id.Some? && FindById(store, id.value).Some? ==>
               IsSample(sampled, CategoryMatches(FindById(store, id.value).value, store))
    ensures id.None? <==> r == Err(BadRequest)
    ensures id.Some? && FindById(store, id.value).None? <==> r == Err(NotFound)
    ensures r.Ok? ==> id.Some? && FindById(store, id.value) == Some(r.value.product.product)
    ensures r.Ok? ==> r.value.product == Enrich([r.value.product.product], merchants).items[0]
    ensures r.Ok? ==> r.value.similarProducts
                      == ShownItems(GetSimilarProducts(r.value.product.product, store, sampled), merchants, id.value)
    ensures r.Ok? ==> exists rec :: Recommended(r.value.product.product, wishlist, store, rec)
                                    && r.value.productsYouMayLike == ShownItems(rec, merchants, id.value)
    ensures r.Ok? ==> |r.value.similarProducts| <= MaxSuggestions && |r.value.productsYouMayLike| <= MaxSuggestions
    ensures r.Ok? ==> DistinctIds(r.value.similarProducts) && DistinctIds(r.value.productsYouMayLike)
    ensures r.Ok? ==> forall x :: x in r.value.similarProducts ==> x.product in store && x.product.id != id.value
    ensures r.Ok? ==> forall x :: x in r.value.productsYouMayLike ==> x.product.id != id.value
  {
    if id.None? {
      return Err(BadRequest);
    }
    var found := FindById(store, id.value);
    if found.None? {
      return Err(NotFound);
    }
    var product := found.value;
    var similar := GetSimilarProducts(product, store, sampled);
    var recommended := GetRecommendedProducts(product, wishlist, store);
    var main := Enrich([product], merchants).items;
    var similarShown := Shown(similar, merchants, id.value);
    var recommendedShown := Shown(recommended, merchants, id.value);
    r := Ok(ProductPage(main[0], similarShown, recommendedShown));
    assert Recommended(product, wishlist, store, recommended);
  }
}

=== FILE: text.dfy ===
/** The JavaScript string operations the core relies on, over `seq<char>`:
    `indexOf`/`includes`, `split` and `join` with a non-empty separator, `trim`
    (the ECMAScript white-space and line-terminator set) and an ASCII
    `toLowerCase`. */
module Text {
  import opened Wrappers

  /** `sep` occurs in `s` starting at index `j`. */
  predicate OccursAt(s: string, sep: string, j: int) {
    0 <= j && j + |sep| <= |s| && s[j..j + |sep|] == sep
  }

  lemma OccursShift(s: string, sep: string, j: nat)
    requires |s| >= 1
    ensures OccursAt(s, sep, j + 1) <==> OccursAt(s[1..], sep, j)
  {
    if j + 1 + |sep| <= |s| {
      assert s[1..][j..j + |sep|] == s[j + 1..j + 1 + |sep|];
    }
  }

  /** `s.indexOf(sep)`: the first index at which `sep` occurs, if any. */
  function IndexOf(s: string, sep: string): (r: Option<nat>)
    requires sep != ""
    ensures r.Some? ==> OccursAt(s, sep, r.value)
    ensures r.Some? ==> forall j :: 0 <= j < r.value ==> !OccursAt(s, sep, j)
    ensures r.None? ==> forall j :: !OccursAt(s, sep, j)
    decreases |s|
  {
    if |s| < |sep| then None
    else if s[..|sep|] == sep then Some(0)
    else
      var rest := IndexOf(s[1..], sep);
      assert !OccursAt(s, sep, 0);
      forall j | 1 <= j ensures OccursAt(s, sep, j) <==> OccursAt(s[1..], sep, j - 1) {
        OccursShift(s, sep, j - 1);
      }
      match rest
      case None => None
      case Some(k) => Some(k + 1)
  }

  /** `s.includes(sep)`. */
  predicate Includes(s: string, sep: string)
    requires sep != ""
  {
    IndexOf(s, sep).Some?
  }

  /** `s.split(sep)` for a non-empty separator: the pieces between the
      left-to-right, non-overlapping occurrences of `sep`. */
  function Split(s: string, sep: string): (parts: seq<string>)
    requires sep != ""
    ensures |parts| >= 1
    decreases |s|
  {
    match IndexOf(s, sep)
    case None => [s]
    case Some(k) => [s[..k]] + Split(s[k + |sep|..], sep)
  }

  /** A string splits into more than one piece exactly when it holds the separator. */
  lemma SplitOnePiece(s: string, sep: string)
    requires sep != ""
    ensures |Split(s, sep)| == 1 <==> IndexOf(s, sep).None?
  {
  }

  /** `parts.join(sep)`. */
  function Join(parts: seq<string>, sep: string): string {
    if |parts| == 0 then ""
    else if |parts| == 1 then parts[0]
    else parts[0] + sep + Join(parts[1..], sep)
  }

  lemma JoinCons(a: string, rest: seq<string>, sep: string)
    requires |rest| >= 1
    ensures Join([a] + rest, sep) == a + sep + Join(rest, sep)
  {
    assert ([a] + rest)[1..] == rest;
  }

  /** Splitting and joining again with the same separator gives back the string. */
  lemma {:induction false} JoinSplit(s: string, sep: string)
    requires sep != ""
    ensures Join(Split(s, sep), sep) == s
    decreases |s|
  {
    var found := IndexOf(s, sep);
    if found.Some? {
      var k := found.value;
      var rest := s[k + |sep|..];
      assert Split(s, sep) == [s[..k]] + Split(rest, sep);
      JoinSplit(rest, sep);
      JoinCons(s[..k], Split(rest, sep), sep);
      SplitAround(s, sep, k);
    }
  }

  lemma SplitAround(s: string, sep: string, k: nat)
    requires OccursAt(s, sep, k)
    ensures s == s[..k] + sep + s[k + |sep|..]
  {
    assert s == s[..k] + s[k..k + |sep|] + s[k + |sep|..];
  }

  /** Number of occurrences of the character `c` in `s`. */
  function Count(s: string, c: char): nat {
    if s == "" then 0 else (if s[0] == c then 1 else 0) + Count(s[1..], c)
  }

  lemma {:induction false} CountAppend(a: string, b: string, c: char)
    ensures Count(a + b, c) == Count(a, c) + Count(b, c)
  {
    if a != "" {
      assert (a + b)[1..] == a[1..] + b;
      CountAppend(a[1..], b, c);
    } else {
      assert a + b == b;
    }
  }

  lemma {:induction false} CountZero(s: string, c: char)
    requires forall j :: 0 <= j < |s| ==> s[j] != c
    ensures Count(s, c) == 0
  {
    if s != "" {
      CountZero(s[1..], c);
    }
  }

  /** With a one-character separator no piece contains that character. */
  lemma {:induction false} SplitPiecesFree(s: string, c: char, i: nat)
    requires i < |Split(s, [c])|
    ensures Count(Split(s, [c])[i], c) == 0
    decreases |s|
  {
    match IndexOf(s, [c])
    case None =>
      forall j | 0 <= j < |s| ensures s[j] != c {
        assert !OccursAt(s, [c], j);
        assert s[j..j + 1] == [s[j]];
      }
      CountZero(s, c);
    case Some(k) =>
      if i == 0 {
        forall j | 0 <= j < k ensures s[..k][j] != c {
          assert !OccursAt(s, [c], j);
          assert s[j..j + 1] == [s[j]];
        }
        CountZero(s[..k], c);
      } else {
        SplitPiecesFree(s[k + 1..], c, i - 1);
      }
  }

  /** A one-character separator occurs exactly where that character stands. */
  lemma OccursSingle(s: string, c: char, j: int)
    ensures OccursAt(s, [c], j) <==> 0 <= j < |s| && s[j] == c
  {
    if 0 <= j < |s| {
      assert s[j..j + 1] == [s[j]];
    }
  }

  /** A string without the separator character splits into itself alone. */
  lemma SplitFree(s: string, c: char)
    requires forall j :: 0 <= j < |s| ==> s[j] != c
    ensures Split(s, [c]) == [s]
  {
    forall j ensures !OccursAt(s, [c], j) {
      OccursSingle(s, c, j);
    }
  }

  /** Splitting on a character around one of its occurrences: the pieces of the two
      sides, one after the other. */
  lemma {:induction false} SplitAt(a: string, c: char, b: string)
    ensures Split(a + [c] + b, [c]) == Split(a, [c]) + Split(b, [c])
    decreases |a|
  {
    var s := a + [c] + b;
    match IndexOf(a, [c])
    case None =>
      FirstSeparatorAtEnd(a, c, b);
      assert s[..|a|] == a && s[|a| + 1..] == b;
    case Some(k) =>
      FirstSeparatorInside(a, c, b, k);
      assert s[..k] == a[..k];
      assert s[k + 1..] == a[k + 1..] + [c] + b;
      SplitAt(a[k + 1..], c, b);
  }

  /** When `a` holds no `c`, the first `c` of `a + [c] + b` is the appended one. */
  lemma FirstSeparatorAtEnd(a: string, c: char, b: string)
    requires IndexOf(a, [c]).None?
    ensures IndexOf(a + [c] + b, [c]) == Some(|a|)
  {
    var s := a + [c] + b;
    forall j | 0 <= j < |a| ensures !OccursAt(s, [c], j) {
      OccursSingle(s, c, j);
      OccursSingle(a, c, j);
    }
    OccursSingle(s, c, |a|);
    FirstOccurrence(s, [c], |a|);
  }

  /** When `a` holds a `c`, the first `c` of `a + [c] + b` is that of `a`. */
  lemma FirstSeparatorInside(a: string, c: char, b: string, k: nat)
    requires IndexOf(a, [c]) == Some(k)
    ensures IndexOf(a + [c] + b, [c]) == Some(k)
  {
    var s := a + [c] + b;
    forall j | 0 <= j <= k ensures OccursAt(s, [c], j) <==> OccursAt(a, [c], j) {
      OccursSingle(s, c, j);
      OccursSingle(a, c, j);
    }
    FirstOccurrence(s, [c], k);
  }

  /** An occurrence with none before it is the one `IndexOf` finds. */
  lemma FirstOccurrence(s: string, sep: string, k: nat)
    requires sep != ""
    requires OccursAt(s, sep, k)
    requires forall j :: 0 <= j < k ==> !OccursAt(s, sep, j)
    ensures IndexOf(s, sep) == Some(k)
  {
  }

  /** A prefix holds no more occurrences of a character than the whole string. */
  lemma CountPrefix(s: string, i: nat, c: char)
    requires i <= |s|
    ensures Count(s[..i], c) <= Count(s, c)
  {
    assert s == s[..i] + s[i..];
    CountAppend(s[..i], s[i..], c);
  }

  /** The characters JavaScript's `trim` removes: white space and line terminators. */
  predicate IsSpace(ch: char) {
    ch == ' ' || ch == '\t' || ch == '\n' || ch == '\r'
    || ch == '\U{000B}' || ch == '\U{000C}' || ch == '\U{00A0}' || ch == '\U{FEFF}'
    || ch == '\U{1680}' || ('\U{2000}' <= ch <= '\U{200A}')
    || ch == '\U{2028}' || ch == '\U{2029}' || ch == '\U{202F}' || ch == '\U{205F}'
    || ch == '\U{3000}'
  }

  function TrimStart(s: string): (r: string)
    ensures |r| <= |s| && r == s[|s| - |r|..]
    ensures forall k :: 0 <= k < |s| - |r| ==> IsSpace(s[k])
    ensures r != "" ==> !IsSpace(r[0])
  {
    if s != "" && IsSpace(s[0]) then TrimStart(s[1..]) else s
  }

  function TrimEnd(s: string): (r: string)
    ensures |r| <= |s| && r == s[..|r|]
    ensures forall k :: |r| <= k < |s| ==> IsSpace(s[k])
    ensures r != "" ==> !IsSpace(r[|r| - 1])
  {
    if s != "" && IsSpace(s[|s| - 1]) then TrimEnd(s[..|s| - 1]) else s
  }

  /** `r` is the infix of `s` starting at `i`, and everything around it is white space. */
  predicate TrimmedAt(s: string, r: string, i: int) {
    0 <= i <= |s| - |r| && r == s[i..i + |r|]
    && (forall k :: 0 <= k < i ==> IsSpace(s[k]))
    && (forall k :: i + |r| <= k < |s| ==> IsSpace(s[k]))
  }

  /** `s.trim()`: the longest infix of `s` that neither starts nor ends with white space,
      obtained by dropping only white space from both ends. */
  function Trim(s: string): (r: string)
    ensures |r| <= |s|
    ensures r != "" ==> !IsSpace(r[0]) && !IsSpace(r[|r| - 1])
    ensures exists i :: TrimmedAt(s, r, i)
  {
    var t := TrimStart(s);
    var r := TrimEnd(t);
    var i := |s| - |t|;
    assert TrimmedAt(s, r, i);
    r
  }

  /** A string that neither starts nor ends with white space is its own trim. */
  lemma TrimTrimmed(s: string)
    requires s != "" ==> !IsSpace(s[0]) && !IsSpace(s[|s| - 1])
    ensures Trim(s) == s
  {
  }

  predicate IsUpper(ch: char) {
    'A' <= ch <= 'Z'
  }

  /** An ASCII capital becomes its small letter, 32 code points later; any other
      character is kept. */
  function LowerChar(ch: char): (r: char)
    ensures !IsUpper(r)
    ensures IsUpper(ch) ==> 'a' <= r <= 'z' && r as int == ch as int + 32
    ensures !IsUpper(ch) ==> r == ch
  {
    if IsUpper(ch) then (ch as int + 32) as char else ch
  }

  /** `s.toLowerCase()` restricted to the ASCII letters. */
  function ToLower(s: string): (r: string)
    ensures |r| == |s|
    ensures forall k :: 0 <= k < |s| ==> r[k] == LowerChar(s[k])
    ensures forall k :: 0 <= k < |r| ==> !IsUpper(r[k])
    ensures (forall k :: 0 <= k < |s| ==> !IsUpper(s[k])) ==> r == s
  {
    seq(|s|, k requires 0 <= k < |s| => LowerChar(s[k]))
  }
}

=== FILE: wrappers.dfy ===
/** Small value types shared by every part of the model: an optional value, the
    HTTP error taxonomy the controllers answer with, and a result that is either a
    value or one of those errors. */
module Wrappers {

  /** A value that may be absent (`undefined`, `null` or NaN in the source). */
  datatype Option<+T> = None | Some(value: T) {
    function GetOr(default: T): T {
      match this
      case Some(v) => v
      case None => default
    }
  }

  /** The status codes the controllers send on failure. */
  datatype Failure = BadRequest | Unauthorized | Forbidden | NotFound | ServerError {
    function Code(): int {
      match this
      case BadRequest => 400
      case Unauthorized => 401
      case Forbidden => 403
      case NotFound => 404
      case ServerError => 500
    }
  }

  datatype Result<+T> = Ok(value: T) | Err(failure: Failure)
}
